=== FILE: README.md ===
# FormulaArithmetic in Dafny

A model of `FormulaArithmetic`, a small JavaScript library that evaluates
arithmetic text with Excel-style function calls, together with proofs about
that model. The library is one class in `dist/formulae.cjs.js`. It runs a
four-stage pipeline:

1. **Desugaring** (`_replaceOnce`, `preprocess`). The leftmost call
   `NAME ( a1, a2, ... )` is rewritten to `(a1 op a2 op ...)`, and this
   repeats until no call is left.
   - `NAME` is one of ADD, SUBTRACT, MULTIPLY, DIVIDE, MOD or POWER, matched
     case-insensitively after a word boundary.
   - The arguments are the trimmed pieces of the body between commas that
     are not nested in parentheses.
   - ADD, SUBTRACT and MULTIPLY take two or more arguments. DIVIDE, MOD and
     POWER take exactly two.
2. **Tokenizing** (`tokenize`). Whitespace is skipped. A maximal run of
   digits and dots is one number. `+ - * / % ^` and the parentheses are tokens
   of their own. Any other character is an error.
3. **Shunting yard** (`toRPN`). The tokens are reordered into postfix using
   the precedence and associativity of the operator table. Only `^` is
   right-associative.
4. **Postfix evaluation** (`evalRPN`). An operator pops its right operand,
   then its left operand. Exactly one value must remain.

Modules, in pipeline order:

| file | module | contents |
|---|---|---|
| chars.dfy | Chars | JavaScript `\s`, the `\b` word class, ASCII upper-casing, `trim`, `join` |
| results.dfy | Results | `Option`, the error kinds, and `Result` with `:-` |
| tables.dfy | Tables | operator table, `fnNames`, the name-to-operator map, `variadic` |
| calls.dfy | Calls | the call pattern, written out, and its leftmost-match search |
| parens.dfy | Parens | the depth-counting scan for the closing `)` and the argument split |
| replace.dfy | Replace | one desugaring pass |
| measure.dfy | Measure | the letter count that every pass lowers |
| preprocess.dfy | Preprocess | the repeated pass (`Desugar`) |
| tokens.dfy | Tokens | tokens, with the numbers and operators they hold |
| tokenizer.dfy | Tokenizer | the tokenizer |
| rpn.dfy | Rpn | the shunting yard and its invariants |
| trees.dfy | Trees | expression trees, their infix and postfix forms, grouping examples |
| groups.dfy | Groups | a parenthesised group converts as its content does, whatever surrounds it |
| chains.dfy | Chains | chains of one operator over operands that each convert as a tree (a number, a fully parenthesised tree, a parenthesised group), and their left grouping |
| evalrpn.dfy | Evaluator | the postfix evaluator |
| formula.dfy | Formula | the whole pipeline (`evaluate`) |
| grouping.dfy | Grouping | how the rewriting's missing argument parentheses change the value, and the wrapped rewriting that fixes it |

Numbers and arithmetic are abstract. A number token keeps its lexeme. The
evaluator takes three parameters:
- `num` turns a lexeme into a value; it stands for `parseFloat`.
- `apply` performs an operator; it stands for the `exec` entries.
- `missing` is what `pop()` returns on an empty stack, i.e. JavaScript's
  `undefined`.

The model keeps these details of the code:
- The arity errors carry only the function name, not the argument count.
- The invalid-character error carries only the character, not its position.
- A name may be followed by whitespace before its `(`, and it must start at a
  word boundary.
- An operator with too few operands does not fail. It pops `undefined` (see
  `Evaluator.Underflow`), so only the final stack height is checked.
- The rewriting joins the argument texts without parentheses around each
  argument. So `MULTIPLY(1+2,3)` becomes `(1+2*3)`, worth `1 + 2 * 3`. The
  pipeline (`Preprocess.Desugar`, `Formula.Evaluate`) keeps this, since it is
  what the library does; see "## Findings" and the module Grouping.

## Model

| member | source | states |
|---|---|---|
| Tables.SymbolRoundTrip | dist/formulae.cjs.js:11-18 | every operator's symbol is a key of the operator table, and looking it up gives the operator back |
| Tables.OpOfChar | dist/formulae.cjs.js:91-92 | looking a key up in the operator table gives the operator whose symbol it is |
| Tables.OpMapCoversFnNames | dist/formulae.cjs.js:19-21 | every recognised name has an operator symbol in the map, and every variadic name is a recognised name |
| Tables.FnNamesLong | dist/formulae.cjs.js:19 | every recognised name has at least three letters |
| Chars.UpperAscii | dist/formulae.cjs.js:26 | case folding maps a lower-case ASCII letter to the letter 32 code points below it and leaves every other character as it is; letters stay letters and word characters stay word characters |
| Chars.SkipSpaces | dist/formulae.cjs.js:26 | `\s*` is greedy: everything it skips is whitespace, and it stops at a non-space or the end |
| Calls.SkipSpacesUpper | dist/formulae.cjs.js:26 | `\s*` skips the same characters in a text and in its upper-cased form |
| Calls.CallAtUpper | dist/formulae.cjs.js:26 | the pattern matches at a position of a text exactly when it matches there in the upper-cased text |
| Calls.CallAtIgnoresCase | dist/formulae.cjs.js:26 | with the `i` flag, two texts that differ only in letter case have the same matches |
| Calls.LowerCaseCall | dist/formulae.cjs.js:26 | `add(1,2)` and `Add (1,2)` both match as ADD |
| Calls.CallNameAt | dist/formulae.cjs.js:26 | the alternation picks a name for which the whole pattern matches; no name means no alternative matches there |
| Calls.FindCall | dist/formulae.cjs.js:26-28 | `exec` returns the leftmost match, with no match before it; no result means no position matches |
| Calls.IndexOf | dist/formulae.cjs.js:32 | `indexOf` returns the first index at or after the start holding the character, or -1 when there is none |
| Calls.IndexOfFindsCallParen | dist/formulae.cjs.js:31-32 | searching for `(` from the end of the matched name finds the `(` that ends the match |
| Parens.ScanClose | dist/formulae.cjs.js:33-39 | the depth scan stops at level 0 exactly at a `)` that closes the call; otherwise it runs to the end with the call unclosed |
| Parens.ScanCloseFindsClose | dist/formulae.cjs.js:33-39 | when the call's `(` is closed at `c`, the scan stops at `c` |
| Parens.ScanCloseUnclosed | dist/formulae.cjs.js:33-40 | the scan ends with a non-zero level exactly when the `(` is never closed |
| Parens.ClosesUnique | dist/formulae.cjs.js:33-39 | a `(` is closed by at most one `)`, and a closed `(` is not unclosed |
| Parens.SplitTop | dist/formulae.cjs.js:43-50 | the splitting loop yields at least one piece; the first piece begins with the text collected before the loop; the pieces' lengths plus one per cut comma add up to the length of the collected text and the body |
| Parens.SplitArgs | dist/formulae.cjs.js:43-51 | there is one argument per piece, except possibly for the last piece, and each argument is its piece trimmed |
| Parens.ArgsOfPieces | dist/formulae.cjs.js:48-51 | every piece but the last gives one argument, and each argument is its piece trimmed |
| Parens.SplitTopPieces | dist/formulae.cjs.js:43-50 | the splitting loop cuts the body at exactly its depth-0 commas: the pieces joined with commas give the body back, and no piece keeps a depth-0 comma |
| Parens.SplitArgsPieces | dist/formulae.cjs.js:43-51 | each argument is the trimmed piece; a blank piece is kept unless it is the last one |
| Parens.ArgsOfPiecesSpec | dist/formulae.cjs.js:48-51 | every piece before the last becomes an argument, blank or not; the last becomes one exactly when it is not blank |
| Chars.Trim | dist/formulae.cjs.js:48 | `trim` never lengthens the text, and a non-empty result starts and ends with a non-space |
| Chars.TrimSpec | dist/formulae.cjs.js:48 | `trim` keeps the middle of the text: all space before and after it, and a non-space at each end |
| Chars.TrimDecompose | dist/formulae.cjs.js:48 | the text is leading whitespace, then its trimmed form, then trailing whitespace |
| Chars.TrimEmptyIff | dist/formulae.cjs.js:51 | a text trims to nothing exactly when it is all whitespace |
| Chars.JoinWith | dist/formulae.cjs.js:60 | joining no texts gives the empty text; joining n texts, n at least one, gives their total length plus n - 1 separators |
| Chars.JoinWithSnoc | dist/formulae.cjs.js:60 | joining two or more texts is joining all but the last, then the separator, then the last |
| Replace.ReplaceOnce | dist/formulae.cjs.js:25-28 | the pass reports "no call" exactly when no position of the text matches the pattern |
| Replace.ReplaceAt | dist/formulae.cjs.js:29-41 | once a call matched, the pass either fails or returns a new text, never "no call" |
| Replace.CallNameUnique | dist/formulae.cjs.js:26 | at most one alternative of the pattern matches at a position |
| Replace.FindsFirstCall | dist/formulae.cjs.js:26-29 | the pass works on the leftmost call and the name it spells |
| Replace.FirstCallIgnoresCase | dist/formulae.cjs.js:26-28 | two texts that differ only in letter case have the same leftmost call |
| Replace.ReplaceAtUnclosed | dist/formulae.cjs.js:40 | a call whose `(` is never closed fails with the unclosed-call error naming the function |
| Replace.ReplaceAtClosed | dist/formulae.cjs.js:31-41 | a closed call is rewritten from the start of its name to the `)` that closes it |
| Replace.Rewrite | dist/formulae.cjs.js:53-65 | the replacement step fails only with the unknown-function or an arity error naming the function, and otherwise always returns a text |
| Replace.RewriteSpec | dist/formulae.cjs.js:53-65 | a variadic call with fewer than two arguments fails; a binary call without exactly two fails; otherwise the text before the call, then `(` + arguments joined by the operator + `)`, then the text after the `)` |
| Replace.PairIsJoin | dist/formulae.cjs.js:58-64 | the two-argument form `(a op b)` is the join of the two arguments |
| Replace.RewriteValue | dist/formulae.cjs.js:53-65 | a successful step returns the text before the name, then the arguments joined by the name's operator in parentheses, then the text after the `)` |
| Replace.ReplaceOnceShape | dist/formulae.cjs.js:25-65 | a pass that returns a text found the leftmost call, found its closing `)`, and rewrote it |
| Replace.ReplaceOnceNeverUnknown | dist/formulae.cjs.js:53-55 | the unknown-function error is never raised |
| Measure.LettersArgs | dist/formulae.cjs.js:43-51 | splitting and trimming keeps every letter of the call body |
| Measure.RewriteLetters | dist/formulae.cjs.js:53-65 | the rewritten text has exactly the letters of the original minus the function name's |
| Measure.ReplaceOnceLetters | dist/formulae.cjs.js:25-65 | every pass that returns a text lowers the letter count by at least three |
| Preprocess.Desugar | dist/formulae.cjs.js:69-78 | the loop ends, and its result has no call left and no more letters than its input |
| Preprocess.PassChangesText | dist/formulae.cjs.js:76 | a pass that returns a text never returns its input, so the `cur !== prev` test never stops the loop |
| Preprocess.DesugarFixpoint | dist/formulae.cjs.js:69-78 | a text comes back unchanged exactly when it has no call |
| Preprocess.DesugarIdempotent | dist/formulae.cjs.js:69-78 | desugaring a desugared text changes nothing |
| Preprocess.DesugarNoLetters | dist/formulae.cjs.js:26 | a text without letters is left as it is |
| Preprocess.DesugarUnclosed | dist/formulae.cjs.js:40 | when the leftmost call is never closed, the whole loop fails with that error |
| Preprocess.DesugarBadArity | dist/formulae.cjs.js:58-62 | when the leftmost call has the wrong number of arguments, the loop fails with the matching arity error |
| Preprocess.DesugarStep | dist/formulae.cjs.js:65-75 | with a well-formed leftmost call, the loop's result is the result for the rewritten text |
| Preprocess.DesugarAddThree | dist/formulae.cjs.js:58-60 | `ADD(1,2,3)` desugars to `(1+2+3)` |
| Preprocess.DesugarDivideThree | dist/formulae.cjs.js:62 | `DIVIDE(10,2,3)` fails with the exactly-two-arguments error for DIVIDE |
| Preprocess.DesugarAddUnclosed | dist/formulae.cjs.js:40 | `ADD(1,2` fails with the mismatched-parentheses error for ADD |
| Preprocess.SplitOneTwoThree | dist/formulae.cjs.js:43-51 | the body `1,2,3` splits into the arguments `1`, `2` and `3` |
| Tokenizer.NumRun | dist/formulae.cjs.js:87-89 | the inner loop takes the maximal run of digits and dots |
| Tokenizer.Tokenize | dist/formulae.cjs.js:81-97 | tokenizing fails only with the invalid-character error, naming a character of the input that is not accepted; a success has no more tokens than the input has characters |
| Tokenizer.TokenizeFails | dist/formulae.cjs.js:81-97 | tokenizing fails exactly when some character is not whitespace, a digit, a dot, an operator symbol or a parenthesis |
| Tokenizer.TokenizeFirstRejected | dist/formulae.cjs.js:95 | the error names the first rejected character |
| Tokenizer.TokenizeWellFormed | dist/formulae.cjs.js:87-90 | every number token is a non-empty run of digits and dots |
| Tokenizer.TokenizeSquash | dist/formulae.cjs.js:81-97 | the tokens' characters, laid end to end, are the input without its whitespace: source order, nothing inserted or dropped |
| Tokenizer.TokenizeRuns | dist/formulae.cjs.js:87-90 | the number tokens' lexemes are exactly the maximal digit-and-dot runs of the input, in order (`MaxRuns`) |
| Tokenizer.MaxRunsExample | dist/formulae.cjs.js:87-89 | the maximal runs of `12 3` are `12` and `3` |
| Tokenizer.SpaceSplitsNumbers | dist/formulae.cjs.js:84-90 | `12 3` is read as two numbers, `12` and `3`, since whitespace ends a run |
| Tokenizer.TokenizeRender | dist/formulae.cjs.js:81-97 | tokens written with spaces between them are read back as the same tokens |
| Tokenizer.TokenizeCons | dist/formulae.cjs.js:84-95 | one token's text, followed by a readable rest that does not start with a digit or dot when the token is a number, is read as that token in front of the rest's tokens |
| Tokenizer.TokenizeNumeral | dist/formulae.cjs.js:87-90 | a numeral followed by the end or by a character that is not a digit or dot is read as one number token in front of the rest |
| Tokenizer.TokenizeSquashed | dist/formulae.cjs.js:81-97 | well-formed tokens with no two numbers side by side, laid end to end with no space, are read back as the same tokens |
| Tokenizer.TokenizeBeforeClose | dist/formulae.cjs.js:84-95 | a `)` ends any number run, so a text that reads before a `)` is read the same way with the `)` and a readable rest after it |
| Tokenizer.TokenizeWrapped | dist/formulae.cjs.js:84-95 | a readable text in parentheses, followed by a readable rest, reads as `(`, the text's tokens, `)`, the rest's tokens |
| Rpn.PopHigherSpec | dist/formulae.cjs.js:106-114 | the inner loop for an operator keeps the numbers, the operators held between output and stack, and the open parentheses |
| Rpn.PopHigherMoves | dist/formulae.cjs.js:107-114 | the inner loop for an operator `o` moves a top segment of the stack to the output, top first; every token moved is an operator that `o` makes yield; the loop stops at an empty stack or at a top that is not such an operator |
| Rpn.PopToOpenSpec | dist/formulae.cjs.js:118-125 | the loop for `)` fails exactly when no `(` is on the stack; otherwise it removes one `(` and moves operators only |
| Rpn.PopToOpenMoves | dist/formulae.cjs.js:119-124 | a successful loop for `)` stops at the topmost `(` and discards it; everything above it goes to the output, top first, and the stack below it stays |
| Rpn.PopToOpenFailure | dist/formulae.cjs.js:119-125 | the loop for `)` fails only with the mismatched-parentheses error |
| Rpn.StepSpec | dist/formulae.cjs.js:103-127 | one token fails exactly when it is a `)` with no `(` waiting; otherwise the output gains its number, the operators are kept, and the `(` count moves by the token |
| Rpn.RunSucceeds | dist/formulae.cjs.js:103-128 | the main loop fails exactly when some `)` finds no `(` to close |
| Rpn.RunFailure | dist/formulae.cjs.js:103-128 | the main loop fails only with the mismatched-parentheses error, and only when the input holds a `)` |
| Rpn.RunInv | dist/formulae.cjs.js:103-128 | only operators and `(` are pushed, and no parenthesis reaches the output |
| Rpn.RunKeeps | dist/formulae.cjs.js:103-128 | the main loop keeps the numbers in order and the operators as a multiset, and leaves one `(` per unclosed one |
| Rpn.DrainSpec | dist/formulae.cjs.js:129-131 | the final loop fails exactly when a `(` is left, and otherwise moves every operator to the output |
| Rpn.DrainMoves | dist/formulae.cjs.js:129-131 | a successful final loop appends the whole stack to the output, top first |
| Rpn.DrainFailure | dist/formulae.cjs.js:129-131 | the final loop fails only with the mismatched-parentheses error, and only when a parenthesis is on the stack |
| Rpn.ToRPNFailure | dist/formulae.cjs.js:101-132 | the conversion fails only with the mismatched-parentheses error |
| Rpn.ToRPNSucceeds | dist/formulae.cjs.js:119-131 | the conversion succeeds exactly on balanced parentheses |
| Rpn.ToRPNKeeps | dist/formulae.cjs.js:101-132 | the output has no parenthesis, the numbers of the input in their order, and each operator of the input as often |
| Trees.RunInfix | dist/formulae.cjs.js:101-128 | a fully parenthesised tree appends its postfix form to the output and leaves the stack as it found it |
| Trees.ToRPNInfix | dist/formulae.cjs.js:101-132 | a fully parenthesised tree converts to its postfix form |
| Trees.ToRPNChain | dist/formulae.cjs.js:106-115 | in `a o1 b o2 c`, `o1` is applied first exactly when `o2` makes it yield |
| Trees.PowerGroupsRight | dist/formulae.cjs.js:17 | `2 ^ 3 ^ 2` converts to `2 3 2 ^ ^` |
| Trees.MinusGroupsLeft | dist/formulae.cjs.js:13 | `2 - 3 - 2` converts to `2 3 - 2 -` |
| Trees.TimesBeforePlus | dist/formulae.cjs.js:12-14 | `1 + 2 * 3` converts to `1 2 3 * +` |
| Trees.PopHigherPlusTwo | dist/formulae.cjs.js:107-114 | with `* ^` on the stack, an incoming `+` moves `^` and then `*` to the output and empties the stack |
| Trees.PlusPopsTwo | dist/formulae.cjs.js:101-132 | `2 * 3 ^ 2 + 1` converts to `2 3 2 ^ * 1 +` |
| Groups.GroupRun | dist/formulae.cjs.js:116-126 | `( ts )` in the middle of a token sequence appends what `ts` converts to on its own and leaves the stack below the `(` as it was |
| Groups.ToRPNGroup | dist/formulae.cjs.js:101-132 | parentheses around a sequence that converts change nothing |
| Chains.FoldLeftSnoc | dist/formulae.cjs.js:60 | the left fold of `e0 o ... o ek` applies `o` last, to the fold of the shorter chain and `ek` |
| Chains.FoldLeftValue | dist/formulae.cjs.js:60 | the value of a chain is `apply(o, value of the shorter chain, value of ek)` |
| Chains.PopHigherStops | dist/formulae.cjs.js:107-114 | an operator meeting a stack it does not yield to pops nothing |
| Chains.PopHigherOne | dist/formulae.cjs.js:107-114 | a left-associative operator meeting itself pops exactly that one operator |
| Chains.RunOperatorStops | dist/formulae.cjs.js:105-115 | an operator meeting a stack it does not yield to is pushed, with the output unchanged |
| Chains.RunOpTail | dist/formulae.cjs.js:103-115 | each further `o ek` of a chain moves the pending `o` out and leaves `o` pending, building the left fold |
| Chains.RunChainFrom | dist/formulae.cjs.js:103-115 | a chain of two or more operands leaves the two halves of its left fold in the output and `o` pending on the stack |
| Chains.RunCloseEmpty | dist/formulae.cjs.js:116-126 | a `)` meeting its `(` on top of the stack only discards it |
| Chains.ToRPNLeftChain | dist/formulae.cjs.js:101-132 | `(g0 o g1 o ... o gk)`, where each group `gi` converts as the tree `ei` would (a number, a fully parenthesised tree, a parenthesised group), converts to the postfix form of `((e0 o e1) o ...) o ek` when `o` is not `^` or there are at most two groups |
| Chains.ToRPNBareLeftChain | dist/formulae.cjs.js:101-132 | the same chain without parentheses converts to the same left-grouped postfix form |
| Chains.EvalLeftChain | dist/formulae.cjs.js:136-147 | that postfix form evaluates to the value of the left fold |
| Chains.AddThreeGroupsLeft | dist/formulae.cjs.js:101-132 | `(1 + 2 + 3)` converts to `1 2 + 3 +` |
| Evaluator.Pop | dist/formulae.cjs.js:141 | `pop` returns the last element and the rest, or `undefined` on an empty stack |
| Evaluator.EvalStepsSpec | dist/formulae.cjs.js:137-144 | the loop fails exactly on a parenthesis token, and otherwise ends with the stack height the tokens predict |
| Evaluator.EvalRPNSucceeds | dist/formulae.cjs.js:136-147 | evaluation succeeds exactly on parenthesis-free input that leaves one value, failing with the matching error otherwise |
| Evaluator.EvalPostfixSteps | dist/formulae.cjs.js:137-144 | the postfix form of a tree pushes the tree's value and leaves the stack below untouched |
| Evaluator.EvalRPNPostfix | dist/formulae.cjs.js:136-147 | evaluating a tree's postfix form gives the tree's value |
| Evaluator.OperandOrder | dist/formulae.cjs.js:141-142 | `a b op` applies `op` with `a` on the left and `b` on the right |
| Evaluator.Underflow | dist/formulae.cjs.js:141-142 | an operator with one operand succeeds, with `undefined` as its left operand |
| Evaluator.EmptyIsInvalid | dist/formulae.cjs.js:145 | evaluating no tokens fails with the invalid-evaluation error |
| Formula.Evaluate | dist/formulae.cjs.js:150-155 | a formula evaluates only if desugaring leaves no call and the tokens have balanced parentheses |
| Formula.EvaluateInfix | dist/formulae.cjs.js:150-155 | a fully parenthesised tree, written out with spaces, evaluates to the tree's value |
| Formula.EvaluateLeftChain | dist/formulae.cjs.js:150-155 | `(g0 o ... o gk)`, each group converting as the tree `ei` would, written out with spaces, evaluates to `((e0 o e1) o ...) o ek` when `o` groups from the left; an argument text with operators of its own is not such a group unless it is parenthesised (see Grouping) |
| Formula.EvaluateSquashedChain | dist/formulae.cjs.js:150-155 | the same chain laid out with no space, as the rewriting writes it, evaluates to the same left fold, provided no two numbers end up side by side |
| Formula.EvaluateAddThree | dist/formulae.cjs.js:150-155 | `ADD(1,2,3)` evaluates to `(1 + 2) + 3` |
| Formula.EvaluateStep | dist/formulae.cjs.js:150-155 | replacing the leftmost well-formed call by its operator form leaves the value unchanged |
| Formula.EvaluateDesugared | dist/formulae.cjs.js:151 | the pipeline sees a formula only through its desugared text |
| Formula.EvaluateInvalid | dist/formulae.cjs.js:152 | a call-free formula with a rejected character fails on the first one |
| Grouping.DesugarMultiplyLeak | dist/formulae.cjs.js:58-60 | `MULTIPLY(1+2,3)` desugars to `(1+2*3)`: the argument `1+2` is not parenthesised |
| Grouping.EvaluateMultiplyLeak | dist/formulae.cjs.js:58-60 | so `MULTIPLY(1+2,3)` evaluates to `1 + (2 * 3)` rather than to the product of its arguments |
| Grouping.MultiplyLeakValues | dist/formulae.cjs.js:58-60 | with integer arithmetic, `MULTIPLY(1+2,3)` evaluates to 7, while the wrapped replacement `((1+2)*(3))` evaluates to 9 |
| Grouping.RewriteWrapped | dist/formulae.cjs.js:53-64 | the corrected replacement step fails exactly where the step as written fails, with the same error; a success has a known name and an accepted arity |
| Grouping.EvaluateWrapped | dist/formulae.cjs.js:56-64 | when each argument text converts to a tree, the wrapped replacement `((a1)o(a2)o...(ak))` evaluates to the left fold of the arguments' values, for every operator and arity the rewriting accepts |
| Grouping.AcceptedCallsGroupLeft | dist/formulae.cjs.js:58-63 | every name and arity the rewriting accepts names an operator that groups from the left over that many arguments |
| Grouping.EvaluateWrappedMultiply | dist/formulae.cjs.js:56-64 | wrapped, `MULTIPLY(1+2,3)` becomes `((1+2)*(3))` and evaluates to `(1 + 2) * 3` |

## Findings

| source | as written | input that shows it | evidently intended | confidence | as-written member | corrected member |
|---|---|---|---|---|---|---|
| dist/formulae.cjs.js:60-63 | the replacement joins the argument texts with the operator and parenthesises only the whole, so an argument's own operators bind by precedence with the call's operator | `MULTIPLY(1+2,3)` becomes `(1+2*3)`, which evaluates to `1 + (2 * 3)` (7 with integers) | each argument is one operand: `((1+2)*(3))`, the product of the arguments (9) | not executed | Grouping.EvaluateMultiplyLeak | Grouping.EvaluateWrapped |

## Left out

- Floating point. The `exec` bodies, `Math.pow` and `parseFloat` are the parameters `apply` and `num`. So `NaN`, infinities and lexemes like `1.2.3` are whatever those parameters say.
- `undefined` from popping an empty stack is the parameter `missing`. What `exec` makes of it (`NaN`) belongs to `apply`.
- Strings are sequences of Unicode scalar values, not UTF-16 code units. Text with surrogate pairs is not modelled code unit by code unit.
- Error messages are error kinds with the function name or the character. The message text is not modelled.
- The `new RegExp` construction is written out as `Calls.CallAt` and `Calls.FindCall`; the regular-expression engine itself is not modelled.
- `rollup.config.js` is build tooling and is not part of this model.
- Measure.ReplaceOnceLetters: termination is measured by ASCII letters rather than by pattern matches, because a pass can create a new match: `MOD ADD(1,2)` becomes `MOD (1+2)`, where `MOD (` now matches. A pass always removes exactly the letters of one name (`Measure.RewriteLetters`).
- Trees.ToRPNChain: grouping by precedence and associativity is proved for fully parenthesised trees (`Trees.ToRPNInfix`), for two-operator chains `a o1 b o2 c`, and for chains of one operator that is not `^` (`Chains.ToRPNLeftChain`). That every minimally parenthesised expression converts to the postfix form of its precedence tree (the full BODMAS promise) is not proved.
- Grouping.RewriteWrapped: the corrected replacement is modelled as one step, next to the step as written; the pipeline (`Preprocess.Desugar`, `Formula.Evaluate`) keeps the replacement as written, because that is what the library does, and a full desugaring loop over the corrected step is not modelled.

=== FILE: calls.dfy ===
/** The call pattern `\b(ADD|SUBTRACT|MULTIPLY|DIVIDE|MOD|POWER)\s*\(`
    with the `i` flag, written out: a word boundary, a case-insensitive
    function name, optional whitespace and an opening parenthesis; and the
    leftmost-match search that `RegExp.prototype.exec` performs with it. */
module Calls {
  import opened Chars
  import opened Results
  import opened Tables

  /** `\b` before a name (whose first character is a word character): the
      start of the text, or a preceding character outside `[A-Za-z0-9_]`. */
  predicate BoundaryAt(s: string, p: nat) {
    p == 0 || (p <= |s| && !IsWordChar(s[p - 1]))
  }

  /** The characters at `p` spell `n` when upper-cased. */
  predicate NameAt(s: string, p: nat, n: string) {
    p + |n| <= |s| && forall i :: 0 <= i < |n| ==> UpperAscii(s[p + i]) == n[i]
  }

  /** The whole pattern matches at `p` with the alternative `n`. */
  predicate CallAt(s: string, p: nat, n: string) {
    && BoundaryAt(s, p)
    && NameAt(s, p, n)
    && var q := SkipSpaces(s, p + |n|);
       q < |s| && s[q] == '('
  }

  /** No position of the text matches the pattern. */
  ghost predicate NoCall(s: string) {
    forall p: nat, n :: n in FnNames ==> !CallAt(s, p, n)
  }

  /** The alternation at one position: the first alternative in `names`
      for which the rest of the pattern also matches. */
  function CallNameAt(s: string, p: nat, names: seq<string>): (r: Option<string>)
    ensures r.Some? ==> r.value in names && CallAt(s, p, r.value)
    ensures r.None? ==> forall n :: n in names ==> !CallAt(s, p, n)
  {
    if names == [] then None
    else if CallAt(s, p, names[0]) then Some(names[0])
    else CallNameAt(s, p, names[1..])
  }

  /** A successful `exec`: the index of the match and the matched name text (`m[1]`). */
  datatype Match = Match(index: nat, text: string)

  /** No position in `[from, to)` matches the pattern. */
  ghost predicate NoCallBetween(s: string, from: nat, to: nat) {
    forall p: nat, n :: from <= p < to && n in FnNames ==> !CallAt(s, p, n)
  }

  /** `m` is a match of the pattern: `m.text` is the text at `m.index`,
      and upper-cased it is the alternative that matched there. */
  ghost predicate IsMatch(s: string, m: Match) {
    && m.index + |m.text| <= |s|
    && m.text == s[m.index .. m.index + |m.text|]
    && UpperStr(m.text) in FnNames
    && CallAt(s, m.index, UpperStr(m.text))
  }

  lemma MatchOfName(s: string, p: nat, n: string)
    requires CallAt(s, p, n) && n in FnNames
    ensures IsMatch(s, Match(p, s[p .. p + |n|]))
  {
    var text := s[p .. p + |n|];
    assert forall i :: 0 <= i < |n| ==> UpperStr(text)[i] == n[i];
    assert UpperStr(text) == n;
  }

  /** The leftmost match at or after `from`. */
  function FindCall(s: string, from: nat): (r: Option<Match>)
    requires from <= |s|
    ensures r.Some? ==> from <= r.value.index && IsMatch(s, r.value) && NoCallBetween(s, from, r.value.index)
    ensures r.None? ==> NoCallBetween(s, from, |s| + 1)
    decreases |s| - from
  {
    match CallNameAt(s, from, FnNames)
    case Some(n) =>
      MatchOfName(s, from, n);
      Some(Match(from, s[from .. from + |n|]))
    case None =>
      if from == |s| then
        NoCallExtend(s, from, from + 1);
        None
      else
        var r := FindCall(s, from + 1);
        NoCallExtend(s, from, if r.Some? then r.value.index else |s| + 1);
        r
  }

  lemma NoCallExtend(s: string, from: nat, to: nat)
    requires forall n :: n in FnNames ==> !CallAt(s, from, n)
    requires NoCallBetween(s, from + 1, to)
    ensures NoCallBetween(s, from, to)
  {
  }

  /** No match starts past the end of the text, since names are non-empty. */
  lemma NoCallPastEnd(s: string)
    requires NoCallBetween(s, 0, |s| + 1)
    ensures NoCall(s)
  {
    forall p: nat, n | n in FnNames ensures !CallAt(s, p, n) {
      FnNamesAreUpperWords();
    }
  }

  /** `String.prototype.indexOf(c, from)`: the first index at or after
      `from` holding `c`, or -1. */
  function IndexOf(s: string, c: char, from: nat): (r: int)
    ensures r == -1 || (from <= r < |s| && s[r] == c)
    ensures forall j :: from <= j < |s| && (r == -1 || j < r) ==> s[j] != c
    decreases |s| - from
  {
    if from >= |s| then -1
    else if s[from] == c then from
    else IndexOf(s, c, from + 1)
  }

  /** The match ends at an opening parenthesis that `indexOf` finds again
      when searching from the end of the name, because only whitespace lies
      between them. */
  lemma IndexOfFindsCallParen(s: string, p: nat, n: string)
    requires CallAt(s, p, n)
    ensures IndexOf(s, '(', p + |n|) == SkipSpaces(s, p + |n|)
  {
  }

  /** Upper-casing leaves whitespace where it was, so `\s*` skips the same run. */
  lemma {:induction false} SkipSpacesUpper(s: string, k: nat)
    requires k <= |s|
    ensures SkipSpaces(UpperStr(s), k) == SkipSpaces(s, k)
    decreases |s| - k
  {
    if k < |s| {
      assert IsSpace(UpperStr(s)[k]) <==> IsSpace(s[k]);
      SkipSpacesUpper(s, k + 1);
    }
  }

  /** The `i` flag: the pattern matches the upper-cased text at exactly
      the positions, and with exactly the names, that it matches the text. */
  lemma CallAtUpper(s: string, p: nat, n: string)
    ensures CallAt(UpperStr(s), p, n) <==> CallAt(s, p, n)
  {
    var u := UpperStr(s);
    assert BoundaryAt(u, p) <==> BoundaryAt(s, p);
    if p + |n| <= |s| {
      forall j | p <= j < p + |n| ensures UpperAscii(u[j]) == UpperAscii(s[j]) {
        assert u[j] == UpperAscii(s[j]);
      }
      assert NameAt(u, p, n) <==> NameAt(s, p, n);
      SkipSpacesUpper(s, p + |n|);
      var q := SkipSpaces(s, p + |n|);
      if q < |s| {
        assert u[q] == '(' <==> s[q] == '(';
      }
    }
  }

  /** Two texts that differ only in the case of ASCII letters have the
      same matches: `add(1,2)` is found as `ADD(1,2)` is. */
  lemma CallAtIgnoresCase(s: string, s': string, p: nat, n: string)
    requires UpperStr(s) == UpperStr(s')
    ensures CallAt(s, p, n) <==> CallAt(s', p, n)
  {
    CallAtUpper(s, p, n);
    CallAtUpper(s', p, n);
  }

  lemma LowerCaseCall()
    ensures CallAt("add(1,2)", 0, "ADD") && CallAt("Add (1,2)", 0, "ADD")
  {
    assert UpperStr("add(1,2)") == "ADD(1,2)";
    CallAtUpper("add(1,2)", 0, "ADD");
    assert UpperStr("Add (1,2)") == "ADD (1,2)";
    CallAtUpper("Add (1,2)", 0, "ADD");
  }
}

=== FILE: chains.dfy ===
/** Chains `g0 o g1 o ... o gk` of one operator, the shape a variadic call
    such as `ADD(1,2,3)` is rewritten to. Each operand `gi` is a token
    sequence that the shunting yard treats as a unit with the value of a
    tree `ei` (a number, a fully parenthesised tree, a parenthesised
    group); for an operator that is not right-associative, and for any
    operator between two operands, the chain is grouped from the left. */
module Chains {
  import opened Results
  import opened Tables
  import opened Tokens
  import opened Rpn
  import opened Trees
  import opened Groups
  import opened Evaluator

  /** `acc o e1 o ... o ek` grouped from the left: `((acc o e1) o ...) o ek`. */
  function FoldLeft(o: Op, acc: Expr, es: seq<Expr>): Expr
    decreases |es|
  {
    if es == [] then acc else FoldLeft(o, Bin(o, acc, es[0]), es[1..])
  }

  /** Wherever it occurs, the main loop turns `g` into the postfix form of
      `e` on the output, and leaves the stack as it found it. */
  ghost predicate Acts(g: seq<Token>, e: Expr) {
    forall after: seq<Token>, out: seq<Token>, stk: seq<Token> {:trigger Run(g + after, Shunt(out, stk))} ::
      Run(g + after, Shunt(out, stk)) == Run(after, Shunt(out + Postfix(e), stk))
  }

  /** Every operand acts as the tree beside it. */
  ghost predicate AllAct(gs: seq<seq<Token>>, es: seq<Expr>) {
    |gs| == |es| && forall i :: 0 <= i < |gs| ==> Acts(gs[i], es[i])
  }

  lemma ActsRun(g: seq<Token>, e: Expr, after: seq<Token>, out: seq<Token>, stk: seq<Token>)
    requires Acts(g, e)
    ensures Run(g + after, Shunt(out, stk)) == Run(after, Shunt(out + Postfix(e), stk))
  {
  }

  lemma AllActFrom(gs: seq<seq<Token>>, es: seq<Expr>, k: nat)
    requires AllAct(gs, es) && k <= |gs|
    ensures AllAct(gs[k..], es[k..])
  {
    forall i | 0 <= i < |gs[k..]| ensures Acts(gs[k..][i], es[k..][i]) {
      assert gs[k..][i] == gs[k + i] && es[k..][i] == es[k + i];
    }
  }

  /** A fully parenthesised tree acts as itself. */
  lemma InfixActs(e: Expr)
    ensures Acts(Infix(e), e)
  {
    forall after: seq<Token>, out: seq<Token>, stk: seq<Token>
      ensures Run(Infix(e) + after, Shunt(out, stk)) == Run(after, Shunt(out + Postfix(e), stk))
    {
      RunInfix(e, after, out, stk);
    }
  }

  /** The trees, each written fully parenthesised. */
  function Infixes(es: seq<Expr>): (gs: seq<seq<Token>>)
    ensures |gs| == |es| && forall i :: 0 <= i < |es| ==> gs[i] == Infix(es[i])
  {
    seq(|es|, i requires 0 <= i < |es| => Infix(es[i]))
  }

  lemma InfixesAct(es: seq<Expr>)
    ensures AllAct(Infixes(es), es)
  {
    forall i | 0 <= i < |es| ensures Acts(Infixes(es)[i], es[i]) {
      InfixActs(es[i]);
    }
  }

  /** A parenthesised group acts as the tree its contents convert to. */
  lemma GroupActs(ts: seq<Token>, e: Expr)
    requires ToRPN(ts) == Success(Postfix(e))
    ensures Acts([LParen] + ts + [RParen], e)
  {
    forall after: seq<Token>, out: seq<Token>, stk: seq<Token>
      ensures Run([LParen] + ts + [RParen] + after, Shunt(out, stk)) == Run(after, Shunt(out + Postfix(e), stk))
    {
      GroupRun(ts, Postfix(e), after, out, stk);
    }
  }

  /** The tokens ` o g1 o ... o gk` that follow the first operand. */
  function OpTail(o: Op, gs: seq<seq<Token>>): seq<Token>
    decreases |gs|
  {
    if gs == [] then [] else [Operator(o)] + gs[0] + OpTail(o, gs[1..])
  }

  /** `g0 o g1 o ... o gk` with no parentheses around the chain itself. */
  function Chain(o: Op, gs: seq<seq<Token>>): seq<Token>
    requires |gs| >= 1
  {
    gs[0] + OpTail(o, gs[1..])
  }

  /** The tail, followed by more tokens, starts with its first ` o g`. */
  lemma OpTailCons(o: Op, gs: seq<seq<Token>>, rest: seq<Token>)
    requires gs != []
    ensures OpTail(o, gs) + rest == [Operator(o)] + (gs[0] + (OpTail(o, gs[1..]) + rest))
  {
  }

  /** The left fold applies the operator to the last operand last. */
  lemma {:induction false} FoldLeftSnoc(o: Op, acc: Expr, es: seq<Expr>, e: Expr)
    ensures FoldLeft(o, acc, es + [e]) == Bin(o, FoldLeft(o, acc, es), e)
    decreases |es|
  {
    if es == [] {
      assert [] + [e] == [e];
      assert [e][1..] == [];
    } else {
      assert (es + [e])[0] == es[0];
      assert (es + [e])[1..] == es[1..] + [e];
      FoldLeftSnoc(o, Bin(o, acc, es[0]), es[1..], e);
    }
  }

  /** So the value of a chain is its value without the last operand,
      combined with the last operand. */
  lemma FoldLeftValue<V>(o: Op, acc: Expr, es: seq<Expr>, e: Expr, num: string -> V, apply: (Op, V, V) -> V)
    ensures Eval(FoldLeft(o, acc, es + [e]), num, apply)
         == apply(o, Eval(FoldLeft(o, acc, es), num, apply), Eval(e, num, apply))
  {
    FoldLeftSnoc(o, acc, es, e);
  }

  /** Folding onto an operation of `o` gives an operation of `o`. */
  lemma {:induction false} FoldLeftBin(o: Op, l: Expr, r: Expr, es: seq<Expr>)
    ensures FoldLeft(o, Bin(o, l, r), es).Bin? && FoldLeft(o, Bin(o, l, r), es).op == o
    decreases |es|
  {
    if es != [] {
      FoldLeftBin(o, Bin(o, l, r), es[0], es[1..]);
    }
  }

  /** The inner loop stops at once on a stack on which it stops. */
  lemma PopHigherStops(o: Op, st: Shunt)
    requires Stops(o, st.stack)
    ensures PopHigher(o, st) == st
  {
  }

  /** An incoming `o` facing an `o` on top moves that one `o` out and stops
      below it. */
  lemma PopHigherOne(o: Op, out: seq<Token>, stk: seq<Token>)
    requires Yields(o, o) && Stops(o, stk)
    ensures PopHigher(o, Shunt(out, stk + [Operator(o)])) == Shunt(out + [Operator(o)], stk)
  {
    var full := stk + [Operator(o)];
    assert full[|full| - 1] == Operator(o) && full[..|full| - 1] == stk;
    PopHigherStops(o, Shunt(out + [Operator(o)], stk));
  }

  /** An `o` arriving on a stack where `o` stops is pushed and moves nothing. */
  lemma RunOperatorStops(o: Op, rest: seq<Token>, out: seq<Token>, stk: seq<Token>)
    requires Stops(o, stk)
    ensures Run([Operator(o)] + rest, Shunt(out, stk)) == Run(rest, Shunt(out, stk + [Operator(o)]))
  {
    RunOperator(o, rest, Shunt(out, stk));
    PopHigherStops(o, Shunt(out, stk));
  }

  /** An `o` arriving on a pending `o` moves that one out and takes its place. */
  lemma RunOperatorOnPending(o: Op, rest: seq<Token>, out: seq<Token>, stk: seq<Token>)
    requires Yields(o, o) && Stops(o, stk)
    ensures Run([Operator(o)] + rest, Shunt(out, stk + [Operator(o)]))
         == Run(rest, Shunt(out + [Operator(o)], stk + [Operator(o)]))
  {
    RunOperator(o, rest, Shunt(out, stk + [Operator(o)]));
    PopHigherOne(o, out, stk);
  }

  /** The rest of a chain, met with `left o right` pending (their postfix
      forms out, `o` on the stack): each further `o` moves the pending one
      out, so the pending operation is always the left fold so far. */
  lemma {:induction false} RunOpTail(o: Op, left: Expr, right: Expr, gs: seq<seq<Token>>, es: seq<Expr>,
                                     rest: seq<Token>, out: seq<Token>, stk: seq<Token>)
    requires AllAct(gs, es)
    requires (es != [] ==> Yields(o, o)) && Stops(o, stk)
    ensures FoldLeft(o, Bin(o, left, right), es).Bin? && FoldLeft(o, Bin(o, left, right), es).op == o
    ensures var t := FoldLeft(o, Bin(o, left, right), es);
      Run(OpTail(o, gs) + rest, Shunt(out + Postfix(left) + Postfix(right), stk + [Operator(o)]))
        == Run(rest, Shunt(out + Postfix(t.left) + Postfix(t.right), stk + [Operator(o)]))
    decreases |es|
  {
    FoldLeftBin(o, left, right, es);
    if es == [] {
      assert OpTail(o, gs) + rest == rest;
    } else {
      var b := Bin(o, left, right);
      var t := FoldLeft(o, b, es);
      assert t == FoldLeft(o, Bin(o, b, es[0]), es[1..]);
      AllActFrom(gs, es, 1);
      RunOpTail(o, b, es[0], gs[1..], es[1..], rest, out, stk);
      RunOpTailStep(o, left, right, gs, es, t, rest, out, stk);
    }
  }

  /** One more ` o g` of the chain: the pending `left o right` goes out and
      `(left o right) o e` becomes the pending operation. */
  lemma RunOpTailStep(o: Op, left: Expr, right: Expr, gs: seq<seq<Token>>, es: seq<Expr>, t: Expr,
                      rest: seq<Token>, out: seq<Token>, stk: seq<Token>)
    requires gs != [] && es != [] && Acts(gs[0], es[0]) && t.Bin?
    requires Yields(o, o) && Stops(o, stk)
    requires Run(OpTail(o, gs[1..]) + rest, Shunt(out + Postfix(Bin(o, left, right)) + Postfix(es[0]), stk + [Operator(o)]))
          == Run(rest, Shunt(out + Postfix(t.left) + Postfix(t.right), stk + [Operator(o)]))
    ensures Run(OpTail(o, gs) + rest, Shunt(out + Postfix(left) + Postfix(right), stk + [Operator(o)]))
         == Run(rest, Shunt(out + Postfix(t.left) + Postfix(t.right), stk + [Operator(o)]))
  {
    OpTailCons(o, gs, rest);
    var after := OpTail(o, gs[1..]) + rest;
    ActsRun(gs[0], es[0], after, out + Postfix(Bin(o, left, right)), stk + [Operator(o)]);
    RunPendingOperand(o, left, right, gs[0], es[0], after, out, stk);
  }

  /** ` o g` met with `left o right` pending leaves `(left o right) o e`
      pending, given how `g` runs there. */
  lemma RunPendingOperand(o: Op, left: Expr, right: Expr, g: seq<Token>, e: Expr,
                          after: seq<Token>, out: seq<Token>, stk: seq<Token>)
    requires Yields(o, o) && Stops(o, stk)
    requires Run(g + after, Shunt(out + Postfix(Bin(o, left, right)), stk + [Operator(o)]))
          == Run(after, Shunt(out + Postfix(Bin(o, left, right)) + Postfix(e), stk + [Operator(o)]))
    ensures Run([Operator(o)] + (g + after), Shunt(out + Postfix(left) + Postfix(right), stk + [Operator(o)]))
         == Run(after, Shunt(out + Postfix(Bin(o, left, right)) + Postfix(e), stk + [Operator(o)]))
  {
    var mid := out + Postfix(left) + Postfix(right);
    assert mid + [Operator(o)] == out + Postfix(Bin(o, left, right));
    RunOperatorOnPending(o, g + after, mid, stk);
  }

  /** A chain of two or more operands, met on a stack where `o` stops,
      leaves its left fold pending: all but the last `o` already out. */
  lemma RunChainFrom(o: Op, gs: seq<seq<Token>>, es: seq<Expr>, rest: seq<Token>, out: seq<Token>, stk: seq<Token>)
    requires |es| >= 2 && AllAct(gs, es)
    requires (|es| > 2 ==> Yields(o, o)) && Stops(o, stk)
    ensures FoldLeft(o, es[0], es[1..]).Bin? && FoldLeft(o, es[0], es[1..]).op == o
    ensures var t := FoldLeft(o, es[0], es[1..]);
      Run(Chain(o, gs) + rest, Shunt(out, stk))
        == Run(rest, Shunt(out + Postfix(t.left) + Postfix(t.right), stk + [Operator(o)]))
  {
    var e0, e1 := es[0], es[1];
    var tail := OpTail(o, gs[2..]) + rest;
    ChainSplit(o, gs, es, rest);
    ActsRun(gs[0], e0, [Operator(o)] + (gs[1] + tail), out, stk);
    RunOperatorStops(o, gs[1] + tail, out + Postfix(e0), stk);
    ActsRun(gs[1], e1, tail, out + Postfix(e0), stk + [Operator(o)]);
    AllActFrom(gs, es, 2);
    RunOpTail(o, e0, e1, gs[2..], es[2..], rest, out, stk);
  }

  /** A chain of two or more operands, followed by more tokens, split into
      its first two operands and the rest; its fold starts with them. */
  lemma ChainSplit(o: Op, gs: seq<seq<Token>>, es: seq<Expr>, rest: seq<Token>)
    requires |gs| >= 2 && |es| >= 2
    ensures Chain(o, gs) + rest
         == gs[0] + ([Operator(o)] + (gs[1] + (OpTail(o, gs[2..]) + rest)))
    ensures FoldLeft(o, es[0], es[1..]) == FoldLeft(o, Bin(o, es[0], es[1]), es[2..])
  {
    assert gs[1..][0] == gs[1] && gs[1..][1..] == gs[2..];
    assert es[1..][0] == es[1] && es[1..][1..] == es[2..];
    OpTailCons(o, gs[1..], rest);
  }

  /** A `)` right above its `(` only drops the `(`. */
  lemma RunCloseEmpty(rest: seq<Token>, out: seq<Token>, stk: seq<Token>)
    ensures Run([RParen] + rest, Shunt(out, stk + [LParen])) == Run(rest, Shunt(out, stk))
  {
    var ts := [RParen] + rest;
    assert ts[0] == RParen && ts[1..] == rest;
    assert (stk + [LParen])[..|stk|] == stk;
    assert PopToOpen(Shunt(out, stk + [LParen])) == Success(Shunt(out, stk));
    RunCons(ts, Shunt(out, stk + [LParen]));
  }

  /** The operators whose chains group from the left: any operator between
      two operands, and an operator that is not right-associative between
      any number of them. */
  predicate LeftGroups(o: Op, k: nat) {
    k <= 2 || !RightAssoc(o)
  }

  /** `(g0 o g1 o ... o gk)`, as a variadic call is rewritten, converts to
      the postfix form of the left fold `((e0 o e1) o ...) o ek`:
      `e0 e1 o e2 o ... ek o`. */
  lemma ToRPNLeftChain(o: Op, gs: seq<seq<Token>>, es: seq<Expr>)
    requires |es| >= 1 && AllAct(gs, es) && LeftGroups(o, |es|)
    ensures ToRPN([LParen] + Chain(o, gs) + [RParen]) == Success(Postfix(FoldLeft(o, es[0], es[1..])))
  {
    YieldsByTable(o, o);
    if |es| == 1 {
      assert gs == [gs[0]] && es == [es[0]];
      ActsRun(gs[0], es[0], [RParen], [], [LParen]);
      assert [] + Postfix(es[0]) == Postfix(es[0]);
      ParenSingle(gs[0], es[0], o, gs, es);
    } else {
      ParenChainMany(o, gs, es);
    }
  }

  lemma ParenSingle(g: seq<Token>, e: Expr, o: Op, gs: seq<seq<Token>>, es: seq<Expr>)
    requires gs == [g] && es == [e]
    requires Run(g + [RParen], Shunt([], [LParen])) == Run([RParen], Shunt(Postfix(e), [LParen]))
    ensures ToRPN([LParen] + Chain(o, gs) + [RParen]) == Success(Postfix(FoldLeft(o, es[0], es[1..])))
  {
    assert gs[1..] == [] && es[1..] == [];
    assert Chain(o, gs) == g;
    var inner := g + [RParen];
    assert Run([LParen] + Chain(o, gs) + [RParen], Shunt([], [])) == Run(inner, Shunt([], [LParen])) by {
      assert [LParen] + Chain(o, gs) + [RParen] == [LParen] + inner;
      RunOpen(inner, [], []);
      assert [] + [LParen] == [LParen];
    }
    assert Run([RParen], Shunt(Postfix(e), [LParen])) == Success(Shunt(Postfix(e), [])) by {
      assert [RParen] == [RParen] + [] && [LParen] == [] + [LParen];
      RunCloseEmpty([], Postfix(e), []);
    }
  }

  lemma ParenChainMany(o: Op, gs: seq<seq<Token>>, es: seq<Expr>)
    requires |es| >= 2 && AllAct(gs, es) && (|es| > 2 ==> Yields(o, o))
    ensures ToRPN([LParen] + Chain(o, gs) + [RParen]) == Success(Postfix(FoldLeft(o, es[0], es[1..])))
  {
    var t := FoldLeft(o, es[0], es[1..]);
    var inner := Chain(o, gs) + [RParen];
    var open := [] + [LParen];
    assert t.Bin? && t.op == o by {
      RunChainFrom(o, gs, es, [RParen], [], open);
    }
    var pending := Postfix(t.left) + Postfix(t.right);
    assert Run([LParen] + Chain(o, gs) + [RParen], Shunt([], [])) == Run(inner, Shunt([], open)) by {
      assert [LParen] + Chain(o, gs) + [RParen] == [LParen] + inner;
      RunOpen(inner, [], []);
    }
    assert Run(inner, Shunt([], open)) == Run([RParen], Shunt(pending, open + [Operator(o)])) by {
      RunChainFrom(o, gs, es, [RParen], [], open);
      assert [] + Postfix(t.left) + Postfix(t.right) == pending;
    }
    assert Run([RParen], Shunt(pending, open + [Operator(o)])) == Success(Shunt(Postfix(t), [])) by {
      assert [RParen] == [RParen] + [];
      RunCloseOne(o, [], pending, []);
      assert pending + [Operator(o)] == Postfix(t);
    }
  }

  /** The same chain without the outer parentheses, as in `8 - 3 - 2`. */
  lemma ToRPNBareLeftChain(o: Op, gs: seq<seq<Token>>, es: seq<Expr>)
    requires |es| >= 1 && AllAct(gs, es) && LeftGroups(o, |es|)
    ensures ToRPN(Chain(o, gs)) == Success(Postfix(FoldLeft(o, es[0], es[1..])))
  {
    YieldsByTable(o, o);
    if |es| == 1 {
      assert gs[1..] == [] && es[1..] == [];
      assert Chain(o, gs) == gs[0] + [];
      ActsRun(gs[0], es[0], [], [], []);
      assert [] + Postfix(es[0]) == Postfix(es[0]);
    } else {
      BareChainMany(o, gs, es);
    }
  }

  lemma BareChainMany(o: Op, gs: seq<seq<Token>>, es: seq<Expr>)
    requires |es| >= 2 && AllAct(gs, es) && (|es| > 2 ==> Yields(o, o))
    ensures ToRPN(Chain(o, gs)) == Success(Postfix(FoldLeft(o, es[0], es[1..])))
  {
    var t := FoldLeft(o, es[0], es[1..]);
    RunChainFrom(o, gs, es, [], [], []);
    var pending := Postfix(t.left) + Postfix(t.right);
    assert Chain(o, gs) + [] == Chain(o, gs);
    assert [] + Postfix(t.left) + Postfix(t.right) == pending;
    assert [] + [Operator(o)] == [Operator(o)];
    assert Drain(Shunt(pending, [Operator(o)])) == Success(Postfix(t)) by {
      assert [Operator(o)] == [] + [Operator(o)];
      DrainOne(o, pending, []);
      assert pending + [Operator(o)] == Postfix(t);
    }
  }

  /** Hence such a chain evaluates as its left fold. */
  lemma EvalLeftChain<V>(o: Op, gs: seq<seq<Token>>, es: seq<Expr>, num: string -> V, apply: (Op, V, V) -> V, missing: V)
    requires |es| >= 1 && AllAct(gs, es) && LeftGroups(o, |es|)
    ensures ToRPN([LParen] + Chain(o, gs) + [RParen]).Success?
    ensures EvalRPN(ToRPN([LParen] + Chain(o, gs) + [RParen]).value, num, apply, missing)
         == Success(Eval(FoldLeft(o, es[0], es[1..]), num, apply))
  {
    ToRPNLeftChain(o, gs, es);
    EvalRPNPostfix(FoldLeft(o, es[0], es[1..]), num, apply, missing);
  }

  /** `(1 + 2 + 3)`, the rewriting of `ADD(1,2,3)`, converts to `1 2 + 3 +`. */
  lemma AddThreeGroupsLeft()
    ensures ToRPN([LParen, Number("1"), Operator(Add), Number("2"), Operator(Add), Number("3"), RParen])
         == Success([Number("1"), Number("2"), Operator(Add), Number("3"), Operator(Add)])
  {
    var es := [Num("1"), Num("2"), Num("3")];
    var gs := Infixes(es);
    var add := Operator(Add);
    assert gs == [[Number("1")], [Number("2")], [Number("3")]];
    assert gs[1..][1..][1..] == [];
    assert OpTail(Add, gs[1..][1..]) == [add, Number("3")];
    assert OpTail(Add, gs[1..]) == [add, Number("2"), add, Number("3")];
    assert Chain(Add, gs) == [Number("1"), add, Number("2"), add, Number("3")];
    var t := FoldLeft(Add, es[0], es[1..]);
    assert t == Bin(Add, Bin(Add, Num("1"), Num("2")), Num("3")) by {
      var r := es[1..];
      assert r == [Num("2"), Num("3")] && r[1..] == [Num("3")] && r[1..][1..] == [];
      assert FoldLeft(Add, Bin(Add, Bin(Add, Num("1"), Num("2")), Num("3")), []) == Bin(Add, Bin(Add, Num("1"), Num("2")), Num("3"));
      assert FoldLeft(Add, Bin(Add, Num("1"), Num("2")), r[1..]) == Bin(Add, Bin(Add, Num("1"), Num("2")), Num("3"));
      assert FoldLeft(Add, Num("1"), r) == FoldLeft(Add, Bin(Add, Num("1"), Num("2")), r[1..]);
    }
    assert Postfix(t) == [Number("1"), Number("2"), add, Number("3"), add];
    assert [LParen] + Chain(Add, gs) + [RParen]
        == [LParen, Number("1"), add, Number("2"), add, Number("3"), RParen];
    InfixesAct(es);
    ToRPNLeftChain(Add, gs, es);
  }
}

=== FILE: chars.dfy ===
/** Character classes and small string utilities shared by every stage:
    the whitespace class of JavaScript regular expressions (also what
    `String.prototype.trim` strips), the ASCII word class behind `\b`,
    ASCII upper-casing, trimming and joining. */
module Chars {

  /** JavaScript's `\s`: the WhiteSpace and LineTerminator code points. */
  predicate IsSpace(c: char) {
    || c == ' ' || c == '\t' || c == '\n' || c == '\r'
    || c == '\U{B}' || c == '\U{C}' || c == '\U{A0}' || c == '\U{1680}'
    || ('\U{2000}' <= c <= '\U{200A}')
    || c == '\U{2028}' || c == '\U{2029}' || c == '\U{202F}' || c == '\U{205F}'
    || c == '\U{3000}' || c == '\U{FEFF}'
  }

  predicate IsLetter(c: char) {
    ('A' <= c <= 'Z') || ('a' <= c <= 'z')
  }

  predicate IsDigit(c: char) {
    '0' <= c <= '9'
  }

  /** `\w` without the `u` flag: `[A-Za-z0-9_]`. */
  predicate IsWordChar(c: char) {
    IsLetter(c) || IsDigit(c) || c == '_'
  }

  /** The characters of a numeric literal, `[0-9.]`. */
  predicate IsNumChar(c: char) {
    IsDigit(c) || c == '.'
  }

  predicate AllSpace(s: string) {
    forall i :: 0 <= i < |s| ==> IsSpace(s[i])
  }

  predicate NoLetters(s: string) {
    forall i :: 0 <= i < |s| ==> !IsLetter(s[i])
  }

  /** ASCII upper-casing, which is all that case-insensitive matching of
      ASCII names and `toUpperCase` on an ASCII match amount to. */
  function UpperAscii(c: char): (u: char)
    ensures 'a' <= c <= 'z' ==> u as int == c as int - 32
    ensures !('a' <= c <= 'z') ==> u == c
    ensures IsLetter(u) <==> IsLetter(c)
    ensures IsWordChar(u) <==> IsWordChar(c)
    ensures 'A' <= u <= 'Z' <==> IsLetter(c)
  {
    if 'a' <= c <= 'z' then (c as int - 32) as char else c
  }

  function UpperStr(s: string): (u: string)
    ensures |u| == |s|
    ensures forall i :: 0 <= i < |s| ==> u[i] == UpperAscii(s[i])
  {
    seq(|s|, i requires 0 <= i < |s| => UpperAscii(s[i]))
  }

  /** The first position at or after `k` that is not whitespace. */
  function SkipSpaces(s: string, k: nat): (r: nat)
    requires k <= |s|
    ensures k <= r <= |s|
    ensures forall j :: k <= j < r ==> IsSpace(s[j])
    ensures r < |s| ==> !IsSpace(s[r])
    decreases |s| - k
  {
    if k < |s| && IsSpace(s[k]) then SkipSpaces(s, k + 1) else k
  }

  /** The end of `s[lo..k]` once its trailing whitespace is dropped. */
  function DropTrailing(s: string, lo: nat, k: nat): (r: nat)
    requires lo <= k <= |s|
    ensures lo <= r <= k
    decreases k
  {
    if k > lo && IsSpace(s[k - 1]) then DropTrailing(s, lo, k - 1) else k
  }

  lemma {:induction false} DropTrailingSpec(s: string, lo: nat, k: nat)
    requires lo <= k <= |s|
    ensures forall j :: DropTrailing(s, lo, k) <= j < k ==> IsSpace(s[j])
    ensures DropTrailing(s, lo, k) > lo ==> !IsSpace(s[DropTrailing(s, lo, k) - 1])
    decreases k
  {
    if k > lo && IsSpace(s[k - 1]) {
      DropTrailingSpec(s, lo, k - 1);
    }
  }

  /** `String.prototype.trim`: the text between the leading and the
      trailing whitespace. */
  function Trim(s: string): (t: string)
    ensures |t| <= |s|
    ensures t != [] ==> !IsSpace(t[0]) && !IsSpace(t[|t| - 1])
  {
    var a := SkipSpaces(s, 0);
    DropTrailingSpec(s, a, |s|);
    s[a .. DropTrailing(s, a, |s|)]
  }

  /** Trim keeps a slice that starts and ends with non-whitespace and has
      only whitespace around it. */
  lemma TrimSpec(s: string) returns (a: nat, b: nat)
    ensures a <= b <= |s| && Trim(s) == s[a .. b]
    ensures AllSpace(s[..a]) && AllSpace(s[b..])
    ensures a < b ==> !IsSpace(s[a]) && !IsSpace(s[b - 1])
  {
    a := SkipSpaces(s, 0);
    b := DropTrailing(s, a, |s|);
    DropTrailingSpec(s, a, |s|);
    assert forall j :: 0 <= j < a ==> s[..a][j] == s[j];
    assert forall j :: 0 <= j < |s| - b ==> s[b..][j] == s[b + j];
  }

  /** `Array.prototype.join` with a one-character separator. */
  function JoinWith(xs: seq<string>, sep: char): (r: string)
    ensures |xs| == 0 ==> r == []
    ensures |xs| > 0 ==> |r| == TotalLength(xs) + |xs| - 1
  {
    if |xs| == 0 then []
    else if |xs| == 1 then xs[0]
    else xs[0] + [sep] + JoinWith(xs[1..], sep)
  }

  /** Joining puts the separator before the last text: the join of all
      but the last, the separator, then the last, as `join` builds it from
      the left. */
  lemma {:induction false} JoinWithSnoc(xs: seq<string>, sep: char)
    requires |xs| >= 2
    ensures JoinWith(xs, sep) == JoinWith(xs[..|xs| - 1], sep) + [sep] + xs[|xs| - 1]
    decreases |xs|
  {
    var init := xs[..|xs| - 1];
    assert init[1..] == xs[1..][..|xs[1..]| - 1];
    if |xs| == 2 {
      assert init == [xs[0]];
    } else {
      JoinWithSnoc(xs[1..], sep);
      assert init[0] == xs[0] && |init| >= 2;
    }
  }

  /** The lengths of the texts, added up. */
  function TotalLength(xs: seq<string>): nat {
    if xs == [] then 0 else |xs[0]| + TotalLength(xs[1..])
  }

  /** Trim removes only surrounding whitespace: the input is recovered by
      putting back a whitespace prefix and a whitespace suffix. */
  lemma TrimDecompose(s: string) returns (lead: string, trail: string)
    ensures s == lead + Trim(s) + trail
    ensures AllSpace(lead) && AllSpace(trail)
  {
    var a, b := TrimSpec(s);
    lead, trail := s[..a], s[b..];
    assert s == s[..a] + s[a .. b] + s[b..];
  }

  /** Trim yields nothing exactly for all-whitespace input. */
  lemma TrimEmptyIff(s: string)
    ensures Trim(s) == [] <==> AllSpace(s)
  {
    var lead, trail := TrimDecompose(s);
    if Trim(s) == [] {
      assert s == lead + trail;
      forall i | 0 <= i < |s| ensures IsSpace(s[i]) {
        if i < |lead| { assert s[i] == lead[i]; } else { assert s[i] == trail[i - |lead|]; }
      }
    } else {
      var r := Trim(s);
      assert s[|lead|] == r[0];
    }
  }
}

=== FILE: evalrpn.dfy ===
/** The evaluator (`evalRPN`): numbers are pushed, an operator pops its
    right operand and then its left one and pushes the result, and exactly
    one value must remain. The values are abstract: `num` turns a number
    lexeme into a value, `apply` performs an operator, and `missing` is
    what popping an empty stack yields (JavaScript's `undefined`). */
module Evaluator {
  import opened Results
  import opened Tables
  import opened Tokens
  import opened Rpn
  import opened Trees

  /** `Array.prototype.pop`: the last element and the rest, or `missing`
      and the (still empty) stack. */
  function Pop<V>(stk: seq<V>, missing: V): (r: (V, seq<V>))
    ensures stk != [] ==> stk == r.1 + [r.0]
    ensures stk == [] ==> r == (missing, [])
  {
    if stk == [] then (missing, []) else (stk[|stk| - 1], stk[..|stk| - 1])
  }

  /** The loop over the tokens, from the stack `stk`. A parenthesis has no
      operator entry, so the lookup on it throws. */
  function EvalSteps<V>(ts: seq<Token>, stk: seq<V>, num: string -> V, apply: (Op, V, V) -> V, missing: V)
    : (r: Result<seq<V>>)
    decreases |ts|
  {
    if ts == [] then Success(stk)
    else
      match ts[0]
      case Number(text) => EvalSteps(ts[1..], stk + [num(text)], num, apply, missing)
      case Operator(o) =>
        var (b, s1) := Pop(stk, missing);
        var (a, s2) := Pop(s1, missing);
        EvalSteps(ts[1..], s2 + [apply(o, a, b)], num, apply, missing)
      case _ => Failure(NotAnOperator)
  }

  function EvalRPN<V>(ts: seq<Token>, num: string -> V, apply: (Op, V, V) -> V, missing: V): (r: Result<V>) {
    var stk :- EvalSteps(ts, [], num, apply, missing);
    if |stk| != 1 then Failure(InvalidEvaluation) else Success(stk[0])
  }

  /** The value of a tree, operands before their operator. */
  function Eval<V>(e: Expr, num: string -> V, apply: (Op, V, V) -> V): V {
    match e
    case Num(text) => num(text)
    case Bin(o, l, r) => apply(o, Eval(l, num, apply), Eval(r, num, apply))
  }

  /** The stack height after `ts` from height `h`: a number adds one, an
      operator takes two (or what there is) and adds one. */
  function Height(ts: seq<Token>, h: nat): nat
    decreases |ts|
  {
    if ts == [] then h
    else if ts[0].Operator? then Height(ts[1..], (if h >= 2 then h - 2 else 0) + 1)
    else Height(ts[1..], h + 1)
  }

  /** The loop fails exactly on a parenthesis, and otherwise ends with a
      stack of the height the tokens predict. */
  lemma {:induction false} EvalStepsSpec<V>(ts: seq<Token>, stk: seq<V>, num: string -> V, apply: (Op, V, V) -> V, missing: V)
    ensures EvalSteps(ts, stk, num, apply, missing).Success? <==> NoParens(ts)
    ensures EvalSteps(ts, stk, num, apply, missing).Failure? ==>
      EvalSteps(ts, stk, num, apply, missing).error == NotAnOperator
    ensures EvalSteps(ts, stk, num, apply, missing).Success? ==>
      |EvalSteps(ts, stk, num, apply, missing).value| == Height(ts, |stk|)
    decreases |ts|
  {
    if ts != [] {
      assert NoParens(ts) <==> !IsParen(ts[0]) && NoParens(ts[1..]);
      match ts[0]
      case Number(text) =>
        EvalStepsSpec(ts[1..], stk + [num(text)], num, apply, missing);
      case Operator(o) =>
        var (b, s1) := Pop(stk, missing);
        var (a, s2) := Pop(s1, missing);
        EvalStepsSpec(ts[1..], s2 + [apply(o, a, b)], num, apply, missing);
      case _ =>
    }
  }

  /** The evaluator succeeds exactly on parenthesis-free input that leaves
      one value on the stack. */
  lemma EvalRPNSucceeds<V>(ts: seq<Token>, num: string -> V, apply: (Op, V, V) -> V, missing: V)
    ensures EvalRPN(ts, num, apply, missing).Success? <==> NoParens(ts) && Height(ts, 0) == 1
    ensures EvalRPN(ts, num, apply, missing).Failure? ==>
      EvalRPN(ts, num, apply, missing).error == (if NoParens(ts) then InvalidEvaluation else NotAnOperator)
  {
    EvalStepsSpec(ts, [], num, apply, missing);
  }

  /** The postfix form of a tree pushes the tree's value, taking nothing
      from the stack below. */
  lemma {:induction false} EvalPostfixSteps<V>(e: Expr, rest: seq<Token>, stk: seq<V>,
                                               num: string -> V, apply: (Op, V, V) -> V, missing: V)
    ensures EvalSteps(Postfix(e) + rest, stk, num, apply, missing)
         == EvalSteps(rest, stk + [Eval(e, num, apply)], num, apply, missing)
    decreases e
  {
    match e
    case Num(text) =>
      var ts := Postfix(e) + rest;
      assert ts[0] == Number(text) && ts[1..] == rest;
    case Bin(o, l, r) =>
      var a, b := Eval(l, num, apply), Eval(r, num, apply);
      var tail := [Operator(o)] + rest;
      assert Postfix(e) + rest == Postfix(l) + (Postfix(r) + tail);
      EvalPostfixSteps(l, Postfix(r) + tail, stk, num, apply, missing);
      EvalPostfixSteps(r, tail, stk + [a], num, apply, missing);
      assert tail[0] == Operator(o) && tail[1..] == rest;
      assert Pop(stk + [a] + [b], missing) == (b, stk + [a]);
      assert Pop(stk + [a], missing) == (a, stk);
  }

  /** The evaluator gives the value of the tree whose postfix form it reads. */
  lemma EvalRPNPostfix<V>(e: Expr, num: string -> V, apply: (Op, V, V) -> V, missing: V)
    ensures EvalRPN(Postfix(e), num, apply, missing) == Success(Eval(e, num, apply))
  {
    EvalPostfixSteps(e, [], [], num, apply, missing);
    assert Postfix(e) + [] == Postfix(e);
    assert [] + [Eval(e, num, apply)] == [Eval(e, num, apply)];
  }

  /** `a b op` applies `op` with `a` on the left and `b` on the right. */
  lemma OperandOrder<V>(x: string, y: string, o: Op, num: string -> V, apply: (Op, V, V) -> V, missing: V)
    ensures EvalRPN([Number(x), Number(y), Operator(o)], num, apply, missing) == Success(apply(o, num(x), num(y)))
  {
    EvalRPNPostfix(Bin(o, Num(x), Num(y)), num, apply, missing);
    assert Postfix(Bin(o, Num(x), Num(y))) == [Number(x), Number(y), Operator(o)];
  }

  /** An operator short of operands is not an error: the missing left
      operand is `missing`. */
  lemma Underflow<V>(x: string, o: Op, num: string -> V, apply: (Op, V, V) -> V, missing: V)
    ensures EvalRPN([Number(x), Operator(o)], num, apply, missing) == Success(apply(o, missing, num(x)))
  {
    var ts := [Number(x), Operator(o)];
    assert ts[1..] == [Operator(o)] && ts[1..][1..] == [];
    assert [] + [num(x)] == [num(x)];
    assert Pop([num(x)], missing) == (num(x), []);
    assert Pop([], missing) == (missing, []);
    assert EvalSteps(ts, [], num, apply, missing) == EvalSteps([Operator(o)], [num(x)], num, apply, missing);
    assert EvalSteps([Operator(o)], [num(x)], num, apply, missing) == Success([] + [apply(o, missing, num(x))]);
  }

  /** Nothing to evaluate is an error. */
  lemma EmptyIsInvalid<V>(num: string -> V, apply: (Op, V, V) -> V, missing: V)
    ensures EvalRPN([], num, apply, missing) == Failure(InvalidEvaluation)
  {
  }
}

=== FILE: formula.dfy ===
/** The whole pipeline (`evaluate`): desugar the function calls, tokenize,
    reorder into postfix and evaluate; the first stage that fails decides
    the error. */
module Formula {
  import opened Chars
  import opened Results
  import opened Tables
  import opened Tokens
  import opened Calls
  import opened Parens
  import opened Replace
  import opened Preprocess
  import opened Tokenizer
  import opened Rpn
  import opened Trees
  import opened Evaluator
  import opened Chains

  /** A formula that evaluates has no call left after desugaring, and its
      tokens have balanced parentheses. */
  function Evaluate<V>(s: string, num: string -> V, apply: (Op, V, V) -> V, missing: V): (r: Result<V>)
    ensures r.Success? ==>
      && Desugar(s).Success? && NoCall(Desugar(s).value)
      && Tokenize(Desugar(s).value).Success?
      && Balanced(Tokenize(Desugar(s).value).value)
  {
    var plain :- Desugar(s);
    EvaluatePlain(plain, num, apply, missing)
  }

  /** The stages after desugaring: tokenize, reorder, evaluate. */
  function EvaluatePlain<V>(plain: string, num: string -> V, apply: (Op, V, V) -> V, missing: V): (r: Result<V>)
    ensures r.Success? ==> Tokenize(plain).Success? && Balanced(Tokenize(plain).value)
  {
    var tokens :- Tokenize(plain);
    ToRPNSucceeds(tokens);
    var rpn :- ToRPN(tokens);
    EvalRPN(rpn, num, apply, missing)
  }

  /** Rendered tokens hold no letter: numbers are digits and dots, and the
      other tokens are symbols. */
  lemma {:induction false} RenderNoLetters(ts: seq<Token>)
    requires WellFormed(ts)
    ensures NoLetters(Render(ts))
    decreases |ts|
  {
    if ts != [] {
      var t := ts[0];
      assert NoLetters(Text(t)) by {
        if t.Number? {
          assert IsNumeral(ts[0].text);
        }
      }
      if |ts| > 1 {
        assert WellFormed(ts[1..]) by {
          forall i | 0 <= i < |ts[1..]| ensures ts[1..][i].Number? ==> IsNumeral(ts[1..][i].text) {
            assert ts[1..][i] == ts[i + 1];
          }
        }
        RenderNoLetters(ts[1..]);
        var r := Render(ts[1..]);
        assert Render(ts) == Text(t) + " " + r;
        assert forall i :: 0 <= i < |Text(t) + " " + r| ==>
          (Text(t) + " " + r)[i] == (if i < |Text(t)| then Text(t)[i] else if i == |Text(t)| then ' ' else r[i - |Text(t)| - 1]);
      }
    }
  }

  /** A fully parenthesised tree with well-formed numbers, written out with
      spaces, evaluates to the tree's value. */
  lemma EvaluateInfix<V>(e: Expr, num: string -> V, apply: (Op, V, V) -> V, missing: V)
    requires WellFormed(Infix(e))
    ensures Evaluate(Render(Infix(e)), num, apply, missing) == Success(Eval(e, num, apply))
  {
    var s := Render(Infix(e));
    RenderNoLetters(Infix(e));
    DesugarNoLetters(s);
    TokenizeRender(Infix(e));
    ToRPNInfix(e);
    EvalRPNPostfix(e, num, apply, missing);
  }

  /** `(g0 o g1 o ... o gk)`, where each group `gi` converts as the tree
      `ei` would (a number, a fully parenthesised tree, a parenthesised
      group), written out with spaces, evaluates to the left fold
      `((e0 o e1) o ...) o ek` when `o` groups from the left over that many
      operands. */
  lemma EvaluateLeftChain<V>(o: Op, gs: seq<seq<Token>>, es: seq<Expr>, num: string -> V, apply: (Op, V, V) -> V, missing: V)
    requires |es| >= 1 && AllAct(gs, es) && LeftGroups(o, |es|)
    requires WellFormed([LParen] + Chain(o, gs) + [RParen])
    ensures Evaluate(Render([LParen] + Chain(o, gs) + [RParen]), num, apply, missing)
         == Success(Eval(FoldLeft(o, es[0], es[1..]), num, apply))
  {
    var ts := [LParen] + Chain(o, gs) + [RParen];
    RenderNoLetters(ts);
    DesugarNoLetters(Render(ts));
    TokenizeRender(ts);
    EvalLeftChain(o, gs, es, num, apply, missing);
  }

  /** Tokens laid end to end hold no letter either. */
  lemma {:induction false} SquashNoLetters(ts: seq<Token>)
    requires WellFormed(ts)
    ensures NoLetters(Squash(ts))
    decreases |ts|
  {
    if ts != [] {
      var t := ts[0];
      assert NoLetters(Text(t)) by {
        if t.Number? {
          assert IsNumeral(ts[0].text);
        }
      }
      assert WellFormed(ts[1..]) by {
        assert forall i :: 0 <= i < |ts[1..]| ==> ts[1..][i] == ts[i + 1];
      }
      SquashNoLetters(ts[1..]);
      var r := Squash(ts[1..]);
      assert forall i :: 0 <= i < |Text(t) + r| ==>
        (Text(t) + r)[i] == (if i < |Text(t)| then Text(t)[i] else r[i - |Text(t)|]);
    }
  }

  /** The same chain written out with no space at all, as the rewriting of
      a variadic call produces it, evaluates to the same left fold, as long
      as no two numbers end up side by side. */
  lemma EvaluateSquashedChain<V>(o: Op, gs: seq<seq<Token>>, es: seq<Expr>, num: string -> V, apply: (Op, V, V) -> V, missing: V)
    requires |es| >= 1 && AllAct(gs, es) && LeftGroups(o, |es|)
    requires Plain([LParen] + Chain(o, gs) + [RParen])
    ensures Evaluate(Squash([LParen] + Chain(o, gs) + [RParen]), num, apply, missing)
         == Success(Eval(FoldLeft(o, es[0], es[1..]), num, apply))
  {
    var ts := [LParen] + Chain(o, gs) + [RParen];
    SquashNoLetters(ts);
    DesugarNoLetters(Squash(ts));
    TokenizeSquashed(ts);
    EvalLeftChain(o, gs, es, num, apply, missing);
  }

  /** `ADD(1,2,3)` evaluates to `(1 + 2) + 3`. */
  lemma EvaluateAddThree<V>(s: string, num: string -> V, apply: (Op, V, V) -> V, missing: V)
    requires s == "ADD(1,2,3)"
    ensures Evaluate(s, num, apply, missing) == Success(apply(Add, apply(Add, num("1"), num("2")), num("3")))
  {
    var ts := [LParen, Number("1"), Operator(Add), Number("2"), Operator(Add), Number("3"), RParen];
    var t := Bin(Add, Bin(Add, Num("1"), Num("2")), Num("3"));
    assert Desugar(s) == Success("(1+2+3)") by {
      DesugarAddThree(s);
    }
    assert Tokenize("(1+2+3)") == Success(ts) by {
      AddThreeTokens(ts);
    }
    assert ToRPN(ts) == Success(Postfix(t)) by {
      AddThreeRPN(ts, t);
    }
    assert EvalRPN(Postfix(t), num, apply, missing) == Success(Eval(t, num, apply)) by {
      EvalRPNPostfix(t, num, apply, missing);
    }
    EvaluateStages(s, "(1+2+3)", ts, Postfix(t), num, apply, missing);
  }

  /** The pipeline, stage by stage. */
  lemma EvaluateStages<V>(s: string, plain: string, ts: seq<Token>, rpn: seq<Token>,
                          num: string -> V, apply: (Op, V, V) -> V, missing: V)
    requires Desugar(s) == Success(plain) && Tokenize(plain) == Success(ts) && ToRPN(ts) == Success(rpn)
    ensures Evaluate(s, num, apply, missing) == EvalRPN(rpn, num, apply, missing)
  {
  }

  lemma AddThreeRPN(ts: seq<Token>, t: Expr)
    requires ts == [LParen, Number("1"), Operator(Add), Number("2"), Operator(Add), Number("3"), RParen]
    requires t == Bin(Add, Bin(Add, Num("1"), Num("2")), Num("3"))
    ensures ToRPN(ts) == Success(Postfix(t))
  {
    AddThreeGroupsLeft();
    assert Postfix(t) == [Number("1"), Number("2"), Operator(Add), Number("3"), Operator(Add)];
  }

  lemma AddThreeTokens(ts: seq<Token>)
    requires ts == [LParen, Number("1"), Operator(Add), Number("2"), Operator(Add), Number("3"), RParen]
    ensures Tokenize("(1+2+3)") == Success(ts)
  {
    assert Plain(ts) by {
      assert IsNumeral("1") && IsNumeral("2") && IsNumeral("3");
    }
    assert Squash(ts) == "(1+2+3)" by {
      assert ts[1..][1..][1..][1..][1..][1..][1..] == [];
      assert Squash(ts[6..]) == ")";
      assert Squash(ts[5..]) == "3)";
      assert Squash(ts[4..]) == "+3)";
      assert Squash(ts[3..]) == "2+3)";
      assert Squash(ts[2..]) == "+2+3)";
      assert Squash(ts[1..]) == "1+2+3)";
    }
    TokenizeSquashed(ts);
  }

  /** Replacing the first function call by its operator form leaves the
      value of the formula unchanged. */
  lemma EvaluateStep<V>(s: string, p: nat, n: string, q: nat, c: nat,
                        num: string -> V, apply: (Op, V, V) -> V, missing: V)
    requires FirstCall(s, p, n)
    requires q == CallParen(s, p, n) && Closes(s, q, c)
    requires ArityOk(n, |SplitArgs(s[q + 1 .. c])|)
    ensures n in OpMap && Evaluate(s, num, apply, missing)
         == Evaluate(s[..p] + "(" + JoinWith(SplitArgs(s[q + 1 .. c]), OpMap[n]) + ")" + s[c + 1 ..], num, apply, missing)
  {
    var t := s[..p] + "(" + JoinWith(SplitArgs(s[q + 1 .. c]), OpMap[n]) + ")" + s[c + 1 ..];
    assert Desugar(s) == Desugar(t) by {
      DesugarStep(s, p, n, q, c);
    }
    EvaluateDesugared(s, t, num, apply, missing);
  }

  /** The pipeline sees a formula only through its desugared text. */
  lemma EvaluateDesugared<V>(s: string, t: string, num: string -> V, apply: (Op, V, V) -> V, missing: V)
    requires Desugar(s) == Desugar(t)
    ensures Evaluate(s, num, apply, missing) == Evaluate(t, num, apply, missing)
  {
  }

  /** A formula with a character the tokenizer rejects, and no function
      call, fails on the first such character. */
  lemma EvaluateInvalid<V>(s: string, k: nat, num: string -> V, apply: (Op, V, V) -> V, missing: V)
    requires NoCall(s)
    requires k < |s| && !Accepted(s[k])
    requires forall j :: 0 <= j < k ==> Accepted(s[j])
    ensures Evaluate(s, num, apply, missing) == Failure(InvalidCharacter(s[k]))
  {
    DesugarFixpoint(s);
    TokenizeFirstRejected(s, k);
  }
}

=== FILE: grouping.dfy ===
/** The arguments of a rewritten call and the precedence around them.
    The rewriting joins the argument texts with the operator and puts
    parentheses only around the whole: an argument that holds operators of
    its own is not kept apart, so its operators and the call's operator
    bind by precedence. `MULTIPLY(1+2,3)` becomes `(1+2*3)`, whose value is
    `1 + 2 * 3`, not the product of its two arguments. Putting every
    argument in parentheses of its own gives every call the left fold of
    its arguments' values. */
module Grouping {
  import opened Chars
  import opened Results
  import opened Tables
  import opened Tokens
  import opened Calls
  import opened Parens
  import opened Replace
  import opened Preprocess
  import opened Tokenizer
  import opened Rpn
  import opened Trees
  import opened Evaluator
  import opened Groups
  import opened Chains
  import opened Formula

  // The rewriting as written: an argument with its own operator

  /** `MULTIPLY(1+2,3)` desugars to `(1+2*3)`: the argument `1+2` is not
      parenthesised. */
  lemma DesugarMultiplyLeak(s: string)
    requires s == "MULTIPLY(1+2,3)"
    ensures Desugar(s) == Success("(1+2*3)")
  {
    MultiplyLeakCall(s);
    DesugarStep(s, 0, "MULTIPLY", 8, 14);
    PlainMultiplyLeak();
  }

  lemma MultiplyLeakCall(s: string)
    requires s == "MULTIPLY(1+2,3)"
    ensures FirstCall(s, 0, "MULTIPLY") && CallParen(s, 0, "MULTIPLY") == 8 && Closes(s, 8, 14)
    ensures SplitArgs(s[9 .. 14]) == ["1+2", "3"] && ArityOk("MULTIPLY", 2)
    ensures "MULTIPLY" in OpMap
    ensures s[..0] + "(" + JoinWith(SplitArgs(s[9 .. 14]), OpMap["MULTIPLY"]) + ")" + s[15..] == "(1+2*3)"
  {
    assert FirstCall(s, 0, "MULTIPLY") && CallParen(s, 0, "MULTIPLY") == 8 by {
      FirstCallAtStart(s, "MULTIPLY");
    }
    assert Closes(s, 8, 14) by {
      ClosesNoParens(s, 8, 14);
    }
    assert SplitArgs(s[9 .. 14]) == ["1+2", "3"] by {
      assert s[9 .. 14] == "1+2,3";
      SplitOnePlusTwoThree();
    }
    SpliceWhole(s, 14, JoinWith(SplitArgs(s[9 .. 14]), OpMap["MULTIPLY"]));
    JoinOnePlusTwoThree();
  }

  lemma JoinOnePlusTwoThree()
    ensures "MULTIPLY" in OpMap && OpMap["MULTIPLY"] == '*'
    ensures "(" + JoinWith(["1+2", "3"], '*') + ")" == "(1+2*3)"
  {
    assert ["1+2", "3"][1..] == ["3"];
  }

  /** The body `1+2,3` has the arguments `1+2` and `3`. */
  lemma SplitOnePlusTwoThree()
    ensures SplitArgs("1+2,3") == ["1+2", "3"]
  {
    SplitTopOnePlusTwoThree();
    assert Trim("1+2") == "1+2";
    TrimSingle('3');
  }

  lemma SplitTopOnePlusTwoThree()
    ensures SplitTop("1+2,3", 0, []) == ["1+2", "3"]
  {
    SplitTopCommaThree("1+2");
    assert "1+2,3"[1..] == "+2,3" && "+2,3"[1..] == "2,3" && "2,3"[1..] == ",3";
    assert [] + ['1'] == "1" && "1" + ['+'] == "1+" && "1+" + ['2'] == "1+2";
    assert SplitTop("1+2,3", 0, []) == SplitTop("+2,3", 0, "1");
    assert SplitTop("+2,3", 0, "1") == SplitTop("2,3", 0, "1+");
    assert SplitTop("2,3", 0, "1+") == SplitTop(",3", 0, "1+2");
  }

  lemma SplitTopCommaThree(buf: string)
    ensures SplitTop(",3", 0, buf) == [buf, "3"]
  {
    assert ",3"[1..] == "3";
    assert SplitTop("3", 0, []) == SplitTop([], 0, "3");
  }

  /** The rewritten text has nothing left to rewrite. */
  lemma PlainMultiplyLeak()
    ensures Desugar("(1+2*3)") == Success("(1+2*3)")
  {
    var t := "(1+2*3)";
    forall i | 0 <= i < |t| ensures !IsLetter(t[i]) {
      assert t[i] in "()+*123";
    }
    DesugarNoLetters(t);
  }

  /** So `MULTIPLY(1+2,3)` evaluates to `1 + (2 * 3)`. */
  lemma EvaluateMultiplyLeak<V>(s: string, num: string -> V, apply: (Op, V, V) -> V, missing: V)
    requires s == "MULTIPLY(1+2,3)"
    ensures Evaluate(s, num, apply, missing) == Success(apply(Add, num("1"), apply(Mul, num("2"), num("3"))))
  {
    var ts := [LParen, Number("1"), Operator(Add), Number("2"), Operator(Mul), Number("3"), RParen];
    var t := Bin(Add, Num("1"), Bin(Mul, Num("2"), Num("3")));
    assert Desugar(s) == Success("(1+2*3)") by {
      DesugarMultiplyLeak(s);
    }
    assert Tokenize("(1+2*3)") == Success(ts) by {
      MultiplyLeakTokens(ts);
    }
    assert ToRPN(ts) == Success(Postfix(t)) by {
      MultiplyLeakRPN(ts, t);
    }
    assert EvalRPN(Postfix(t), num, apply, missing) == Success(Eval(t, num, apply)) by {
      EvalRPNPostfix(t, num, apply, missing);
    }
    EvaluateStages(s, "(1+2*3)", ts, Postfix(t), num, apply, missing);
  }

  lemma MultiplyLeakTokens(ts: seq<Token>)
    requires ts == [LParen, Number("1"), Operator(Add), Number("2"), Operator(Mul), Number("3"), RParen]
    ensures Tokenize("(1+2*3)") == Success(ts)
  {
    assert Plain(ts) by {
      assert IsNumeral("1") && IsNumeral("2") && IsNumeral("3");
    }
    assert Squash(ts) == "(1+2*3)" by {
      assert ts[1..][1..][1..][1..][1..][1..][1..] == [];
      assert Squash(ts[6..]) == ")";
      assert Squash(ts[5..]) == "3)";
      assert Squash(ts[4..]) == "*3)";
      assert Squash(ts[3..]) == "2*3)";
      assert Squash(ts[2..]) == "+2*3)";
      assert Squash(ts[1..]) == "1+2*3)";
    }
    TokenizeSquashed(ts);
  }

  lemma MultiplyLeakRPN(ts: seq<Token>, t: Expr)
    requires ts == [LParen, Number("1"), Operator(Add), Number("2"), Operator(Mul), Number("3"), RParen]
    requires t == Bin(Add, Num("1"), Bin(Mul, Num("2"), Num("3")))
    ensures ToRPN(ts) == Success(Postfix(t))
  {
    var inner := [Number("1"), Operator(Add), Number("2"), Operator(Mul), Number("3")];
    var p := [Number("1"), Number("2"), Number("3"), Operator(Mul), Operator(Add)];
    assert ts == [LParen] + inner + [RParen];
    assert ToRPN(inner) == Success(p) by {
      TimesBeforePlus();
    }
    assert ToRPN(ts) == Success(p) by {
      ToRPNGroup(inner);
    }
    MultiplyLeakPostfix(t, p);
  }

  lemma MultiplyLeakPostfix(t: Expr, p: seq<Token>)
    requires t == Bin(Add, Num("1"), Bin(Mul, Num("2"), Num("3")))
    requires p == [Number("1"), Number("2"), Number("3"), Operator(Mul), Operator(Add)]
    ensures Postfix(t) == p
  {
  }

  // The corrected rewriting: every argument in parentheses of its own

  /** Every argument wrapped in parentheses. */
  function WrapAll(args: seq<string>): (ws: seq<string>)
    ensures |ws| == |args|
    ensures forall i :: 0 <= i < |args| ==> ws[i] == "(" + args[i] + ")"
  {
    seq(|args|, i requires 0 <= i < |args| => "(" + args[i] + ")")
  }

  /** `((a1)op(a2)op...(ak))`: the replacement text with each argument kept
      apart from its neighbours. */
  function WrappedReplacement(args: seq<string>, op: char): string {
    "(" + JoinWith(WrapAll(args), op) + ")"
  }

  /** The replacement step with the arguments wrapped: it fails exactly
      where the rewriting as written fails, with the same error, and
      otherwise splices the wrapped replacement in place of the call. */
  function RewriteWrapped(s: string, start: nat, name: string, open: nat, close: nat): (r: Result<Option<string>>)
    requires start <= open < close < |s|
    ensures r.Failure? <==> Rewrite(s, start, name, open, close).Failure?
    ensures r.Failure? ==> r == Rewrite(s, start, name, open, close)
    ensures r.Success? ==> name in OpMap && ArityOk(name, |SplitArgs(s[open + 1 .. close])|)
  {
    match Rewrite(s, start, name, open, close)
    case Failure(e) => Failure(e)
    case Success(_) =>
      var args := SplitArgs(s[open + 1 .. close]);
      Success(Some(s[..start] + WrappedReplacement(args, OpMap[name]) + s[close + 1 ..]))
  }

  /** Texts the tokenizer reads, one per argument. */
  predicate AllTokenize(args: seq<string>) {
    forall i :: 0 <= i < |args| ==> Tokenize(args[i]).Success?
  }

  function TokensOf(args: seq<string>): (tss: seq<seq<Token>>)
    requires AllTokenize(args)
    ensures |tss| == |args|
    ensures forall i :: 0 <= i < |args| ==> Tokenize(args[i]) == Success(tss[i])
  {
    seq(|args|, i requires 0 <= i < |args| && Tokenize(args[i]).Success? => Tokenize(args[i]).value)
  }

  /** Every token sequence between parentheses. */
  function Bracketed(tss: seq<seq<Token>>): (gs: seq<seq<Token>>)
    ensures |gs| == |tss|
    ensures forall i :: 0 <= i < |tss| ==> gs[i] == [LParen] + tss[i] + [RParen]
  {
    seq(|tss|, i requires 0 <= i < |tss| => [LParen] + tss[i] + [RParen])
  }

  /** A group in parentheses acts as the tree its content converts to. */
  lemma BracketedAct(tss: seq<seq<Token>>, es: seq<Expr>)
    requires |tss| == |es|
    requires forall i :: 0 <= i < |tss| ==> ToRPN(tss[i]) == Success(Postfix(es[i]))
    ensures AllAct(Bracketed(tss), es)
  {
    forall i | 0 <= i < |tss| ensures Acts(Bracketed(tss)[i], es[i]) {
      GroupActs(tss[i], es[i]);
    }
  }

  /** The wrapped arguments joined with `o`, followed by a `)`, tokenize to
      the chain of the bracketed argument tokens, followed by a `)`. */
  lemma {:induction false} TokenizeJoinWrapped(o: Op, args: seq<string>)
    requires |args| >= 1 && AllTokenize(args)
    ensures Tokenize(JoinWith(WrapAll(args), Symbol(o)) + ")")
         == Success(Chain(o, Bracketed(TokensOf(args))) + [RParen])
    decreases |args|
  {
    if |args| == 1 {
      JoinWrappedOne(o, args);
    } else {
      TokenizeJoinWrapped(o, args[1..]);
      JoinWrappedStep(o, args);
    }
  }

  lemma TokenizeClose()
    ensures Tokenize(")") == Success([RParen])
  {
    TokenizeCons(RParen, [], []);
    assert Text(RParen) + [] == ")" && [RParen] + [] == [RParen];
  }

  lemma JoinWrappedOne(o: Op, args: seq<string>)
    requires |args| == 1 && AllTokenize(args)
    ensures Tokenize(JoinWith(WrapAll(args), Symbol(o)) + ")")
         == Success(Chain(o, Bracketed(TokensOf(args))) + [RParen])
  {
    var a := args[0];
    var gs := Bracketed(TokensOf(args));
    assert JoinWith(WrapAll(args), Symbol(o)) + ")" == "(" + a + ")" + ")";
    TokenizeClose();
    TokenizeWrapped(a, ")");
    assert gs[1..] == [] && Chain(o, gs) == gs[0];
  }

  lemma JoinWrappedStep(o: Op, args: seq<string>)
    requires |args| >= 2 && AllTokenize(args)
    requires Tokenize(JoinWith(WrapAll(args[1..]), Symbol(o)) + ")")
          == Success(Chain(o, Bracketed(TokensOf(args[1..]))) + [RParen])
    ensures Tokenize(JoinWith(WrapAll(args), Symbol(o)) + ")")
         == Success(Chain(o, Bracketed(TokensOf(args))) + [RParen])
  {
    var c := Symbol(o);
    var gs := Bracketed(TokensOf(args));
    var more := JoinWith(WrapAll(args[1..]), c) + ")";
    var rest := [c] + more;
    var after := [Operator(o)] + (Chain(o, gs[1..]) + [RParen]);
    BracketedTail(args);
    assert Tokenize(rest) == Success(after) by {
      SymbolRoundTrip(o);
      TokenizeCons(Operator(o), more, Chain(o, gs[1..]) + [RParen]);
    }
    WrappedJoinCons(args, c);
    TokenizeWrapped(args[0], rest);
    ChainCons(o, gs);
  }

  lemma BracketedTail(args: seq<string>)
    requires |args| >= 1 && AllTokenize(args)
    ensures Bracketed(TokensOf(args[1..])) == Bracketed(TokensOf(args))[1..]
    ensures Bracketed(TokensOf(args))[0] == [LParen] + Tokenize(args[0]).value + [RParen]
  {
    assert TokensOf(args[1..]) == TokensOf(args)[1..];
  }

  lemma WrappedJoinCons(args: seq<string>, c: char)
    requires |args| >= 2
    ensures JoinWith(WrapAll(args), c) + ")" == "(" + args[0] + ")" + ([c] + (JoinWith(WrapAll(args[1..]), c) + ")"))
  {
    assert WrapAll(args)[1..] == WrapAll(args[1..]);
  }

  /** A chain of two or more groups: the first, the operator, the chain of
      the others. */
  lemma ChainCons(o: Op, gs: seq<seq<Token>>)
    requires |gs| >= 2
    ensures Chain(o, gs) + [RParen] == gs[0] + ([Operator(o)] + (Chain(o, gs[1..]) + [RParen]))
  {
    assert gs[1..][0] == gs[1] && gs[1..][1..] == gs[2..];
  }

  /** The corrected rewriting keeps its promise: when every argument text
      converts to a tree, the wrapped replacement evaluates to the left fold
      of the arguments' values with the operator, for every operator and
      arity the rewriting accepts. */
  lemma EvaluateWrapped<V>(o: Op, args: seq<string>, es: seq<Expr>, num: string -> V, apply: (Op, V, V) -> V, missing: V)
    requires |args| == |es| >= 1 && LeftGroups(o, |es|)
    requires forall i :: 0 <= i < |args| ==>
      Tokenize(args[i]).Success? && ToRPN(Tokenize(args[i]).value) == Success(Postfix(es[i]))
    ensures Evaluate(WrappedReplacement(args, Symbol(o)), num, apply, missing)
         == Success(Eval(FoldLeft(o, es[0], es[1..]), num, apply))
  {
    var text := WrappedReplacement(args, Symbol(o));
    var tss := TokensOf(args);
    var gs := Bracketed(tss);
    var ts := [LParen] + Chain(o, gs) + [RParen];
    assert Tokenize(text) == Success(ts) by {
      WrappedTokens(o, args);
    }
    assert Desugar(text) == Success(text) by {
      TokenizedNoLetters(text);
      DesugarNoLetters(text);
    }
    var t := FoldLeft(o, es[0], es[1..]);
    var rpn := Postfix(t);
    assert ToRPN(ts) == Success(rpn) by {
      BracketedAct(tss, es);
      ToRPNLeftChain(o, gs, es);
    }
    assert EvalRPN(rpn, num, apply, missing) == Success(Eval(t, num, apply)) by {
      EvalRPNPostfix(t, num, apply, missing);
    }
    EvaluateStages(text, text, ts, rpn, num, apply, missing);
  }

  /** The wrapped replacement tokenizes to the bracketed chain inside a
      pair of parentheses. */
  lemma WrappedTokens(o: Op, args: seq<string>)
    requires |args| >= 1 && AllTokenize(args)
    ensures Tokenize(WrappedReplacement(args, Symbol(o)))
         == Success([LParen] + Chain(o, Bracketed(TokensOf(args))) + [RParen])
  {
    var inner := JoinWith(WrapAll(args), Symbol(o)) + ")";
    var chain := Chain(o, Bracketed(TokensOf(args)));
    TokenizeJoinWrapped(o, args);
    assert WrappedReplacement(args, Symbol(o)) == "(" + inner;
    TokenizeOpen(inner, WrappedReplacement(args, Symbol(o)));
    assert [LParen] + (chain + [RParen]) == [LParen] + chain + [RParen];
  }

  /** Every call the rewriting accepts groups from the left: the variadic
      operators are not right-associative, and the others take exactly two
      arguments. */
  lemma AcceptedCallsGroupLeft(name: string, k: nat)
    requires name in OpMap && ArityOk(name, k)
    ensures IsOpChar(OpMap[name]) && LeftGroups(OpOfChar(OpMap[name]), k)
  {
  }

  /** Wrapped, `MULTIPLY(1+2,3)` becomes `((1+2)*(3))`, the product of its
      two arguments. */
  lemma EvaluateWrappedMultiply<V>(num: string -> V, apply: (Op, V, V) -> V, missing: V)
    ensures Evaluate(WrappedReplacement(["1+2", "3"], '*'), num, apply, missing)
         == Success(apply(Mul, apply(Add, num("1"), num("2")), num("3")))
  {
    var es := [Bin(Add, Num("1"), Num("2")), Num("3")];
    assert Tokenize("1+2").Success? && ToRPN(Tokenize("1+2").value) == Success(Postfix(es[0])) by {
      OnePlusTwo(es[0]);
    }
    assert Tokenize("3") == Success([Number("3")]) && ToRPN([Number("3")]) == Success(Postfix(es[1])) by {
      ThreeAlone();
    }
    var args := ["1+2", "3"];
    assert Symbol(Mul) == '*';
    EvaluateWrapped(Mul, args, es, num, apply, missing);
    assert es[1..] == [Num("3")] && es[1..][1..] == [];
  }

  lemma OnePlusTwo(e: Expr)
    requires e == Bin(Add, Num("1"), Num("2"))
    ensures Tokenize("1+2") == Success([Number("1"), Operator(Add), Number("2")])
    ensures ToRPN([Number("1"), Operator(Add), Number("2")]) == Success(Postfix(e))
  {
    var ts := [Number("1"), Operator(Add), Number("2")];
    assert Squash(ts) == "1+2" by {
      assert ts[1..][1..][1..] == [];
    }
    assert Plain(ts) by {
      assert IsNumeral("1") && IsNumeral("2");
    }
    TokenizeSquashed(ts);
    var es := [Num("1"), Num("2")];
    var gs := Infixes(es);
    assert gs == [[Number("1")], [Number("2")]];
    assert gs[1..][1..] == [];
    assert OpTail(Add, gs[1..]) == [Operator(Add), Number("2")];
    assert Chain(Add, gs) == ts;
    InfixesAct(es);
    ToRPNBareLeftChain(Add, gs, es);
    assert es[1..] == [Num("2")] && es[1..][1..] == [];
  }

  lemma ThreeAlone()
    ensures Tokenize("3") == Success([Number("3")])
    ensures ToRPN([Number("3")]) == Success(Postfix(Num("3")))
  {
    assert Squash([Number("3")]) == "3";
    TokenizeSquashed([Number("3")]);
    ToRPNInfix(Num("3"));
  }

  /** Integer addition, subtraction and multiplication, one reading of
      the operators that tells the two groupings apart. */
  function IntApply(o: Op, x: int, y: int): int {
    match o
    case Add => x + y
    case Sub => x - y
    case Mul => x * y
    case _ => 0
  }

  /** The value of a one-digit numeral. */
  function DigitValue(t: string): int {
    if |t| == 1 && IsDigit(t[0]) then t[0] as int - '0' as int else 0
  }

  /** Read with integers, the rewriting as written gives 7 for
      `MULTIPLY(1+2,3)`, and the wrapped rewriting gives 9, the product of
      3 and 3. */
  lemma MultiplyLeakValues(s: string)
    requires s == "MULTIPLY(1+2,3)"
    ensures Evaluate(s, DigitValue, IntApply, 0) == Success(7)
    ensures Evaluate(WrappedReplacement(["1+2", "3"], '*'), DigitValue, IntApply, 0) == Success(9)
  {
    var seven := IntApply(Add, DigitValue("1"), IntApply(Mul, DigitValue("2"), DigitValue("3")));
    var nine := IntApply(Mul, IntApply(Add, DigitValue("1"), DigitValue("2")), DigitValue("3"));
    LeakArithmetic(seven, nine);
    assert Evaluate(s, DigitValue, IntApply, 0) == Success(seven) by {
      EvaluateMultiplyLeak(s, DigitValue, IntApply, 0);
    }
    assert Evaluate(WrappedReplacement(["1+2", "3"], '*'), DigitValue, IntApply, 0) == Success(nine) by {
      EvaluateWrappedMultiply(DigitValue, IntApply, 0);
    }
  }

  lemma LeakArithmetic(seven: int, nine: int)
    requires seven == IntApply(Add, DigitValue("1"), IntApply(Mul, DigitValue("2"), DigitValue("3")))
    requires nine == IntApply(Mul, IntApply(Add, DigitValue("1"), DigitValue("2")), DigitValue("3"))
    ensures seven == 7 && nine == 9
  {
    assert DigitValue("1") == 1 && DigitValue("2") == 2 && DigitValue("3") == 3;
  }
}

=== FILE: groups.dfy ===
/** A parenthesised group `( ts )` inside a longer token sequence: the
    shunting yard converts it exactly as it converts `ts` on its own, and
    what lies below the `(` on the stack is never touched. */
module Groups {
  import opened Results
  import opened Tables
  import opened Tokens
  import opened Rpn
  import opened Trees

  /** A stack whose top is a `(`: the inner loop for an operator stops
      there, so nothing below it is ever moved. */
  predicate OpenTop(base: seq<Token>) {
    base != [] && base[|base| - 1] == LParen
  }

  /** Above a `(`, an operator moves what it would move from that part of
      the stack alone. */
  lemma {:induction false} PopHigherFrame(o: Op, pre: seq<Token>, out: seq<Token>, base: seq<Token>, stk: seq<Token>)
    requires OpenTop(base)
    ensures var r := PopHigher(o, Shunt(out, stk));
      PopHigher(o, Shunt(pre + out, base + stk)) == Shunt(pre + r.out, base + r.stack)
    decreases |stk|
  {
    var full := base + stk;
    if stk == [] {
      assert full == base;
    } else {
      var top := stk[|stk| - 1];
      assert full[|full| - 1] == top;
      assert full[..|full| - 1] == base + stk[..|stk| - 1];
      if top.Operator? && Yields(o, top.op) {
        PopHigherFrame(o, pre, out + [top], base, stk[..|stk| - 1]);
        assert pre + out + [top] == pre + (out + [top]);
      }
    }
  }

  /** A `)` that finds its `(` in the upper part of the stack moves what it
      would move from that part alone. */
  lemma {:induction false} PopToOpenFrame(pre: seq<Token>, out: seq<Token>, base: seq<Token>, stk: seq<Token>)
    requires PopToOpen(Shunt(out, stk)).Success?
    ensures var r := PopToOpen(Shunt(out, stk)).value;
      PopToOpen(Shunt(pre + out, base + stk)) == Success(Shunt(pre + r.out, base + r.stack))
    decreases |stk|
  {
    var full := base + stk;
    var top := stk[|stk| - 1];
    assert full[|full| - 1] == top;
    assert full[..|full| - 1] == base + stk[..|stk| - 1];
    if top != LParen {
      PopToOpenFrame(pre, out + [top], base, stk[..|stk| - 1]);
      assert pre + out + [top] == pre + (out + [top]);
    }
  }

  /** One turn of the main loop above a `(`. */
  lemma StepFrame(t: Token, pre: seq<Token>, out: seq<Token>, base: seq<Token>, stk: seq<Token>)
    requires OpenTop(base) && Step(Shunt(out, stk), t).Success?
    ensures var r := Step(Shunt(out, stk), t).value;
      Step(Shunt(pre + out, base + stk), t) == Success(Shunt(pre + r.out, base + r.stack))
  {
    match t
    case Number(_) =>
      assert pre + out + [t] == pre + (out + [t]);
    case Operator(o) =>
      PopHigherFrame(o, pre, out, base, stk);
      var p := PopHigher(o, Shunt(out, stk));
      assert base + p.stack + [t] == base + (p.stack + [t]);
    case LParen =>
      assert base + stk + [t] == base + (stk + [t]);
    case RParen =>
      PopToOpenFrame(pre, out, base, stk);
  }

  /** A run that succeeds on its own succeeds the same way above a `(`,
      with earlier output in front of its own. */
  lemma {:induction false} RunFrame(ts: seq<Token>, pre: seq<Token>, out: seq<Token>, base: seq<Token>, stk: seq<Token>)
    requires OpenTop(base) && Run(ts, Shunt(out, stk)).Success?
    ensures var r := Run(ts, Shunt(out, stk)).value;
      Run(ts, Shunt(pre + out, base + stk)) == Success(Shunt(pre + r.out, base + r.stack))
    decreases |ts|
  {
    if ts != [] {
      RunCons(ts, Shunt(out, stk));
      RunCons(ts, Shunt(pre + out, base + stk));
      var m := Step(Shunt(out, stk), ts[0]).value;
      StepFrame(ts[0], pre, out, base, stk);
      RunFrame(ts[1..], pre, m.out, base, m.stack);
    }
  }

  /** Running `a` then `b` is running `a + b`. */
  lemma {:induction false} RunAppend(a: seq<Token>, b: seq<Token>, st: Shunt)
    requires Run(a, st).Success?
    ensures Run(a + b, st) == Run(b, Run(a, st).value)
    decreases |a|
  {
    if a == [] {
      assert a + b == b;
    } else {
      RunCons(a, st);
      RunCons(a + b, st);
      assert (a + b)[0] == a[0] && (a + b)[1..] == a[1..] + b;
      RunAppend(a[1..], b, Step(st, a[0]).value);
    }
  }

  /** Earlier output stays in front of what the final loop adds. */
  lemma {:induction false} DrainPrefix(pre: seq<Token>, out: seq<Token>, stk: seq<Token>)
    requires Drain(Shunt(out, stk)).Success?
    ensures Drain(Shunt(pre + out, stk)) == Success(pre + Drain(Shunt(out, stk)).value)
    decreases |stk|
  {
    if stk != [] {
      var top := stk[|stk| - 1];
      DrainPrefix(pre, out + [top], stk[..|stk| - 1]);
      assert pre + out + [top] == pre + (out + [top]);
    }
  }

  /** A `)` meeting a stack that the final loop could empty, above a `(`,
      pops it as the final loop would, then drops the `(`. */
  lemma {:induction false} DrainToOpen(out: seq<Token>, base: seq<Token>, stk: seq<Token>)
    requires Drain(Shunt(out, stk)).Success?
    ensures PopToOpen(Shunt(out, base + [LParen] + stk)) == Success(Shunt(Drain(Shunt(out, stk)).value, base))
    decreases |stk|
  {
    var full := base + [LParen] + stk;
    if stk == [] {
      assert full[|full| - 1] == LParen && full[..|full| - 1] == base;
    } else {
      var top := stk[|stk| - 1];
      assert full[|full| - 1] == top;
      assert full[..|full| - 1] == base + [LParen] + stk[..|stk| - 1];
      DrainToOpen(out + [top], base, stk[..|stk| - 1]);
    }
  }

  /** `( ts )` followed by more tokens: when `ts` converts to `p` on its own,
      the group appends `p` to the output and leaves the stack as it was. */
  lemma GroupRun(ts: seq<Token>, p: seq<Token>, after: seq<Token>, out: seq<Token>, stk: seq<Token>)
    requires ToRPN(ts) == Success(p)
    ensures Run([LParen] + ts + [RParen] + after, Shunt(out, stk)) == Run(after, Shunt(out + p, stk))
  {
    var v := Run(ts, Shunt([], [])).value;
    var open := stk + [LParen];
    var closing := [RParen] + after;
    assert [LParen] + ts + [RParen] + after == [LParen] + (ts + closing);
    RunOpen(ts + closing, out, stk);
    assert Run(ts + closing, Shunt(out, open)) == Run(closing, Shunt(out + v.out, open + v.stack)) by {
      GroupInner(ts, out, open);
      RunAppend(ts, closing, Shunt(out, open));
    }
    assert Run(closing, Shunt(out + v.out, open + v.stack)) == Run(after, Shunt(out + p, stk)) by {
      GroupClose(ts, p, after, out, stk);
    }
  }

  lemma GroupInner(ts: seq<Token>, out: seq<Token>, open: seq<Token>)
    requires OpenTop(open) && Run(ts, Shunt([], [])).Success?
    ensures var v := Run(ts, Shunt([], [])).value;
      Run(ts, Shunt(out, open)) == Success(Shunt(out + v.out, open + v.stack))
  {
    RunFrame(ts, out, [], open, []);
    assert out + [] == out && open + [] == open;
  }

  lemma GroupClose(ts: seq<Token>, p: seq<Token>, after: seq<Token>, out: seq<Token>, stk: seq<Token>)
    requires ToRPN(ts) == Success(p)
    ensures var v := Run(ts, Shunt([], [])).value;
      Run([RParen] + after, Shunt(out + v.out, stk + [LParen] + v.stack)) == Run(after, Shunt(out + p, stk))
  {
    var v := Run(ts, Shunt([], [])).value;
    DrainPrefix(out, v.out, v.stack);
    DrainToOpen(out + v.out, stk, v.stack);
    var ts' := [RParen] + after;
    assert ts'[0] == RParen && ts'[1..] == after;
    RunCons(ts', Shunt(out + v.out, stk + [LParen] + v.stack));
  }

  /** Parentheses around a sequence that converts change nothing. */
  lemma ToRPNGroup(ts: seq<Token>)
    requires ToRPN(ts).Success?
    ensures ToRPN([LParen] + ts + [RParen]) == ToRPN(ts)
  {
    var p := ToRPN(ts).value;
    GroupRun(ts, p, [], [], []);
    assert [LParen] + ts + [RParen] + [] == [LParen] + ts + [RParen];
    assert [] + p == p;
  }
}

=== FILE: measure.dfy ===
/** The measure that makes the desugaring loop terminate: the number of
    ASCII letters in the text. A successful pass deletes exactly the letters
    of the function name it rewrites and adds none, because trimming only
    removes whitespace and the replacement adds only parentheses and an
    operator symbol. */
module Measure {
  import opened Chars
  import opened Results
  import opened Tables
  import opened Calls
  import opened Parens
  import opened Replace

  function Letters(t: string): nat {
    if t == [] then 0 else (if IsLetter(t[0]) then 1 else 0) + Letters(t[1..])
  }

  lemma {:induction false} LettersAppend(x: string, y: string)
    ensures Letters(x + y) == Letters(x) + Letters(y)
    decreases |x|
  {
    if x == [] {
      assert x + y == y;
    } else {
      assert (x + y)[1..] == x[1..] + y;
      LettersAppend(x[1..], y);
    }
  }

  lemma {:induction false} LettersNone(t: string)
    requires NoLetters(t)
    ensures Letters(t) == 0
    decreases |t|
  {
    if t != [] {
      LettersNone(t[1..]);
    }
  }

  lemma {:induction false} LettersAll(t: string)
    requires forall i :: 0 <= i < |t| ==> IsLetter(t[i])
    ensures Letters(t) == |t|
    decreases |t|
  {
    if t != [] {
      LettersAll(t[1..]);
    }
  }

  /** Trimming removes no letter. */
  lemma LettersTrim(x: string)
    ensures Letters(Trim(x)) == Letters(x)
  {
    var lead, trail := TrimDecompose(x);
    LettersAppend(lead + Trim(x), trail);
    LettersAppend(lead, Trim(x));
    LettersNone(lead);
    LettersNone(trail);
  }

  function SumLetters(xs: seq<string>): nat {
    if xs == [] then 0 else Letters(xs[0]) + SumLetters(xs[1..])
  }

  lemma {:induction false} SumLettersAppend(xs: seq<string>, ys: seq<string>)
    ensures SumLetters(xs + ys) == SumLetters(xs) + SumLetters(ys)
    decreases |xs|
  {
    if xs == [] {
      assert xs + ys == ys;
    } else {
      assert (xs + ys)[1..] == xs[1..] + ys;
      SumLettersAppend(xs[1..], ys);
    }
  }

  lemma {:induction false} SumLettersLast(xs: seq<string>)
    requires |xs| >= 1
    ensures SumLetters(xs) == SumLetters(xs[..|xs| - 1]) + Letters(xs[|xs| - 1])
    decreases |xs|
  {
    if |xs| > 1 {
      SumLettersLast(xs[1..]);
      assert xs[1..][..|xs| - 2] == xs[..|xs| - 1][1..];
    }
  }

  /** Joining with a non-letter separator adds up the letters of the parts. */
  lemma {:induction false} LettersJoin(xs: seq<string>, c: char)
    requires !IsLetter(c)
    ensures Letters(JoinWith(xs, c)) == SumLetters(xs)
    decreases |xs|
  {
    if |xs| >= 2 {
      LettersAppend(xs[0] + [c], JoinWith(xs[1..], c));
      LettersAppend(xs[0], [c]);
      LettersJoin(xs[1..], c);
    } else if |xs| == 1 {
      assert xs[1..] == [];
    }
  }

  lemma {:induction false} SumLettersTrimAll(xs: seq<string>)
    ensures SumLetters(TrimAll(xs)) == SumLetters(xs)
    decreases |xs|
  {
    if xs != [] {
      assert TrimAll(xs)[1..] == TrimAll(xs[1..]);
      LettersTrim(xs[0]);
      SumLettersTrimAll(xs[1..]);
    }
  }

  /** The last piece, kept trimmed or dropped when blank, keeps its letters. */
  lemma LettersLastArg(last: string)
    ensures SumLetters(if Trim(last) != [] then [Trim(last)] else []) == Letters(last)
  {
    LettersTrim(last);
    if Trim(last) == [] {
      TrimEmptyIff(last);
      LettersNone(last);
    }
  }

  lemma LettersArgsOfPieces(pieces: seq<string>)
    requires |pieces| >= 1
    ensures SumLetters(ArgsOfPieces(pieces)) == SumLetters(pieces)
  {
    var front := pieces[..|pieces| - 1];
    var last := pieces[|pieces| - 1];
    var tail := if Trim(last) != [] then [Trim(last)] else [];
    assert ArgsOfPieces(pieces) == TrimAll(front) + tail;
    SumLettersAppend(TrimAll(front), tail);
    SumLettersTrimAll(front);
    LettersLastArg(last);
    SumLettersLast(pieces);
  }

  /** Splitting a call body into arguments loses no letter. */
  lemma LettersArgs(inside: string)
    ensures SumLetters(SplitArgs(inside)) == Letters(inside)
  {
    var pieces := SplitTop(inside, 0, []);
    SplitTopPieces(inside, 0, []);
    assert [] + inside == inside;
    LettersJoin(pieces, ',');
    LettersArgsOfPieces(pieces);
  }

  /** A matched name is made of letters. */
  lemma NameLetterAt(s: string, p: nat, n: string, i: nat)
    requires n in FnNames && NameAt(s, p, n) && i < |n|
    ensures IsLetter(s[p + i])
  {
    FnNamesAreUpperWords();
    assert UpperAscii(s[p + i]) == n[i];
  }

  /** The matched name and the whitespace after it hold the name's letters. */
  lemma LettersCallName(s: string, p: nat, n: string)
    requires CallAt(s, p, n) && n in FnNames
    ensures Letters(s[p .. CallParen(s, p, n)]) == |n|
  {
    var q := CallParen(s, p, n);
    var name, spaces := s[p .. p + |n|], s[p + |n| .. q];
    assert s[p .. q] == name + spaces;
    forall i | 0 <= i < |name| ensures IsLetter(name[i]) {
      NameLetterAt(s, p, n, i);
    }
    LettersAll(name);
    LettersNone(spaces);
    LettersAppend(name, spaces);
  }

  /** Letters of the text around a call, whose name and spaces are `mid`. */
  lemma LettersCallShape(before: string, mid: string, inside: string, after: string)
    ensures Letters(before + mid + "(" + inside + ")" + after)
         == Letters(before) + Letters(mid) + Letters(inside) + Letters(after)
  {
    LettersAppend(before + mid + "(" + inside + ")", after);
    LettersAppend(before + mid + "(" + inside, ")");
    LettersAppend(before + mid + "(", inside);
    LettersAppend(before + mid, "(");
    LettersAppend(before, mid);
  }

  /** Letters of a text around a call: the name and spaces from `p` to the
      parenthesis at `q`, the body up to the parenthesis at `c`, and the
      rest. */
  lemma LettersAroundCall(s: string, p: nat, q: nat, c: nat)
    requires p <= q < c < |s| && s[q] == '(' && s[c] == ')'
    ensures Letters(s)
         == Letters(s[..p]) + Letters(s[p .. q]) + Letters(s[q + 1 .. c]) + Letters(s[c + 1 ..])
  {
    assert s == s[..p] + s[p .. q] + "(" + s[q + 1 .. c] + ")" + s[c + 1 ..];
    LettersCallShape(s[..p], s[p .. q], s[q + 1 .. c], s[c + 1 ..]);
  }

  /** Letters of a replacement: the parentheses add none. */
  lemma LettersSpliced(before: string, joined: string, after: string)
    ensures Letters(before + "(" + joined + ")" + after)
         == Letters(before) + Letters(joined) + Letters(after)
  {
    LettersCallShape(before, [], joined, after);
    assert before + [] == before;
  }

  /** The replacement text has the letters of the text around the call
      except those between `p` and the opening parenthesis. */
  lemma LettersRewritten(s: string, p: nat, q: nat, c: nat, o: char)
    requires p <= q < c < |s| && s[q] == '(' && s[c] == ')'
    requires !IsLetter(o)
    ensures Letters(Spliced(s, p, q, c, o)) == Letters(s) - Letters(s[p .. q])
  {
    var inside := s[q + 1 .. c];
    var joined := JoinWith(SplitArgs(inside), o);
    LettersAroundCall(s, p, q, c);
    assert Letters(joined) == Letters(inside) by {
      LettersJoin(SplitArgs(inside), o);
      LettersArgs(inside);
    }
    LettersSpliced(s[..p], joined, s[c + 1 ..]);
  }

  lemma RewriteLetters(s: string, p: nat, n: string, q: nat, c: nat, t: string)
    requires CallAt(s, p, n) && n in FnNames
    requires q == CallParen(s, p, n) && Closes(s, q, c)
    requires Rewrite(s, p, n, q, c) == Success(Some(t))
    ensures Letters(t) == Letters(s) - |n|
  {
    OpMapCoversFnNames();
    var o := OpMap[n];
    assert t == Spliced(s, p, q, c, o) by {
      RewriteValue(s, p, n, q, c);
    }
    assert Letters(s[p .. q]) == |n| by {
      LettersCallName(s, p, n);
    }
    assert Letters(t) == Letters(s) - Letters(s[p .. q]) by {
      assert !IsLetter(o) && s[q] == '(' && s[c] == ')';
      LettersRewritten(s, p, q, c, o);
    }
  }

  /** Each successful pass removes the letters of one function name, and
      nothing else: the letter count drops by at least three. */
  lemma ReplaceOnceLetters(s: string, t: string)
    requires ReplaceOnce(s) == Success(Some(t))
    ensures Letters(t) + 3 <= Letters(s)
  {
    var p, n, c := ReplaceOnceShape(s, t);
    RewriteLetters(s, p, n, CallParen(s, p, n), c, t);
    FnNamesLong(n);
  }
}

=== FILE: parens.dfy ===
/** Parenthesis bookkeeping inside a function call: finding the `)` that
    closes the call's `(` by counting depth, and splitting the text between
    them into arguments at the commas that are not nested in parentheses. */
module Parens {
  import opened Chars

  function Delta(c: char): int {
    if c == '(' then 1 else if c == ')' then -1 else 0
  }

  /** Net nesting of a text: opening minus closing parentheses. */
  function Depth(t: string): int {
    if t == [] then 0 else Depth(t[..|t| - 1]) + Delta(t[|t| - 1])
  }

  lemma DepthSnoc(t: string, c: char)
    ensures Depth(t + [c]) == Depth(t) + Delta(c)
  {
    assert (t + [c])[..|t|] == t;
  }

  /** Depth of the text strictly after `open` up to (excluding) `k`. */
  function DepthAfter(s: string, open: nat, k: nat): int
    requires open < k <= |s|
  {
    Depth(s[open + 1 .. k])
  }

  /** `c` is the parenthesis that closes the one at `open`: the text between
      them is balanced and never dips below zero. */
  ghost predicate Closes(s: string, open: nat, c: nat) {
    && open < c < |s|
    && s[c] == ')'
    && DepthAfter(s, open, c) == 0
    && forall k :: open < k <= c ==> DepthAfter(s, open, k) >= 0
  }

  /** Nothing after `open` closes it: every prefix of the rest keeps it open. */
  ghost predicate Unclosed(s: string, open: nat) {
    open < |s| && forall k :: open < k <= |s| ==> DepthAfter(s, open, k) >= 0
  }

  /** The depth-counting loop: from index `i` at level `lvl`, returns the
      index and level at which it stops (at the closing parenthesis with
      level 0, or at the end of the text with a positive level). */
  function ScanClose(s: string, open: nat, i: nat, lvl: int): (r: (nat, int))
    requires open < i <= |s|
    requires lvl == 1 + DepthAfter(s, open, i)
    requires forall k :: open < k <= i ==> DepthAfter(s, open, k) >= 0
    ensures r.1 == 0 ==> i <= r.0 && Closes(s, open, r.0)
    ensures r.1 != 0 ==> r.0 == |s| && Unclosed(s, open)
    decreases |s| - i
  {
    if i == |s| then (i, lvl)
    else
      assert s[open + 1 .. i + 1] == s[open + 1 .. i] + [s[i]];
      DepthSnoc(s[open + 1 .. i], s[i]);
      if s[i] == '(' then ScanClose(s, open, i + 1, lvl + 1)
      else if s[i] == ')' then
        if lvl - 1 == 0 then (i, 0) else ScanClose(s, open, i + 1, lvl - 1)
      else ScanClose(s, open, i + 1, lvl)
  }

  /** The closing parenthesis is where the depth after `open` first drops below zero. */
  lemma ClosesDips(s: string, open: nat, c: nat)
    requires Closes(s, open, c)
    ensures c + 1 <= |s| && DepthAfter(s, open, c + 1) == -1
  {
    assert s[open + 1 .. c + 1] == s[open + 1 .. c] + [s[c]];
    DepthSnoc(s[open + 1 .. c], s[c]);
  }

  /** A `(` is closed by at most one index, and a closed `(` is not unclosed. */
  lemma ClosesUnique(s: string, open: nat, c: nat, c': nat)
    requires Closes(s, open, c) && Closes(s, open, c')
    ensures c == c'
    ensures !Unclosed(s, open)
  {
    ClosesDips(s, open, c);
    ClosesDips(s, open, c');
  }

  /** Started just after `open`, the depth-counting loop stops at the
      parenthesis that closes `open` when there is one... */
  lemma ScanCloseFindsClose(s: string, open: nat, c: nat)
    requires open < |s| && Closes(s, open, c)
    ensures ScanClose(s, open, open + 1, 1) == (c, 0)
  {
    var r := ScanClose(s, open, open + 1, 1);
    if r.1 != 0 {
      ClosesUnique(s, open, c, c);
      assert false;
    }
    ClosesUnique(s, open, c, r.0);
  }

  /** ...and ends with a non-zero level exactly when there is none. */
  lemma ScanCloseUnclosed(s: string, open: nat)
    requires open < |s|
    ensures ScanClose(s, open, open + 1, 1).1 != 0 <==> Unclosed(s, open)
  {
    var r := ScanClose(s, open, open + 1, 1);
    if r.1 == 0 {
      ClosesUnique(s, open, r.0, r.0);
    }
  }

  /** No comma of the text sits at depth zero. */
  predicate NoTopComma(t: string) {
    forall j :: 0 <= j < |t| && t[j] == ',' ==> Depth(t[..j]) != 0
  }

  lemma NoTopCommaSnoc(buf: string, ch: char)
    requires NoTopComma(buf)
    ensures ch != ',' || Depth(buf) != 0 ==> NoTopComma(buf + [ch])
  {
    if ch != ',' || Depth(buf) != 0 {
    forall j | 0 <= j < |buf + [ch]| && (buf + [ch])[j] == ','
      ensures Depth((buf + [ch])[..j]) != 0
    {
      if j < |buf| {
        assert (buf + [ch])[..j] == buf[..j];
      } else {
        assert (buf + [ch])[..j] == buf;
      }
    }
    }
  }

  /** `pieces` cut `t` at exactly its depth-zero commas. */
  ghost predicate TopLevelPieces(t: string, pieces: seq<string>) {
    && |pieces| >= 1
    && JoinWith(pieces, ',') == t
    && (forall i :: 0 <= i < |pieces| - 1 ==> Depth(pieces[i]) == 0)
    && (forall i :: 0 <= i < |pieces| ==> NoTopComma(pieces[i]))
  }

  /** The argument-splitting loop before trimming: `buf` is the argument
      being collected and `depth` the nesting reached so far. */
  function SplitTop(s: string, depth: int, buf: string): (r: seq<string>)
    ensures |r| >= 1
    ensures |buf| <= |r[0]| && r[0][..|buf|] == buf
    ensures TotalLength(r) + |r| - 1 == |buf| + |s|
    decreases |s|
  {
    if s == [] then [buf]
    else
      var ch := s[0];
      if ch == '(' then SplitTop(s[1..], depth + 1, buf + [ch])
      else if ch == ')' then SplitTop(s[1..], depth - 1, buf + [ch])
      else if ch == ',' && depth == 0 then
        var rest := SplitTop(s[1..], 0, []);
        assert ([buf] + rest)[1..] == rest;
        [buf] + rest
      else SplitTop(s[1..], depth, buf + [ch])
  }

  /** The loop cuts the text at exactly its depth-zero commas: joining the
      pieces with commas gives the text back, every cut is at depth zero,
      and no piece keeps a depth-zero comma. */
  lemma {:induction false} SplitTopPieces(s: string, depth: int, buf: string)
    requires depth == Depth(buf)
    requires NoTopComma(buf)
    ensures TopLevelPieces(buf + s, SplitTop(s, depth, buf))
    decreases |s|
  {
    if s == [] {
      assert buf + s == buf;
    } else {
      var ch := s[0];
      assert buf + s == (buf + [ch]) + s[1..];
      DepthSnoc(buf, ch);
      NoTopCommaSnoc(buf, ch);
      if ch == ',' && depth == 0 {
        var rest := SplitTop(s[1..], 0, []);
        SplitTopPieces(s[1..], 0, []);
        assert [] + s[1..] == s[1..];
        assert ([buf] + rest)[1..] == rest;
      } else if ch == '(' {
        SplitTopPieces(s[1..], depth + 1, buf + [ch]);
      } else if ch == ')' {
        SplitTopPieces(s[1..], depth - 1, buf + [ch]);
      } else {
        SplitTopPieces(s[1..], depth, buf + [ch]);
      }
    }
  }

  function TrimAll(xs: seq<string>): (ys: seq<string>)
    ensures |ys| == |xs|
    ensures forall i :: 0 <= i < |xs| ==> ys[i] == Trim(xs[i])
  {
    seq(|xs|, i requires 0 <= i < |xs| => Trim(xs[i]))
  }

  /** The arguments of a call body: every top-level piece trimmed, except
      that a final piece that trims to nothing is dropped. */
  function SplitArgs(inside: string): (args: seq<string>)
    ensures var pieces := SplitTop(inside, 0, []);
      && |pieces| - 1 <= |args| <= |pieces|
      && forall i :: 0 <= i < |args| ==> args[i] == Trim(pieces[i])
  {
    ArgsOfPieces(SplitTop(inside, 0, []))
  }

  function ArgsOfPieces(pieces: seq<string>): (args: seq<string>)
    requires |pieces| >= 1
    ensures |pieces| - 1 <= |args| <= |pieces|
    ensures forall i :: 0 <= i < |args| ==> args[i] == Trim(pieces[i])
  {
    var last := Trim(pieces[|pieces| - 1]);
    TrimAll(pieces[..|pieces| - 1]) + (if last != [] then [last] else [])
  }

  /** Each piece but the last becomes its trimmed self, blank or not; the
      last becomes an argument exactly when it is not blank. */
  lemma ArgsOfPiecesSpec(pieces: seq<string>)
    requires |pieces| >= 1
    ensures var args := ArgsOfPieces(pieces);
      var last := pieces[|pieces| - 1];
      && (forall i :: 0 <= i < |pieces| - 1 ==> args[i] == Trim(pieces[i]))
      && (AllSpace(last) ==> |args| == |pieces| - 1)
      && (!AllSpace(last) ==> |args| == |pieces| && args[|pieces| - 1] == Trim(last))
  {
    TrimEmptyIff(pieces[|pieces| - 1]);
  }

  /** The arguments are the trimmed depth-zero pieces of the body; a blank
      piece is kept as an empty argument unless it is the last one. */
  lemma SplitArgsPieces(inside: string)
    ensures TopLevelPieces(inside, SplitTop(inside, 0, []))
    ensures var pieces := SplitTop(inside, 0, []);
      var last := pieces[|pieces| - 1];
      var args := SplitArgs(inside);
      && (forall i :: 0 <= i < |pieces| - 1 ==> args[i] == Trim(pieces[i]))
      && (AllSpace(last) ==> |args| == |pieces| - 1)
      && (!AllSpace(last) ==> |args| == |pieces| && args[|pieces| - 1] == Trim(last))
  {
    assert [] + inside == inside;
    SplitTopPieces(inside, 0, []);
    ArgsOfPiecesSpec(SplitTop(inside, 0, []));
  }
}

=== FILE: preprocess.dfy ===
/** The desugarer (`preprocess`): rewrite the leftmost call again and
    again until no call is left, letting the first failure through. */
module Preprocess {
  import opened Chars
  import opened Results
  import opened Tables
  import opened Calls
  import opened Parens
  import opened Replace
  import opened Measure

  /** The `do ... while (cur !== prev)` loop, including its `cur !== prev`
      exit, which `PassChangesText` shows is never what stops it. */
  function Desugar(s: string): (r: Result<string>)
    ensures r.Success? ==> NoCall(r.value)
    ensures r.Success? ==> Letters(r.value) <= Letters(s)
    decreases Letters(s)
  {
    match ReplaceOnce(s)
    case Failure(e) => Failure(e)
    case Success(None) => Success(s)
    case Success(Some(t)) =>
      ReplaceOnceLetters(s, t);
      if t == s then Success(t) else Desugar(t)
  }

  /** A pass that rewrites something always changes the text, so the loop's
      `cur !== prev` test never ends it. */
  lemma PassChangesText(s: string, t: string)
    requires ReplaceOnce(s) == Success(Some(t))
    ensures t != s
  {
    ReplaceOnceLetters(s, t);
  }

  /** The text is returned unchanged exactly when it holds no call. */
  lemma DesugarFixpoint(s: string)
    ensures Desugar(s) == Success(s) <==> NoCall(s)
  {
  }

  /** Desugaring is idempotent. */
  lemma DesugarIdempotent(s: string)
    requires Desugar(s).Success?
    ensures Desugar(Desugar(s).value) == Desugar(s)
  {
    DesugarFixpoint(Desugar(s).value);
  }

  /** A call starts with a name, and names are letters. */
  lemma NoLettersNoCall(s: string)
    requires NoLetters(s)
    ensures NoCall(s)
  {
    forall p: nat, n | n in FnNames ensures !CallAt(s, p, n) {
      if CallAt(s, p, n) {
        NameLetterAt(s, p, n, 0);
        assert false;
      }
    }
  }

  /** Plain arithmetic, with no letters at all, passes through untouched. */
  lemma DesugarNoLetters(s: string)
    requires NoLetters(s)
    ensures Desugar(s) == Success(s)
  {
    NoLettersNoCall(s);
    DesugarFixpoint(s);
  }

  /** A first call whose `(` is never closed stops desugaring with an
      error naming the function. */
  lemma DesugarUnclosed(s: string, p: nat, n: string)
    requires FirstCall(s, p, n)
    requires Unclosed(s, CallParen(s, p, n))
    ensures Desugar(s) == Failure(UnclosedCall(n))
  {
    ReplaceOnceAtFirstCall(s, p, n);
    ReplaceAtUnclosed(s, p, n);
  }

  /** A first call closed at `c` with the wrong number of arguments stops
      desugaring with the arity error of its function. */
  lemma DesugarBadArity(s: string, p: nat, n: string, q: nat, c: nat)
    requires FirstCall(s, p, n)
    requires q == CallParen(s, p, n) && Closes(s, q, c)
    requires !ArityOk(n, |SplitArgs(s[q + 1 .. c])|)
    ensures Desugar(s) == Failure(if n in Variadic then TooFewArgs(n) else NotTwoArgs(n))
  {
    ReplaceOnceAtFirstCall(s, p, n);
    ReplaceAtClosed(s, p, n, c);
    RewriteSpec(s, p, n, q, c);
  }

  /** A first call closed at `c` with an acceptable number of arguments is
      replaced by its arguments joined with the operator, in parentheses,
      and desugaring carries on from there. */
  lemma DesugarStep(s: string, p: nat, n: string, q: nat, c: nat)
    requires FirstCall(s, p, n)
    requires q == CallParen(s, p, n) && Closes(s, q, c)
    requires ArityOk(n, |SplitArgs(s[q + 1 .. c])|)
    ensures n in OpMap
    ensures Desugar(s) == Desugar(s[..p] + "(" + JoinWith(SplitArgs(s[q + 1 .. c]), OpMap[n]) + ")" + s[c + 1 ..])
  {
    OpMapCoversFnNames();
    var t := s[..p] + "(" + JoinWith(SplitArgs(s[q + 1 .. c]), OpMap[n]) + ")" + s[c + 1 ..];
    assert ReplaceOnce(s) == Success(Some(t)) by {
      ReplaceOnceAtFirstCall(s, p, n);
      ReplaceAtClosed(s, p, n, c);
      RewriteSpec(s, p, n, q, c);
    }
    PassChangesText(s, t);
  }

  /** A text without parentheses has depth zero. */
  lemma {:induction false} NoParensDepth(t: string)
    requires forall i :: 0 <= i < |t| ==> t[i] != '(' && t[i] != ')'
    ensures Depth(t) == 0
    decreases |t|
  {
    if t != [] {
      NoParensDepth(t[..|t| - 1]);
    }
  }

  /** `ADD` at the start of `ADD(1,2,3)` is its first call. */
  lemma FirstCallAtStart(s: string, n: string)
    requires n in FnNames && |n| < |s| && s[|n|] == '('
    requires forall i :: 0 <= i < |n| ==> s[i] == n[i]
    ensures FirstCall(s, 0, n) && CallParen(s, 0, n) == |n|
  {
    assert forall i :: 0 <= i < |n| ==> 'A' <= n[i] <= 'Z' by {
      FnNamesAreUpperWords();
    }
    assert NameAt(s, 0, n) by {
      forall i | 0 <= i < |n| ensures UpperAscii(s[0 + i]) == n[i] {
        assert s[0 + i] == n[i];
      }
    }
    assert SkipSpaces(s, 0 + |n|) == |n|;
    assert NoCallBetween(s, 0, 0);
  }

  /** A single non-space character is its own trimmed form. */
  lemma TrimSingle(c: char)
    requires !IsSpace(c)
    ensures Trim([c]) == [c]
  {
  }

  /** The depth-zero pieces of the body `1,2,3`. */
  lemma SplitTopTwoThree()
    ensures SplitTop("2,3", 0, []) == ["2", "3"]
  {
    assert SplitTop("3", 0, []) == ["3"] by {
      assert SplitTop("3", 0, []) == SplitTop([], 0, "3");
    }
    assert SplitTop("2,3", 0, []) == ["2", "3"] by {
      assert SplitTop("2,3", 0, []) == SplitTop(",3", 0, "2");
      assert ",3"[1..] == "3";
    }
  }

  lemma SplitTopOneTwoThree()
    ensures SplitTop("1,2,3", 0, []) == ["1", "2", "3"]
  {
    SplitTopTwoThree();
    assert SplitTop("1,2,3", 0, []) == SplitTop(",2,3", 0, "1");
    assert ",2,3"[1..] == "2,3";
  }

  /** The arguments of the body `1,2,3`. */
  lemma SplitOneTwoThree()
    ensures SplitArgs("1,2,3") == ["1", "2", "3"]
  {
    SplitTopOneTwoThree();
    TrimSingle('1');
    TrimSingle('2');
    TrimSingle('3');
    var args := ArgsOfPieces(["1", "2", "3"]);
    assert |args| == 3;
  }

  /** A `)` with no parenthesis between it and `open` closes `open`. */
  lemma ClosesNoParens(s: string, open: nat, c: nat)
    requires open < c < |s| && s[c] == ')'
    requires forall j :: open < j < c ==> s[j] != '(' && s[j] != ')'
    ensures Closes(s, open, c)
  {
    forall k | open < k <= c ensures DepthAfter(s, open, k) == 0 {
      NoParensDepth(s[open + 1 .. k]);
    }
  }

  /** `ADD(1,2,3)` desugars to `(1+2+3)`. */
  lemma DesugarAddThree(s: string)
    requires s == "ADD(1,2,3)"
    ensures Desugar(s) == Success("(1+2+3)")
  {
    AddThreeCall(s);
    DesugarStep(s, 0, "ADD", 3, 9);
    PlainAddThree();
  }

  /** `ADD(1,2,3)` starts with a call closed at its last character, with
      three arguments, which is rewritten to `(1+2+3)`. */
  lemma AddThreeCall(s: string)
    requires s == "ADD(1,2,3)"
    ensures FirstCall(s, 0, "ADD") && CallParen(s, 0, "ADD") == 3 && Closes(s, 3, 9)
    ensures SplitArgs(s[4 .. 9]) == ["1", "2", "3"] && ArityOk("ADD", 3)
    ensures "ADD" in OpMap && s[..0] + "(" + JoinWith(SplitArgs(s[4 .. 9]), OpMap["ADD"]) + ")" + s[10..] == "(1+2+3)"
  {
    assert FirstCall(s, 0, "ADD") && CallParen(s, 0, "ADD") == 3 by {
      FirstCallAtStart(s, "ADD");
    }
    assert Closes(s, 3, 9) by {
      ClosesNoParens(s, 3, 9);
    }
    assert SplitArgs(s[4 .. 9]) == ["1", "2", "3"] by {
      assert s[4 .. 9] == "1,2,3";
      SplitOneTwoThree();
    }
    SpliceWhole(s, 9, JoinWith(SplitArgs(s[4 .. 9]), OpMap["ADD"]));
    JoinOneTwoThree();
  }

  /** A replacement that spans the whole text is all that is left. */
  lemma SpliceWhole(s: string, c: nat, j: string)
    requires c + 1 == |s|
    ensures s[..0] + "(" + j + ")" + s[c + 1 ..] == "(" + j + ")"
  {
    assert s[..0] == [] && s[c + 1 ..] == [];
  }

  lemma JoinOneTwoThree()
    ensures JoinWith(["1", "2", "3"], '+') == "1+2+3"
    ensures "ADD" in OpMap && OpMap["ADD"] == '+'
    ensures "(" + JoinWith(["1", "2", "3"], '+') + ")" == "(1+2+3)"
  {
    assert JoinWith(["2", "3"], '+') == "2+3" by {
      assert ["2", "3"][1..] == ["3"];
    }
    assert ["1", "2", "3"][1..] == ["2", "3"];
  }

  /** The desugared text has nothing left to rewrite. */
  lemma PlainAddThree()
    ensures Desugar("(1+2+3)") == Success("(1+2+3)")
  {
    var t := "(1+2+3)";
    forall i | 0 <= i < |t| ensures !IsLetter(t[i]) {
      assert t[i] in "()+123";
    }
    DesugarNoLetters(t);
  }

  /** `DIVIDE(10,2,3)` fails: DIVIDE takes exactly two arguments. */
  lemma DesugarDivideThree(s: string)
    requires s == "DIVIDE(10,2,3)"
    ensures Desugar(s) == Failure(NotTwoArgs("DIVIDE"))
  {
    DivideThreeCall(s);
    assert "DIVIDE" !in Variadic;
    DesugarBadArity(s, 0, "DIVIDE", 6, 13);
  }

  /** `DIVIDE(10,2,3)` starts with a call closed at its last character,
      with three arguments. */
  lemma DivideThreeCall(s: string)
    requires s == "DIVIDE(10,2,3)"
    ensures FirstCall(s, 0, "DIVIDE") && CallParen(s, 0, "DIVIDE") == 6 && Closes(s, 6, 13)
    ensures !ArityOk("DIVIDE", |SplitArgs(s[7 .. 13])|)
  {
    assert FirstCall(s, 0, "DIVIDE") && CallParen(s, 0, "DIVIDE") == 6 by {
      FirstCallAtStart(s, "DIVIDE");
    }
    assert Closes(s, 6, 13) by {
      ClosesNoParens(s, 6, 13);
    }
    assert |SplitArgs(s[7 .. 13])| == 3 by {
      assert s[7 .. 13] == "10,2,3";
      SplitTenTwoThree();
    }
  }

  /** The body `10,2,3` has three arguments. */
  lemma SplitTenTwoThree()
    ensures |SplitArgs("10,2,3")| == 3
  {
    SplitTopTenTwoThree();
    TrimSingle('3');
  }

  lemma SplitTopTenTwoThree()
    ensures SplitTop("10,2,3", 0, []) == ["10", "2", "3"]
  {
    SplitTopTwoThree();
    assert "10,2,3"[1..] == "0,2,3" && "0,2,3"[1..] == ",2,3";
    assert [] + ['1'] == "1" && "1" + ['0'] == "10";
    assert SplitTop("10,2,3", 0, []) == SplitTop("0,2,3", 0, "1");
    assert SplitTop("0,2,3", 0, "1") == SplitTop(",2,3", 0, "10");
    assert ",2,3"[1..] == "2,3";
  }

  /** `ADD(1,2` fails: its `(` is never closed. */
  lemma DesugarAddUnclosed(s: string)
    requires s == "ADD(1,2"
    ensures Desugar(s) == Failure(UnclosedCall("ADD"))
  {
    assert FirstCall(s, 0, "ADD") && CallParen(s, 0, "ADD") == 3 by {
      FirstCallAtStart(s, "ADD");
    }
    assert Unclosed(s, 3) by {
      forall k | 3 < k <= |s| ensures DepthAfter(s, 3, k) == 0 {
        NoParensDepth(s[4 .. k]);
      }
    }
    DesugarUnclosed(s, 0, "ADD");
  }
}

=== FILE: replace.dfy ===
/** One rewriting pass of the desugarer (`_replaceOnce`): the leftmost call
    `NAME ( body )` is replaced by `( a1 op a2 op ... )`, where the `ai` are
    the trimmed top-level arguments of the body and `op` is the function's
    operator symbol. */
module Replace {
  import opened Chars
  import opened Results
  import opened Tables
  import opened Calls
  import opened Parens

  /** The `(` that ends the pattern matched at `p` with name `n`. */
  function CallParen(s: string, p: nat, n: string): nat
    requires p + |n| <= |s|
  {
    SkipSpaces(s, p + |n|)
  }

  /** The pattern matches at `p` with name `n` and nowhere before `p`. */
  ghost predicate FirstCall(s: string, p: nat, n: string) {
    n in FnNames && CallAt(s, p, n) && NoCallBetween(s, 0, p)
  }

  /** The number of arguments a function accepts: two or more for the
      variadic ones, exactly two for the others. */
  predicate ArityOk(name: string, count: nat) {
    if name in Variadic then count >= 2 else count == 2
  }

  function ReplaceOnce(s: string): (r: Result<Option<string>>)
    ensures r == Success(None) <==> NoCall(s)
  {
    match FindCall(s, 0)
    case None =>
      NoCallPastEnd(s);
      Success(None)
    case Some(m) => ReplaceAt(s, m.index, UpperStr(m.text))
  }

  /** The pass once the pattern has matched at `p` with the name `name`:
      find the `(` and the `)` that closes it. */
  function ReplaceAt(s: string, p: nat, name: string): (r: Result<Option<string>>)
    requires CallAt(s, p, name)
    ensures r != Success(None)
  {
    IndexOfFindsCallParen(s, p, name);
    var pos := IndexOf(s, '(', p + |name|);
    var stop := ScanClose(s, pos, pos + 1, 1);
    if stop.1 != 0 then Failure(UnclosedCall(name))
    else Rewrite(s, p, name, pos, stop.0)
  }

  /** The pass once the call `name` from `start` has its `(` at `open`
      closed at `close`: split, check the arity, build the replacement. */
  function Rewrite(s: string, start: nat, name: string, open: nat, close: nat): (r: Result<Option<string>>)
    requires start <= open < close < |s|
    ensures r.Failure? ==> r.error in {UnknownFunction(name), TooFewArgs(name), NotTwoArgs(name)}
    ensures r.Success? ==> r.value.Some?
  {
    var inside := s[open + 1 .. close];
    var args := SplitArgs(inside);
    if name !in OpMap then Failure(UnknownFunction(name))
    else
      var op := OpMap[name];
      if name in Variadic then
        if |args| < 2 then Failure(TooFewArgs(name))
        else Success(Some(s[..start] + "(" + JoinWith(args, op) + ")" + s[close + 1 ..]))
      else if |args| != 2 then Failure(NotTwoArgs(name))
      else Success(Some(s[..start] + ("(" + args[0] + [op] + args[1] + ")") + s[close + 1 ..]))
  }

  /** At most one alternative of the pattern matches at a position: no
      name is a case-insensitive prefix of another (their first three
      letters already differ). */
  lemma CallNameUnique(s: string, p: nat, n1: string, n2: string)
    requires n1 in FnNames && n2 in FnNames
    requires NameAt(s, p, n1) && NameAt(s, p, n2)
    ensures n1 == n2
  {
    assert n1[0] == UpperAscii(s[p]) == n2[0];
    assert n1[1] == UpperAscii(s[p + 1]) == n2[1];
    assert n1[2] == UpperAscii(s[p + 2]) == n2[2];
  }

  /** The pass finds the same call that `FirstCall` describes. */
  lemma FindsFirstCall(s: string, p: nat, n: string)
    requires FirstCall(s, p, n)
    ensures FindCall(s, 0).Some?
    ensures FindCall(s, 0).value.index == p && UpperStr(FindCall(s, 0).value.text) == n
  {
    var m := FindCall(s, 0).value;
    CallNameUnique(s, p, n, UpperStr(m.text));
  }

  /** A pass that finds its first call at `p` with name `n` works on that call. */
  lemma ReplaceOnceAtFirstCall(s: string, p: nat, n: string)
    requires FirstCall(s, p, n)
    ensures ReplaceOnce(s) == ReplaceAt(s, p, n)
  {
    FindsFirstCall(s, p, n);
  }

  /** A call whose `(` is never closed fails, naming the function. */
  lemma ReplaceAtUnclosed(s: string, p: nat, n: string)
    requires CallAt(s, p, n)
    requires Unclosed(s, CallParen(s, p, n))
    ensures ReplaceAt(s, p, n) == Failure(UnclosedCall(n))
  {
    IndexOfFindsCallParen(s, p, n);
    ScanCloseUnclosed(s, CallParen(s, p, n));
  }

  /** A call closed at `c` is handed to the replacement step with that `(`
      and that `)`. */
  lemma ReplaceAtClosed(s: string, p: nat, n: string, c: nat)
    requires CallAt(s, p, n)
    requires Closes(s, CallParen(s, p, n), c)
    ensures ReplaceAt(s, p, n) == Rewrite(s, p, n, CallParen(s, p, n), c)
  {
    IndexOfFindsCallParen(s, p, n);
    ScanCloseFindsClose(s, CallParen(s, p, n), c);
  }

  /** The two replacement forms of the source agree: with two arguments,
      `(a op b)` is the join of the arguments with the operator. */
  lemma PairIsJoin(args: seq<string>, op: char, before: string, after: string)
    requires |args| == 2
    ensures before + ("(" + args[0] + [op] + args[1] + ")") + after
         == before + "(" + JoinWith(args, op) + ")" + after
  {
    assert JoinWith(args, op) == args[0] + [op] + args[1];
  }

  /** The replacement step itself: a wrong argument count fails naming the
      function; otherwise the arguments, parenthesised and joined with the
      operator, replace the span from the name to the closing `)`. */
  lemma RewriteSpec(s: string, start: nat, n: string, open: nat, close: nat)
    requires start <= open < close < |s|
    requires n in FnNames
    ensures var args := SplitArgs(s[open + 1 .. close]);
      n in Variadic && |args| < 2 ==> Rewrite(s, start, n, open, close) == Failure(TooFewArgs(n))
    ensures var args := SplitArgs(s[open + 1 .. close]);
      n !in Variadic && |args| != 2 ==> Rewrite(s, start, n, open, close) == Failure(NotTwoArgs(n))
    ensures var args := SplitArgs(s[open + 1 .. close]);
      ArityOk(n, |args|) ==>
        Rewrite(s, start, n, open, close)
          == Success(Some(s[..start] + "(" + JoinWith(args, OpMap[n]) + ")" + s[close + 1 ..]))
  {
    OpMapCoversFnNames();
    var args := SplitArgs(s[open + 1 .. close]);
    if |args| == 2 {
      PairIsJoin(args, OpMap[n], s[..start], s[close + 1 ..]);
    }
  }

  /** The text a replacement step produces for the call from `start` whose
      parenthesis is at `open` and closes at `close`: the arguments joined
      with the operator `op`, in parentheses, between the text before the
      name and the text after the call. */
  function Spliced(s: string, start: nat, open: nat, close: nat, op: char): string
    requires start <= open < close < |s|
  {
    s[..start] + "(" + JoinWith(SplitArgs(s[open + 1 .. close]), op) + ")" + s[close + 1 ..]
  }

  /** A successful replacement step is the splice of `RewriteSpec`. */
  lemma RewriteValue(s: string, start: nat, n: string, open: nat, close: nat)
    requires start <= open < close < |s|
    requires n in FnNames && Rewrite(s, start, n, open, close).Success?
    ensures n in OpMap
    ensures Rewrite(s, start, n, open, close) == Success(Some(Spliced(s, start, open, close, OpMap[n])))
  {
    RewriteSpec(s, start, n, open, close);
  }

  /** A pass that changes the text found a call at `p` with name `n`,
      closed at `c`, and rewrote it. */
  lemma ReplaceOnceShape(s: string, t: string) returns (p: nat, n: string, c: nat)
    requires ReplaceOnce(s) == Success(Some(t))
    ensures FirstCall(s, p, n)
    ensures Closes(s, CallParen(s, p, n), c)
    ensures Rewrite(s, p, n, CallParen(s, p, n), c) == Success(Some(t))
  {
    var m := FindCall(s, 0).value;
    p, n := m.index, UpperStr(m.text);
    assert ReplaceAt(s, p, n) == Success(Some(t));
    c := ReplaceAtShape(s, p, n, t);
  }

  lemma ReplaceAtShape(s: string, p: nat, n: string, t: string) returns (c: nat)
    requires CallAt(s, p, n)
    requires ReplaceAt(s, p, n) == Success(Some(t))
    ensures Closes(s, CallParen(s, p, n), c)
    ensures Rewrite(s, p, n, CallParen(s, p, n), c) == Success(Some(t))
  {
    var q := CallParen(s, p, n);
    assert !Unclosed(s, q) by {
      if Unclosed(s, q) {
        ReplaceAtUnclosed(s, p, n);
      }
    }
    c := ScanClose(s, q, q + 1, 1).0;
    assert Closes(s, q, c) by {
      ScanCloseUnclosed(s, q);
    }
    ReplaceAtClosed(s, p, n, c);
  }

  /** The `Unknown function` branch cannot be taken. */
  lemma ReplaceOnceNeverUnknown(s: string)
    ensures !ReplaceOnce(s).Failure? || !ReplaceOnce(s).error.UnknownFunction?
  {
    match FindCall(s, 0)
    case None =>
    case Some(m) =>
      var p, n := m.index, UpperStr(m.text);
      assert ReplaceOnce(s) == ReplaceAt(s, p, n);
      OpMapCoversFnNames();
      RewriteKnown(s, p, n);
  }

  /** Once the name is in the map, the rewriter fails only on an unclosed
      call or a wrong argument count. */
  lemma RewriteKnown(s: string, p: nat, n: string)
    requires CallAt(s, p, n) && n in OpMap
    ensures !ReplaceAt(s, p, n).Failure? || !ReplaceAt(s, p, n).error.UnknownFunction?
  {
  }

  /** The pass picks the same call in texts that differ only in the case
      of ASCII letters. */
  lemma FirstCallIgnoresCase(s: string, s': string, p: nat, n: string)
    requires UpperStr(s) == UpperStr(s')
    ensures FirstCall(s, p, n) <==> FirstCall(s', p, n)
  {
    CallAtIgnoresCase(s, s', p, n);
    forall q: nat, m | q < p && m in FnNames ensures CallAt(s, q, m) <==> CallAt(s', q, m) {
      CallAtIgnoresCase(s, s', q, m);
    }
  }
}

=== FILE: results.dfy ===
/** The error kinds the pipeline throws, and the failure-compatible result
    type every stage returns (so `:-` propagates the first failure
    unchanged, as an uncaught `throw` does). */
module Results {

  datatype Option<+T> = None | Some(value: T)

  datatype Error =
    /** `Mismatched parentheses in NAME`: a call's `(` has no matching `)`. */
    | UnclosedCall(name: string)
    /** `Unknown function NAME`: a matched name missing from the operator map. */
    | UnknownFunction(name: string)
    /** `NAME requires at least 2 args` (variadic functions). */
    | TooFewArgs(name: string)
    /** `NAME requires exactly 2 args` (fixed-binary functions). */
    | NotTwoArgs(name: string)
    /** `Invalid char "c"` from the tokenizer. */
    | InvalidCharacter(ch: char)
    /** `Mismatched parentheses` from the infix-to-postfix conversion. */
    | MismatchedParentheses
    /** `Invalid evaluation`: the value stack did not end with one value. */
    | InvalidEvaluation
    /** The `TypeError` JavaScript raises when a parenthesis token reaches
        the postfix evaluator and is looked up as an operator. */
    | NotAnOperator

  datatype Result<+T> = Success(value: T) | Failure(error: Error) {
    predicate IsFailure() {
      Failure?
    }

    function PropagateFailure<U>(): Result<U>
      requires Failure?
    {
      Failure(error)
    }

    function Extract(): T
      requires Success?
    {
      value
    }
  }
}

=== FILE: rpn.dfy ===
/** The shunting-yard stage (`toRPN`): numbers go straight to the output,
    an operator first moves to the output the operators on top of the stack
    that bind at least as tightly (more tightly, for the right-associative
    `^`), parentheses group, and the stack is emptied at the end. */
module Rpn {
  import opened Results
  import opened Tables
  import opened Tokens

  /** The output queue and the operator stack, whose top is its last element. */
  datatype Shunt = Shunt(out: seq<Token>, stack: seq<Token>)

  /** Whether an incoming `o1` moves an `o2` on top of the stack to the output. */
  predicate Yields(o1: Op, o2: Op) {
    (!RightAssoc(o1) && Precedence(o1) <= Precedence(o2))
    || (RightAssoc(o1) && Precedence(o1) < Precedence(o2))
  }

  /** The tokens in reverse order: the order in which popping a stack
      segment delivers them. */
  function Reverse(xs: seq<Token>): (r: seq<Token>)
    ensures |r| == |xs|
  {
    if xs == [] then [] else [xs[|xs| - 1]] + Reverse(xs[..|xs| - 1])
  }

  /** Reversal reads the sequence from its last element to its first. */
  lemma {:induction false} ReverseAt(xs: seq<Token>)
    ensures forall i :: 0 <= i < |xs| ==> Reverse(xs)[i] == xs[|xs| - 1 - i]
    decreases |xs|
  {
    if xs != [] {
      ReverseAt(xs[..|xs| - 1]);
    }
  }

  /** The inner loop for an incoming operator `o`: it only pops, so what is
      left is a bottom part of the stack, and the output only grows. */
  function PopHigher(o: Op, st: Shunt): (r: Shunt)
    decreases |st.stack|
  {
    if st.stack == [] then st
    else
      var top := st.stack[|st.stack| - 1];
      if !top.Operator? then st
      else if Yields(o, top.op) then PopHigher(o, Shunt(st.out + [top], st.stack[..|st.stack| - 1]))
      else st
  }

  /** The inner loop for a `)`: pop to the output up to the matching `(`,
      which is discarded; an exhausted stack is an error. */
  function PopToOpen(st: Shunt): (r: Result<Shunt>)
    decreases |st.stack|
  {
    if st.stack == [] then Failure(MismatchedParentheses)
    else
      var top := st.stack[|st.stack| - 1];
      var below := st.stack[..|st.stack| - 1];
      if top == LParen then Success(Shunt(st.out, below))
      else PopToOpen(Shunt(st.out + [top], below))
  }

  function Step(st: Shunt, t: Token): (r: Result<Shunt>)
  {
    match t
    case Number(_) => Success(Shunt(st.out + [t], st.stack))
    case Operator(o) =>
      var st' := PopHigher(o, st);
      Success(Shunt(st'.out, st'.stack + [t]))
    case LParen => Success(Shunt(st.out, st.stack + [t]))
    case RParen => PopToOpen(st)
  }

  /** The main loop over the tokens. */
  function Run(ts: seq<Token>, st: Shunt): (r: Result<Shunt>)
    decreases |ts|
  {
    if ts == [] then Success(st)
    else
      var st' :- Step(st, ts[0]);
      Run(ts[1..], st')
  }

  /** The final loop: pop everything to the output; a parenthesis left on
      the stack is an error. */
  function Drain(st: Shunt): (r: Result<seq<Token>>)
    decreases |st.stack|
  {
    if st.stack == [] then Success(st.out)
    else
      var top := st.stack[|st.stack| - 1];
      if IsParen(top) then Failure(MismatchedParentheses)
      else Drain(Shunt(st.out + [top], st.stack[..|st.stack| - 1]))
  }

  function ToRPN(ts: seq<Token>): (r: Result<seq<Token>>)
  {
    var st :- Run(ts, Shunt([], []));
    Drain(st)
  }

  // Invariants of the stage

  /** Only operators and `(` are ever pushed. */
  predicate StackOk(stack: seq<Token>) {
    forall i :: 0 <= i < |stack| ==> stack[i].Operator? || stack[i].LParen?
  }

  predicate NoParens(ts: seq<Token>) {
    forall i :: 0 <= i < |ts| ==> !IsParen(ts[i])
  }

  predicate Inv(st: Shunt) {
    StackOk(st.stack) && NoParens(st.out)
  }

  /** The `(` waiting on the stack. */
  function Opens(ts: seq<Token>): nat {
    if ts == [] then 0 else (if ts[0] == LParen then 1 else 0) + Opens(ts[1..])
  }

  function ParenDelta(t: Token): int {
    if t == LParen then 1 else if t == RParen then -1 else 0
  }

  /** Scanning from nesting depth `d`, no `)` finds the depth at zero. */
  predicate NeverBelow(ts: seq<Token>, d: int)
    decreases |ts|
  {
    ts == [] || (d + ParenDelta(ts[0]) >= 0 && NeverBelow(ts[1..], d + ParenDelta(ts[0])))
  }

  /** Opening minus closing parentheses. */
  function Net(ts: seq<Token>): int {
    if ts == [] then 0 else ParenDelta(ts[0]) + Net(ts[1..])
  }

  /** Every `)` closes an earlier `(` and every `(` is closed. */
  predicate Balanced(ts: seq<Token>) {
    NeverBelow(ts, 0) && Net(ts) == 0
  }

  lemma {:induction false} OpensAppend(a: seq<Token>, b: seq<Token>)
    ensures Opens(a + b) == Opens(a) + Opens(b)
    decreases |a|
  {
    if a == [] {
      assert a + b == b;
    } else {
      assert (a + b)[1..] == a[1..] + b;
      OpensAppend(a[1..], b);
    }
  }

  /** What one token contributes to the counts. */
  lemma OneToken(t: Token)
    ensures Numerals([t]) == (if t.Number? then [t.text] else [])
    ensures Ops([t]) == (if t.Operator? then multiset{t.op} else multiset{})
    ensures Opens([t]) == (if t == LParen then 1 else 0)
  {
    assert [t][1..] == [];
  }

  lemma StackOkSplit(stack: seq<Token>)
    requires StackOk(stack) && stack != []
    ensures StackOk(stack[..|stack| - 1])
  {
  }

  lemma StackOkPush(stack: seq<Token>, t: Token)
    requires StackOk(stack) && (t.Operator? || t.LParen?)
    ensures StackOk(stack + [t])
  {
  }

  lemma NoParensSnoc(out: seq<Token>, t: Token)
    requires NoParens(out) && !IsParen(t)
    ensures NoParens(out + [t])
  {
  }

  /** Moving the operator on top of the stack to the output keeps the
      invariant, the numbers of the output, the operators held between the
      output and the stack, and the open parentheses. */
  lemma MoveTop(st: Shunt)
    requires Inv(st) && st.stack != [] && st.stack[|st.stack| - 1].Operator?
    ensures var top := st.stack[|st.stack| - 1];
      var st' := Shunt(st.out + [top], st.stack[..|st.stack| - 1]);
      && Inv(st')
      && Numerals(st'.out) == Numerals(st.out)
      && Ops(st'.out) + Ops(st'.stack) == Ops(st.out) + Ops(st.stack)
      && Opens(st'.stack) == Opens(st.stack)
  {
    var top := st.stack[|st.stack| - 1];
    var below := st.stack[..|st.stack| - 1];
    assert st.stack == below + [top];
    StackOkSplit(st.stack);
    NoParensSnoc(st.out, top);
    OneToken(top);
    NumeralsAppend(st.out, [top]);
    OpsAppend(st.out, [top]);
    OpsAppend(below, [top]);
    OpensAppend(below, [top]);
  }

  lemma {:induction false} PopHigherSpec(o: Op, st: Shunt)
    requires Inv(st)
    ensures var r := PopHigher(o, st);
      && Inv(r)
      && Numerals(r.out) == Numerals(st.out)
      && Ops(r.out) + Ops(r.stack) == Ops(st.out) + Ops(st.stack)
      && Opens(r.stack) == Opens(st.stack)
    decreases |st.stack|
  {
    if st.stack != [] {
      var top := st.stack[|st.stack| - 1];
      if top.Operator? && Yields(o, top.op) {
        MoveTop(st);
        PopHigherSpec(o, Shunt(st.out + [top], st.stack[..|st.stack| - 1]));
      }
    }
  }

  /** What the inner loop for `o` moves: a top segment of the stack made
      only of operators that `o` makes yield, delivered to the output top
      first; and it stops at the first token that is not such an operator
      (or at the bottom of the stack). */
  lemma {:induction false} PopHigherMoves(o: Op, st: Shunt) returns (moved: seq<Token>)
    ensures var r := PopHigher(o, st);
      && st.stack == r.stack + moved
      && r.out == st.out + Reverse(moved)
      && AllYield(o, moved)
      && Stops(o, r.stack)
    decreases |st.stack|
  {
    if st.stack != [] && st.stack[|st.stack| - 1].Operator? && Yields(o, st.stack[|st.stack| - 1].op) {
      var top := st.stack[|st.stack| - 1];
      var st' := Shunt(st.out + [top], st.stack[..|st.stack| - 1]);
      var m := PopHigherMoves(o, st');
      moved := m + [top];
      PopHigherMovesStep(o, st, m);
    } else {
      moved := [];
      assert PopHigher(o, st) == st;
      assert st.stack + [] == st.stack;
    }
  }

  /** One more yielding operator on top adds itself to what is moved. */
  lemma PopHigherMovesStep(o: Op, st: Shunt, m: seq<Token>)
    requires st.stack != []
    requires st.stack[|st.stack| - 1].Operator? && Yields(o, st.stack[|st.stack| - 1].op)
    requires var top := st.stack[|st.stack| - 1];
      var r := PopHigher(o, Shunt(st.out + [top], st.stack[..|st.stack| - 1]));
      && st.stack[..|st.stack| - 1] == r.stack + m
      && r.out == st.out + [top] + Reverse(m)
      && AllYield(o, m)
      && Stops(o, r.stack)
    ensures var r := PopHigher(o, st);
      var top := st.stack[|st.stack| - 1];
      && st.stack == r.stack + (m + [top])
      && r.out == st.out + Reverse(m + [top])
      && AllYield(o, m + [top])
      && Stops(o, r.stack)
  {
    var top := st.stack[|st.stack| - 1];
    var below := st.stack[..|st.stack| - 1];
    var r := PopHigher(o, st);
    assert r == PopHigher(o, Shunt(st.out + [top], below));
    assert st.stack == r.stack + (m + [top]) by {
      assert st.stack == below + [top];
    }
    assert r.out == st.out + Reverse(m + [top]) by {
      AppendReverse(st.out, top, m);
    }
    YieldingSnoc(o, m, top);
  }

  lemma AppendReverse(out: seq<Token>, t: Token, xs: seq<Token>)
    ensures out + [t] + Reverse(xs) == out + Reverse(xs + [t])
  {
    ReverseSnoc(xs, t);
  }

  /** The inner loop for `o` stops on this stack: it is empty, or its top
      is a `(`, or an operator that `o` does not make yield. */
  predicate Stops(o: Op, stack: seq<Token>) {
    stack == [] || !stack[|stack| - 1].Operator? || !Yields(o, stack[|stack| - 1].op)
  }

  lemma ReverseSnoc(xs: seq<Token>, t: Token)
    ensures Reverse(xs + [t]) == [t] + Reverse(xs)
  {
    assert (xs + [t])[..|xs|] == xs;
  }

  /** Every token is an operator that an incoming `o` makes yield. */
  predicate AllYield(o: Op, ts: seq<Token>) {
    forall i :: 0 <= i < |ts| ==> ts[i].Operator? && Yields(o, ts[i].op)
  }

  lemma YieldingSnoc(o: Op, ts: seq<Token>, t: Token)
    requires AllYield(o, ts) && t.Operator? && Yields(o, t.op)
    ensures AllYield(o, ts + [t])
  {
  }

  /** What the loop for `)` does when it succeeds: it stops at the topmost
      `(`, drops it, keeps the stack below it, and delivers the tokens above
      it to the output, top first. */
  predicate OpenMoves(st: Shunt, r: Shunt) {
    var k := |r.stack|;
    && k < |st.stack| && r.stack == st.stack[..k] && st.stack[k] == LParen
    && LParen !in st.stack[k + 1..]
    && r.out == st.out + Reverse(st.stack[k + 1..])
  }

  lemma {:induction false} PopToOpenMoves(st: Shunt)
    requires PopToOpen(st).Success?
    ensures OpenMoves(st, PopToOpen(st).value)
    decreases |st.stack|
  {
    var top := st.stack[|st.stack| - 1];
    var below := st.stack[..|st.stack| - 1];
    if top == LParen {
      assert st.stack[|below| + 1..] == [];
      assert st.out + [] == st.out;
    } else {
      var st' := Shunt(st.out + [top], below);
      PopToOpenMoves(st');
      assert PopToOpen(st) == PopToOpen(st');
      OpenMovesStep(st, PopToOpen(st').value);
    }
  }

  /** A token other than `(` on top is delivered before the rest. */
  lemma OpenMovesStep(st: Shunt, r: Shunt)
    requires st.stack != [] && st.stack[|st.stack| - 1] != LParen
    requires OpenMoves(Shunt(st.out + [st.stack[|st.stack| - 1]], st.stack[..|st.stack| - 1]), r)
    ensures OpenMoves(st, r)
  {
    var top := st.stack[|st.stack| - 1];
    var below := st.stack[..|st.stack| - 1];
    var k := |r.stack|;
    assert st.stack[k + 1..] == below[k + 1..] + [top];
    assert r.stack == st.stack[..k] by {
      assert below[..k] == st.stack[..k];
    }
    AppendReverse(st.out, top, below[k + 1..]);
  }

  lemma {:induction false} PopToOpenSpec(st: Shunt)
    requires Inv(st)
    ensures PopToOpen(st).Success? <==> Opens(st.stack) > 0
    ensures PopToOpen(st).Success? ==>
      var r := PopToOpen(st).value;
      && Inv(r)
      && Numerals(r.out) == Numerals(st.out)
      && Ops(r.out) + Ops(r.stack) == Ops(st.out) + Ops(st.stack)
      && Opens(r.stack) == Opens(st.stack) - 1
    decreases |st.stack|
  {
    if st.stack != [] {
      var top := st.stack[|st.stack| - 1];
      var below := st.stack[..|st.stack| - 1];
      assert st.stack == below + [top];
      OpensAppend(below, [top]);
      if top == LParen {
        OpsAppend(below, [top]);
      } else {
        MoveTop(st);
        PopToOpenSpec(Shunt(st.out + [top], below));
      }
    }
  }

  /** The step for each kind of token: numbers and `(` always succeed,
      an operator always succeeds, a `)` needs an open parenthesis. */
  lemma StepNumber(st: Shunt, t: Token)
    requires Inv(st) && t.Number?
    ensures Step(st, t).Success?
    ensures var r := Step(st, t).value;
      && Inv(r)
      && Numerals(r.out) == Numerals(st.out) + Numerals([t])
      && Ops(r.out) + Ops(r.stack) == Ops(st.out) + Ops(st.stack) + Ops([t])
      && Opens(r.stack) == Opens(st.stack) + ParenDelta(t)
  {
    NoParensSnoc(st.out, t);
    OneToken(t);
    NumeralsAppend(st.out, [t]);
    OpsAppend(st.out, [t]);
  }

  lemma StepOperator(st: Shunt, t: Token)
    requires Inv(st) && t.Operator?
    ensures Step(st, t).Success?
    ensures var r := Step(st, t).value;
      && Inv(r)
      && Numerals(r.out) == Numerals(st.out) + Numerals([t])
      && Ops(r.out) + Ops(r.stack) == Ops(st.out) + Ops(st.stack) + Ops([t])
      && Opens(r.stack) == Opens(st.stack) + ParenDelta(t)
  {
    PopHigherSpec(t.op, st);
    var p := PopHigher(t.op, st);
    StackOkPush(p.stack, t);
    OneToken(t);
    OpsAppend(p.stack, [t]);
    OpensAppend(p.stack, [t]);
  }

  lemma StepOpen(st: Shunt)
    requires Inv(st)
    ensures Step(st, LParen).Success?
    ensures var r := Step(st, LParen).value;
      && Inv(r)
      && Numerals(r.out) == Numerals(st.out) + Numerals([LParen])
      && Ops(r.out) + Ops(r.stack) == Ops(st.out) + Ops(st.stack) + Ops([LParen])
      && Opens(r.stack) == Opens(st.stack) + 1
  {
    StackOkPush(st.stack, LParen);
    OneToken(LParen);
    OpsAppend(st.stack, [LParen]);
    OpensAppend(st.stack, [LParen]);
  }

  lemma StepClose(st: Shunt)
    requires Inv(st)
    ensures Step(st, RParen).Success? <==> Opens(st.stack) > 0
    ensures Step(st, RParen).Success? ==>
      var r := Step(st, RParen).value;
      && Inv(r)
      && Numerals(r.out) == Numerals(st.out) + Numerals([RParen])
      && Ops(r.out) + Ops(r.stack) == Ops(st.out) + Ops(st.stack) + Ops([RParen])
      && Opens(r.stack) == Opens(st.stack) - 1
  {
    PopToOpenSpec(st);
    OneToken(RParen);
  }

  lemma StepSpec(st: Shunt, t: Token)
    requires Inv(st)
    ensures Step(st, t).Success? <==> Opens(st.stack) + ParenDelta(t) >= 0
    ensures Step(st, t).Success? ==>
      var r := Step(st, t).value;
      && Inv(r)
      && Numerals(r.out) == Numerals(st.out) + Numerals([t])
      && Ops(r.out) + Ops(r.stack) == Ops(st.out) + Ops(st.stack) + Ops([t])
      && Opens(r.stack) == Opens(st.stack) + ParenDelta(t)
  {
    match t
    case Number(_) => StepNumber(st, t);
    case Operator(_) => StepOperator(st, t);
    case LParen => StepOpen(st);
    case RParen => StepClose(st);
  }

  /** One turn of the main loop. */
  lemma RunCons(ts: seq<Token>, st: Shunt)
    requires ts != []
    ensures Step(st, ts[0]).Failure? ==> Run(ts, st) == Failure(Step(st, ts[0]).error)
    ensures Step(st, ts[0]).Success? ==> Run(ts, st) == Run(ts[1..], Step(st, ts[0]).value)
  {
  }

  /** The main loop fails exactly when some `)` finds no `(` to close... */
  lemma {:induction false} RunSucceeds(ts: seq<Token>, st: Shunt)
    requires Inv(st)
    ensures Run(ts, st).Success? <==> NeverBelow(ts, Opens(st.stack))
    decreases |ts|
  {
    if ts != [] {
      var t := ts[0];
      var d := Opens(st.stack);
      RunCons(ts, st);
      assert Step(st, t).Success? <==> d + ParenDelta(t) >= 0 by {
        StepSpec(st, t);
      }
      if Step(st, t).Success? {
        assert Inv(Step(st, t).value) && Opens(Step(st, t).value.stack) == d + ParenDelta(t) by {
          StepSpec(st, t);
        }
        RunSucceeds(ts[1..], Step(st, t).value);
      }
    }
  }

  /** `r`, reached from `st` over `ts`, has the numbers in order and the
      operators as a multiset, and holds one `(` per unclosed one. */
  ghost predicate Keeps(st: Shunt, r: Shunt, ts: seq<Token>) {
    && Numerals(r.out) == Numerals(st.out) + Numerals(ts)
    && Ops(r.out) + Ops(r.stack) == Ops(st.out) + Ops(st.stack) + Ops(ts)
    && Opens(r.stack) == Opens(st.stack) + Net(ts)
  }

  lemma NetCons(t: Token, rest: seq<Token>)
    ensures Net([t] + rest) == ParenDelta(t) + Net(rest)
    ensures Net([t]) == ParenDelta(t)
  {
    assert [t][1..] == [] && ([t] + rest)[1..] == rest;
  }

  lemma KeepsCompose(st: Shunt, mid: Shunt, r: Shunt, t: Token, rest: seq<Token>)
    requires Keeps(st, mid, [t]) && Keeps(mid, r, rest)
    ensures Keeps(st, r, [t] + rest)
  {
    var ts := [t] + rest;
    assert Numerals(r.out) == Numerals(st.out) + Numerals(ts) by {
      NumeralsAppend([t], rest);
    }
    assert Ops(r.out) + Ops(r.stack) == Ops(st.out) + Ops(st.stack) + Ops(ts) by {
      OpsAppend([t], rest);
    }
    assert Opens(r.stack) == Opens(st.stack) + Net(ts) by {
      NetCons(t, rest);
    }
  }

  /** ...and on success keeps the invariant... */
  lemma {:induction false} RunInv(ts: seq<Token>, st: Shunt)
    requires Inv(st) && Run(ts, st).Success?
    ensures Inv(Run(ts, st).value)
    decreases |ts|
  {
    if ts != [] {
      RunCons(ts, st);
      StepSpec(st, ts[0]);
      RunInv(ts[1..], Step(st, ts[0]).value);
    }
  }

  /** ...the numbers in order and the operators as a multiset, and leaves
      one `(` per unclosed one. */
  lemma {:induction false} RunKeeps(ts: seq<Token>, st: Shunt)
    requires Inv(st) && Run(ts, st).Success?
    ensures Keeps(st, Run(ts, st).value, ts)
    decreases |ts|
  {
    if ts == [] {
      assert Numerals(ts) == [] && Ops(ts) == multiset{};
    } else {
      var t, rest := ts[0], ts[1..];
      RunCons(ts, st);
      var mid := Step(st, t).value;
      assert Inv(mid) && Keeps(st, mid, [t]) by {
        StepSpec(st, t);
        NetCons(t, []);
      }
      RunKeeps(rest, mid);
      assert ts == [t] + rest;
      KeepsCompose(st, mid, Run(rest, mid).value, t, rest);
    }
  }

  /** Emptying the stack fails exactly when a `(` is left on it; otherwise
      the output receives every operator of the stack. */
  lemma {:induction false} DrainSpec(st: Shunt)
    requires Inv(st)
    ensures Drain(st).Success? <==> Opens(st.stack) == 0
    ensures Drain(st).Success? ==>
      && NoParens(Drain(st).value)
      && Numerals(Drain(st).value) == Numerals(st.out)
      && Ops(Drain(st).value) == Ops(st.out) + Ops(st.stack)
    decreases |st.stack|
  {
    if st.stack != [] {
      var top := st.stack[|st.stack| - 1];
      var below := st.stack[..|st.stack| - 1];
      assert st.stack == below + [top];
      OpensAppend(below, [top]);
      if !IsParen(top) {
        MoveTop(st);
        DrainSpec(Shunt(st.out + [top], below));
      }
    }
  }

  /** The final loop delivers the whole stack to the output, top first. */
  lemma {:induction false} DrainMoves(st: Shunt)
    requires Drain(st).Success?
    ensures Drain(st).value == st.out + Reverse(st.stack)
    decreases |st.stack|
  {
    if st.stack == [] {
      assert st.out + [] == st.out;
    } else {
      var top := st.stack[|st.stack| - 1];
      var below := st.stack[..|st.stack| - 1];
      DrainMoves(Shunt(st.out + [top], below));
      assert st.stack == below + [top];
      AppendReverse(st.out, top, below);
    }
  }

  /** The only error of the main loop is the mismatched-parentheses one,
      raised by some `)` of the input. */
  lemma {:induction false} RunFailure(ts: seq<Token>, st: Shunt)
    ensures Run(ts, st).Failure? ==> Run(ts, st).error == MismatchedParentheses && RParen in ts
    decreases |ts|
  {
    if ts != [] {
      RunCons(ts, st);
      match Step(st, ts[0])
      case Success(st') =>
        RunFailure(ts[1..], st');
        assert RParen in ts[1..] ==> RParen in ts;
      case Failure(_) =>
        PopToOpenFailure(st);
        assert ts[0] == RParen;
    }
  }

  lemma {:induction false} PopToOpenFailure(st: Shunt)
    ensures PopToOpen(st).Failure? ==> PopToOpen(st).error == MismatchedParentheses
    decreases |st.stack|
  {
    if st.stack != [] && st.stack[|st.stack| - 1] != LParen {
      PopToOpenFailure(Shunt(st.out + [st.stack[|st.stack| - 1]], st.stack[..|st.stack| - 1]));
    }
  }

  /** The final loop fails only on a parenthesis left on the stack. */
  lemma {:induction false} DrainFailure(st: Shunt)
    ensures Drain(st).Failure? ==>
      Drain(st).error == MismatchedParentheses && exists i :: 0 <= i < |st.stack| && IsParen(st.stack[i])
    decreases |st.stack|
  {
    if st.stack != [] {
      var top := st.stack[|st.stack| - 1];
      var below := st.stack[..|st.stack| - 1];
      if !IsParen(top) {
        DrainFailure(Shunt(st.out + [top], below));
        if Drain(st).Failure? {
          var i :| 0 <= i < |below| && IsParen(below[i]);
          assert st.stack[i] == below[i];
        }
      }
    }
  }

  /** The stage fails only with the mismatched-parentheses error. */
  lemma ToRPNFailure(ts: seq<Token>)
    ensures ToRPN(ts).Failure? ==> ToRPN(ts).error == MismatchedParentheses
  {
    RunFailure(ts, Shunt([], []));
    if Run(ts, Shunt([], [])).Success? {
      DrainFailure(Run(ts, Shunt([], [])).value);
    }
  }

  /** The stage succeeds exactly on balanced parentheses. */
  lemma ToRPNSucceeds(ts: seq<Token>)
    ensures ToRPN(ts).Success? <==> Balanced(ts)
  {
    RunSucceeds(ts, Shunt([], []));
    if Run(ts, Shunt([], [])).Success? {
      RunInv(ts, Shunt([], []));
      RunKeeps(ts, Shunt([], []));
      DrainSpec(Run(ts, Shunt([], [])).value);
    }
  }

  /** The output holds no parenthesis, the numbers of the input in their
      order, and the operators of the input, each as often. */
  lemma ToRPNKeeps(ts: seq<Token>)
    requires ToRPN(ts).Success?
    ensures NoParens(ToRPN(ts).value)
    ensures Numerals(ToRPN(ts).value) == Numerals(ts)
    ensures Ops(ToRPN(ts).value) == Ops(ts)
  {
    RunInv(ts, Shunt([], []));
    RunKeeps(ts, Shunt([], []));
    DrainSpec(Run(ts, Shunt([], [])).value);
  }
}

=== FILE: tables.dfy ===
/** The static configuration built by the constructor: the operator table
    (symbol, precedence, associativity), the recognised function names, the
    function-to-operator map and the set of variadic functions. */
module Tables {
  import opened Chars

  /** The six binary operators. Their arithmetic (`exec`) is left to the
      caller of the evaluator; only the table entries are modelled here. */
  datatype Op = Add | Sub | Mul | Div | Mod | Pow

  function Symbol(o: Op): char {
    match o
    case Add => '+'
    case Sub => '-'
    case Mul => '*'
    case Div => '/'
    case Mod => '%'
    case Pow => '^'
  }

  /** A key of the operator table. */
  predicate IsOpChar(c: char) {
    c == '+' || c == '-' || c == '*' || c == '/' || c == '%' || c == '^'
  }

  /** Looking a symbol up in the operator table; the inverse of `Symbol`. */
  function OpOfChar(c: char): (o: Op)
    requires IsOpChar(c)
    ensures Symbol(o) == c
  {
    if c == '+' then Add
    else if c == '-' then Sub
    else if c == '*' then Mul
    else if c == '/' then Div
    else if c == '%' then Mod
    else Pow
  }

  /** Every operator's symbol is a key of the table that leads back to it. */
  lemma SymbolRoundTrip(o: Op)
    ensures IsOpChar(Symbol(o)) && OpOfChar(Symbol(o)) == o
  {
  }

  function Precedence(o: Op): nat {
    match o
    case Add => 1
    case Sub => 1
    case Mul => 2
    case Div => 2
    case Mod => 2
    case Pow => 3
  }

  /** Associativity `'R'`; every other operator is `'L'`. */
  predicate RightAssoc(o: Op) {
    o == Pow
  }

  /** The names the call pattern alternates over, in the order of the pattern. */
  const FnNames: seq<string> := ["ADD", "SUBTRACT", "MULTIPLY", "DIVIDE", "MOD", "POWER"]

  /** The map from function name to operator symbol inside the rewriter. */
  const OpMap: map<string, char> :=
    map["ADD" := '+', "SUBTRACT" := '-', "MULTIPLY" := '*',
        "DIVIDE" := '/', "MOD" := '%', "POWER" := '^']

  /** Functions that accept two or more arguments. */
  const Variadic: set<string> := {"ADD", "MULTIPLY", "SUBTRACT"}

  /** Every recognised name is non-empty and made of upper-case ASCII letters. */
  lemma FnNamesAreUpperWords()
    ensures forall n :: n in FnNames ==> |n| > 0 && forall i :: 0 <= i < |n| ==> 'A' <= n[i] <= 'Z'
  {
  }

  /** Every name has at least three letters. */
  lemma FnNamesLong(n: string)
    requires n in FnNames
    ensures |n| >= 3
  {
  }

  /** The map covers every recognised name with an operator symbol, and the
      variadic set is a subset of the names: the `Unknown function` branch
      of the rewriter cannot be taken. */
  lemma OpMapCoversFnNames()
    ensures forall n :: n in FnNames ==> n in OpMap && IsOpChar(OpMap[n])
    ensures forall n :: n in Variadic ==> n in FnNames
  {
  }
}

=== FILE: tokenizer.dfy ===
/** The tokenizer (`tokenize`): whitespace is skipped, a maximal run of
    digits and dots is one number, an operator symbol or a parenthesis is
    a token of its own, and any other character is an error. */
module Tokenizer {
  import opened Chars
  import opened Results
  import opened Tables
  import opened Tokens

  /** A character the tokenizer does not reject. */
  predicate Accepted(c: char) {
    IsSpace(c) || IsNumChar(c) || IsOpChar(c) || c == '(' || c == ')'
  }

  predicate AllAccepted(s: string) {
    forall i :: 0 <= i < |s| ==> Accepted(s[i])
  }

  /** Length of the run of `[0-9.]` at the start of `s` (the inner loop). */
  function NumRun(s: string): (n: nat)
    ensures n <= |s|
    ensures forall i :: 0 <= i < n ==> IsNumChar(s[i])
    ensures n < |s| ==> !IsNumChar(s[n])
  {
    if s != [] && IsNumChar(s[0]) then 1 + NumRun(s[1..]) else 0
  }

  /** The scanning loop, over the remaining text. */
  function Tokenize(s: string): (r: Result<seq<Token>>)
    ensures r.Failure? ==> r.error.InvalidCharacter? && r.error.ch in s && !Accepted(r.error.ch)
    ensures r.Success? ==> |r.value| <= |s|
    decreases |s|
  {
    if s == [] then Success([])
    else
      var ch := s[0];
      if IsSpace(ch) then Tokenize(s[1..])
      else if IsNumChar(ch) then
        var n := NumRun(s);
        var rest :- Tokenize(s[n..]);
        Success([Number(s[..n])] + rest)
      else if IsOpChar(ch) then
        var rest :- Tokenize(s[1..]);
        Success([Operator(OpOfChar(ch))] + rest)
      else if ch == '(' then
        var rest :- Tokenize(s[1..]);
        Success([LParen] + rest)
      else if ch == ')' then
        var rest :- Tokenize(s[1..]);
        Success([RParen] + rest)
      else Failure(InvalidCharacter(ch))
  }

  /** The text without its whitespace. */
  function Strip(s: string): string {
    if s == [] then []
    else (if IsSpace(s[0]) then [] else [s[0]]) + Strip(s[1..])
  }

  /** The tokens' characters laid end to end. */
  function Squash(ts: seq<Token>): string {
    if ts == [] then [] else Text(ts[0]) + Squash(ts[1..])
  }

  /** The maximal runs of `[0-9.]` of `s`, in order, read one character at
      a time; `cur` is the run in progress before `s`. */
  function RunsFrom(s: string, cur: string): seq<string>
    decreases |s|
  {
    if s == [] then (if cur == [] then [] else [cur])
    else if IsNumChar(s[0]) then RunsFrom(s[1..], cur + [s[0]])
    else (if cur == [] then [] else [cur]) + RunsFrom(s[1..], [])
  }

  function MaxRuns(s: string): seq<string> {
    RunsFrom(s, [])
  }

  /** Tokens written out with one space between neighbours. */
  function Render(ts: seq<Token>): string {
    if ts == [] then []
    else if |ts| == 1 then Text(ts[0])
    else Text(ts[0]) + " " + Render(ts[1..])
  }

  /** Tokenizing fails exactly when some character is rejected... */
  lemma {:induction false} TokenizeFails(s: string)
    ensures Tokenize(s).Failure? <==> !AllAccepted(s)
    decreases |s|
  {
    if s != [] {
      var ch := s[0];
      var n := if IsNumChar(ch) && !IsSpace(ch) then NumRun(s) else 1;
      TokenizeFails(s[n..]);
      if AllAccepted(s) {
        assert AllAccepted(s[n..]);
      } else if Accepted(ch) {
        var k :| 0 <= k < |s| && !Accepted(s[k]);
        assert k >= n;
        assert !Accepted(s[n..][k - n]);
      }
    }
  }

  /** ...and the error names the first rejected character. */
  lemma {:induction false} TokenizeFirstRejected(s: string, k: nat)
    requires k < |s| && !Accepted(s[k])
    requires forall j :: 0 <= j < k ==> Accepted(s[j])
    ensures Tokenize(s) == Failure(InvalidCharacter(s[k]))
    decreases |s|
  {
    if k > 0 {
      var ch := s[0];
      var n := if IsNumChar(ch) && !IsSpace(ch) then NumRun(s) else 1;
      assert n <= k;
      TokenizeFirstRejected(s[n..], k - n);
    }
  }

  /** Every number token is a non-empty run of digits and dots. */
  lemma {:induction false} TokenizeWellFormed(s: string)
    requires Tokenize(s).Success?
    ensures WellFormed(Tokenize(s).value)
    decreases |s|
  {
    if s != [] {
      var ch := s[0];
      var n := if IsNumChar(ch) && !IsSpace(ch) then NumRun(s) else 1;
      TokenizeWellFormed(s[n..]);
    }
  }

  lemma {:induction false} StripAppend(a: string, b: string)
    ensures Strip(a + b) == Strip(a) + Strip(b)
    decreases |a|
  {
    if a == [] {
      assert a + b == b;
    } else {
      assert (a + b)[1..] == a[1..] + b;
      StripAppend(a[1..], b);
    }
  }

  lemma {:induction false} StripNoSpace(a: string)
    requires forall i :: 0 <= i < |a| ==> !IsSpace(a[i])
    ensures Strip(a) == a
    decreases |a|
  {
    if a != [] {
      StripNoSpace(a[1..]);
    }
  }

  /** No character is lost or invented: the tokens spell the input without
      its whitespace. */
  lemma {:induction false} TokenizeSquash(s: string)
    requires Tokenize(s).Success?
    ensures Squash(Tokenize(s).value) == Strip(s)
    decreases |s|
  {
    if s != [] {
      var ch := s[0];
      var n := if IsNumChar(ch) && !IsSpace(ch) then NumRun(s) else 1;
      TokenizeSquash(s[n..]);
      assert s == s[..n] + s[n..];
      StripAppend(s[..n], s[n..]);
      if !IsSpace(ch) {
        StripNoSpace(s[..n]);
      }
    }
  }

  /** Inside a run, the characters join the run in progress. */
  lemma {:induction false} RunsFromInside(s: string, cur: string, n: nat)
    requires n <= |s|
    requires forall i :: 0 <= i < n ==> IsNumChar(s[i])
    ensures RunsFrom(s, cur) == RunsFrom(s[n..], cur + s[..n])
    decreases n
  {
    if n > 0 {
      RunsFromInside(s[1..], cur + [s[0]], n - 1);
      assert s[1..][n - 1..] == s[n..];
      assert cur + [s[0]] + s[1..][..n - 1] == cur + s[..n];
    } else {
      assert cur + s[..0] == cur;
    }
  }

  /** A run ends at the end of the text or at a character outside `[0-9.]`. */
  lemma RunsFromEnd(s: string, cur: string)
    requires cur != []
    requires s == [] || !IsNumChar(s[0])
    ensures RunsFrom(s, cur) == [cur] + RunsFrom(s, [])
  {
  }

  /** Numbers are maximal: the number tokens carry exactly the maximal runs
      of digits and dots, in order, one token per run. */
  lemma {:induction false} TokenizeRuns(s: string)
    requires Tokenize(s).Success?
    ensures Numerals(Tokenize(s).value) == MaxRuns(s)
    decreases |s|
  {
    if s != [] {
      var ch := s[0];
      var n := if IsNumChar(ch) && !IsSpace(ch) then NumRun(s) else 1;
      TokenizeRuns(s[n..]);
      var rest := Tokenize(s[n..]).value;
      if IsSpace(ch) {
      } else if IsNumChar(ch) {
        RunsFromInside(s, [], n);
        assert [] + s[..n] == s[..n];
        RunsFromEnd(s[n..], s[..n]);
        NumeralsAppend([Number(s[..n])], rest);
      } else {
        var t := Tokenize(s).value[0];
        assert Tokenize(s).value == [t] + rest;
        NumeralsAppend([t], rest);
      }
    }
  }

  /** The runs of `12 3` are `12` and `3`. */
  lemma MaxRunsExample()
    ensures MaxRuns("12 3") == ["12", "3"]
  {
    var s := "12 3";
    assert s[1..] == "2 3" && s[1..][1..] == " 3" && s[1..][1..][1..] == "3";
    assert [] + ['1'] == "1" && "1" + ['2'] == "12" && [] + ['3'] == "3";
  }

  /** `12 3` holds two numbers, `12` and `3`. */
  lemma SpaceSplitsNumbers()
    ensures Tokenize("12 3") == Success([Number("12"), Number("3")])
  {
    var ts := [Number("12"), Number("3")];
    assert Render(ts) == "12 3" by {
      assert ts[1..] == [Number("3")];
    }
    TokenizeRender(ts);
  }

  /** Rendering and tokenizing are inverse: the tokenizer reads back every
      well-formed token sequence written with spaces between tokens. */
  lemma {:induction false} TokenizeRender(ts: seq<Token>)
    requires WellFormed(ts)
    ensures Tokenize(Render(ts)) == Success(ts)
    decreases |ts|
  {
    if ts != [] {
      var t := ts[0];
      var rest := if |ts| == 1 then [] else " " + Render(ts[1..]);
      assert Tokenize(rest) == Success(ts[1..]) by {
        if |ts| > 1 {
          assert WellFormed(ts[1..]) by {
            forall i | 0 <= i < |ts[1..]| ensures ts[1..][i].Number? ==> IsNumeral(ts[1..][i].text) {
              assert ts[1..][i] == ts[i + 1];
            }
          }
          TokenizeRender(ts[1..]);
          assert rest[0] == ' ' && rest[1..] == Render(ts[1..]);
        }
      }
      assert Render(ts) == Text(t) + rest;
      assert t.Number? ==> IsNumeral(t.text);
      TokenizeCons(t, rest, ts[1..]);
      assert [t] + ts[1..] == ts;
    }
  }

  /** One token's text followed by a text that the tokenizer reads as
      `tail`, and that does not go on with a number's digits. */
  lemma TokenizeCons(t: Token, rest: string, tail: seq<Token>)
    requires t.Number? ==> IsNumeral(t.text) && (rest == [] || !IsNumChar(rest[0]))
    requires Tokenize(rest) == Success(tail)
    ensures Tokenize(Text(t) + rest) == Success([t] + tail)
  {
    if t.Number? {
      TokenizeNumeral(t.text, rest, tail);
    } else {
      var s := Text(t) + rest;
      assert s[0] == Text(t)[0] && s[1..] == rest;
      if t.Operator? {
        SymbolRoundTrip(t.op);
      }
      TokenizeFirst(s, 1, t);
    }
  }

  /** A numeral followed by nothing, or by a character outside `[0-9.]`,
      is read as one number. */
  lemma TokenizeNumeral(text: string, rest: string, tail: seq<Token>)
    requires IsNumeral(text)
    requires rest == [] || !IsNumChar(rest[0])
    requires Tokenize(rest) == Success(tail)
    ensures Tokenize(text + rest) == Success([Number(text)] + tail)
  {
    var s := text + rest;
    assert s[..|text|] == text;
    assert s[|text|..] == rest;
    NumRunOf(text, rest);
  }

  lemma {:induction false} NumRunOf(text: string, rest: string)
    requires IsNumeral(text)
    requires rest == [] || !IsNumChar(rest[0])
    ensures NumRun(text + rest) == |text|
    decreases |text|
  {
    if |text| > 1 {
      assert (text + rest)[1..] == text[1..] + rest;
      NumRunOf(text[1..], rest);
    } else {
      assert (text + rest)[1..] == rest;
    }
  }

  /** No two numbers side by side: only a space could tell them apart. */
  predicate Separated(ts: seq<Token>) {
    forall i :: 0 <= i < |ts| - 1 ==> !(ts[i].Number? && ts[i + 1].Number?)
  }

  /** Tokens that read back from their characters laid end to end. */
  predicate Plain(ts: seq<Token>) {
    WellFormed(ts) && Separated(ts)
  }

  lemma PlainTail(ts: seq<Token>)
    requires ts != [] && Plain(ts)
    ensures Plain(ts[1..])
  {
    assert forall i :: 0 <= i < |ts[1..]| ==> ts[1..][i] == ts[i + 1];
  }

  /** Two plain sequences joined make a plain one unless numbers meet at
      the seam. */
  lemma PlainAppend(a: seq<Token>, b: seq<Token>)
    requires Plain(a) && Plain(b)
    requires a != [] && b != [] ==> !(a[|a| - 1].Number? && b[0].Number?)
    ensures Plain(a + b)
  {
    var ab := a + b;
    forall i | 0 <= i < |ab| - 1
      ensures !(ab[i].Number? && ab[i + 1].Number?)
    {
      if i + 1 < |a| {
        assert ab[i] == a[i] && ab[i + 1] == a[i + 1];
      } else if i >= |a| {
        assert ab[i] == b[i - |a|] && ab[i + 1] == b[i - |a| + 1];
      } else {
        assert ab[i] == a[|a| - 1] && ab[i + 1] == b[0];
      }
    }
  }

  lemma {:induction false} SquashAppend(a: seq<Token>, b: seq<Token>)
    ensures Squash(a + b) == Squash(a) + Squash(b)
    decreases |a|
  {
    if a == [] {
      assert a + b == b;
    } else {
      assert (a + b)[0] == a[0] && (a + b)[1..] == a[1..] + b;
      SquashAppend(a[1..], b);
    }
  }

  /** The characters of a well-formed token sequence start with those of
      its first token, which is never empty. */
  lemma SquashHead(ts: seq<Token>)
    requires ts != [] && WellFormed(ts)
    ensures Squash(ts) != [] && Squash(ts)[0] == Text(ts[0])[0]
    ensures ts[0].Operator? ==> Squash(ts)[0] == Symbol(ts[0].op)
  {
    assert ts[0].Number? ==> IsNumeral(ts[0].text);
  }

  /** Tokenizing reads back every plain token sequence written out with no
      space at all, as the rewritten calls are. */
  lemma {:induction false} TokenizeSquashed(ts: seq<Token>)
    requires Plain(ts)
    ensures Tokenize(Squash(ts)) == Success(ts)
    decreases |ts|
  {
    if ts != [] {
      var t := ts[0];
      var rest := Squash(ts[1..]);
      PlainTail(ts);
      TokenizeSquashed(ts[1..]);
      assert t.Number? ==> IsNumeral(t.text);
      assert t.Number? ==> rest == [] || !IsNumChar(rest[0]) by {
        if t.Number? && ts[1..] != [] {
          SquashHead(ts[1..]);
          assert !ts[1].Number?;
          assert ts[1..][0] == ts[1];
          if ts[1].Operator? {
            SymbolRoundTrip(ts[1].op);
          }
        }
      }
      TokenizeCons(t, rest, ts[1..]);
      assert [t] + ts[1..] == ts;
    }
  }

  /** A run of `[0-9.]` that ends inside `a`, or at the end of `a` when `b`
      does not go on with one, is the same run in `a + b`. */
  lemma {:induction false} NumRunBefore(a: string, b: string)
    requires NumRun(a) < |a| || b == [] || !IsNumChar(b[0])
    ensures NumRun(a + b) == NumRun(a)
    decreases |a|
  {
    if a == [] {
      assert a + b == b;
    } else {
      assert (a + b)[0] == a[0];
      if IsNumChar(a[0]) {
        assert (a + b)[1..] == a[1..] + b;
        NumRunBefore(a[1..], b);
      }
    }
  }

  /** A `)` ends whatever token comes before it: tokenizing `a` followed
      by `)` and more text is tokenizing `a` and the text after the `)` on
      their own, with `)` between them. */
  lemma {:induction false} TokenizeBeforeClose(a: string, r: string)
    requires r != [] && r[0] == ')'
    requires Tokenize(a).Success? && Tokenize(r[1..]).Success?
    ensures Tokenize(a + r) == Success(Tokenize(a).value + [RParen] + Tokenize(r[1..]).value)
    decreases |a|
  {
    if a == [] {
      assert a + r == r;
      TokenizeFirst(r, 1, RParen);
      assert [] + [RParen] + Tokenize(r[1..]).value == [RParen] + Tokenize(r[1..]).value;
    } else {
      var n := if IsNumChar(a[0]) && !IsSpace(a[0]) then NumRun(a) else 1;
      assert Tokenize(a[n..]).Success?;
      TokenizeBeforeClose(a[n..], r);
      BeforeCloseStep(a, r, n);
    }
  }

  /** One token (or one skipped space) of `a`, before a `)`. */
  lemma BeforeCloseStep(a: string, r: string, n: nat)
    requires a != [] && r != [] && r[0] == ')'
    requires Tokenize(a).Success? && Tokenize(r[1..]).Success?
    requires n == (if IsNumChar(a[0]) && !IsSpace(a[0]) then NumRun(a) else 1)
    requires Tokenize(a[n..]).Success?
    requires Tokenize(a[n..] + r) == Success(Tokenize(a[n..]).value + [RParen] + Tokenize(r[1..]).value)
    ensures Tokenize(a + r) == Success(Tokenize(a).value + [RParen] + Tokenize(r[1..]).value)
  {
    var ch := a[0];
    var b := Tokenize(a[n..]).value;
    var rs := Tokenize(r[1..]).value;
    if IsSpace(ch) {
      BeforeCloseSpace(a, r);
    } else {
      var t := if IsNumChar(ch) then Number(a[..n]) else if IsOpChar(ch) then Operator(OpOfChar(ch))
               else if ch == '(' then LParen else RParen;
      BeforeCloseToken(a, r, n, t);
      ConsCloseAssoc(t, b, rs);
    }
  }

  lemma BeforeCloseSpace(a: string, r: string)
    requires a != [] && IsSpace(a[0])
    ensures Tokenize(a) == Tokenize(a[1..])
    ensures Tokenize(a + r) == Tokenize(a[1..] + r)
  {
    assert (a + r)[0] == a[0] && (a + r)[1..] == a[1..] + r;
  }

  lemma BeforeCloseToken(a: string, r: string, n: nat, t: Token)
    requires a != [] && !IsSpace(a[0]) && Accepted(a[0]) && r != [] && r[0] == ')'
    requires n == (if IsNumChar(a[0]) then NumRun(a) else 1)
    requires t == (if IsNumChar(a[0]) then Number(a[..n]) else if IsOpChar(a[0]) then Operator(OpOfChar(a[0]))
                   else if a[0] == '(' then LParen else RParen)
    requires Tokenize(a[n..]).Success? && Tokenize(a[n..] + r).Success?
    ensures Tokenize(a) == Success([t] + Tokenize(a[n..]).value)
    ensures Tokenize(a + r) == Success([t] + Tokenize(a[n..] + r).value)
  {
    TokenizeFirst(a, n, t);
    var ar := a + r;
    assert ar[0] == a[0];
    if IsNumChar(a[0]) {
      NumRunBefore(a, r);
    }
    SplitAppend(a, r, n);
    TokenizeFirst(ar, n, t);
  }

  lemma SplitAppend(a: string, r: string, n: nat)
    requires n <= |a|
    ensures (a + r)[..n] == a[..n] && (a + r)[n..] == a[n..] + r
  {
  }

  lemma ConsCloseAssoc(t: Token, b: seq<Token>, rs: seq<Token>)
    ensures [t] + (b + [RParen] + rs) == [t] + b + [RParen] + rs
  {
  }

  /** The first token of a text that does not start with whitespace,
      `n` characters long, then the tokens of the rest. */
  lemma TokenizeFirst(x: string, n: nat, t: Token)
    requires x != [] && !IsSpace(x[0]) && Accepted(x[0])
    requires n == (if IsNumChar(x[0]) then NumRun(x) else 1)
    requires t == (if IsNumChar(x[0]) then Number(x[..n]) else if IsOpChar(x[0]) then Operator(OpOfChar(x[0]))
                   else if x[0] == '(' then LParen else RParen)
    requires Tokenize(x[n..]).Success?
    ensures Tokenize(x) == Success([t] + Tokenize(x[n..]).value)
  {
  }

  /** Tokenizing `( a ) rest` reads `a` as a parenthesised group. */
  lemma TokenizeWrapped(a: string, rest: string)
    requires Tokenize(a).Success? && Tokenize(rest).Success?
    ensures Tokenize("(" + a + ")" + rest)
         == Success([LParen] + Tokenize(a).value + [RParen] + Tokenize(rest).value)
  {
    var r := ")" + rest;
    assert r[0] == ')' && r[1..] == rest;
    TokenizeBeforeClose(a, r);
    TokenizeOpen(a + r, "(" + a + ")" + rest);
    ConsCloseAssoc(LParen, Tokenize(a).value, Tokenize(rest).value);
  }

  /** A `(` in front of a text that the tokenizer reads. */
  lemma TokenizeOpen(y: string, x: string)
    requires x == "(" + y && Tokenize(y).Success?
    ensures Tokenize(x) == Success([LParen] + Tokenize(y).value)
  {
    assert x[0] == '(' && x[1..] == y;
    TokenizeFirst(x, 1, LParen);
  }

  /** The tokenizer accepts no letter, so a text it reads holds none. */
  lemma TokenizedNoLetters(s: string)
    requires Tokenize(s).Success?
    ensures NoLetters(s)
  {
    TokenizeFails(s);
  }
}

=== FILE: tokens.dfy ===
/** The tokens handed from the tokenizer to the shunting-yard stage. A
    number token keeps its lexeme (a run of digits and dots); turning it
    into a value (`parseFloat`) is left to the evaluator's caller. */
module Tokens {
  import opened Chars
  import opened Tables

  datatype Token = Number(text: string) | Operator(op: Op) | LParen | RParen

  /** The characters a token was read from. */
  function Text(t: Token): string {
    match t
    case Number(text) => text
    case Operator(o) => [Symbol(o)]
    case LParen => "("
    case RParen => ")"
  }

  /** A non-empty run of `[0-9.]`, the only lexemes the tokenizer produces. */
  predicate IsNumeral(text: string) {
    |text| > 0 && forall i :: 0 <= i < |text| ==> IsNumChar(text[i])
  }

  predicate WellFormed(ts: seq<Token>) {
    forall i :: 0 <= i < |ts| ==> (ts[i].Number? ==> IsNumeral(ts[i].text))
  }

  predicate IsParen(t: Token) {
    t.LParen? || t.RParen?
  }

  /** The lexemes of the numbers, in order. */
  function Numerals(ts: seq<Token>): seq<string> {
    if ts == [] then []
    else (if ts[0].Number? then [ts[0].text] else []) + Numerals(ts[1..])
  }

  /** The operators, counted with multiplicity. */
  function Ops(ts: seq<Token>): multiset<Op> {
    if ts == [] then multiset{}
    else (if ts[0].Operator? then multiset{ts[0].op} else multiset{}) + Ops(ts[1..])
  }

  lemma {:induction false} NumeralsAppend(a: seq<Token>, b: seq<Token>)
    ensures Numerals(a + b) == Numerals(a) + Numerals(b)
    decreases |a|
  {
    if a == [] {
      assert a + b == b;
    } else {
      assert (a + b)[1..] == a[1..] + b;
      NumeralsAppend(a[1..], b);
    }
  }

  lemma {:induction false} OpsAppend(a: seq<Token>, b: seq<Token>)
    ensures Ops(a + b) == Ops(a) + Ops(b)
    decreases |a|
  {
    if a == [] {
      assert a + b == b;
    } else {
      assert (a + b)[1..] == a[1..] + b;
      OpsAppend(a[1..], b);
    }
  }
}

=== FILE: trees.dfy ===
/** Expression trees, used to state what the shunting-yard stage and the
    evaluator compute: a fully parenthesised infix token sequence is turned
    into the postfix sequence of the same tree. */
module Trees {
  import opened Results
  import opened Tables
  import opened Tokens
  import opened Rpn

  datatype Expr = Num(text: string) | Bin(op: Op, left: Expr, right: Expr)

  /** The tree written with a pair of parentheses around every operation. */
  function Infix(e: Expr): seq<Token> {
    match e
    case Num(text) => [Number(text)]
    case Bin(o, l, r) => [LParen] + Infix(l) + [Operator(o)] + Infix(r) + [RParen]
  }

  /** The tree in postfix order: operands first, then their operator. */
  function Postfix(e: Expr): seq<Token> {
    match e
    case Num(text) => [Number(text)]
    case Bin(o, l, r) => Postfix(l) + Postfix(r) + [Operator(o)]
  }

  // The turns of the main loop that a parenthesised tree takes.

  lemma RunNumber(text: string, rest: seq<Token>, out: seq<Token>, stk: seq<Token>)
    ensures Run([Number(text)] + rest, Shunt(out, stk)) == Run(rest, Shunt(out + [Number(text)], stk))
  {
    var ts := [Number(text)] + rest;
    assert ts[0] == Number(text) && ts[1..] == rest;
    RunCons(ts, Shunt(out, stk));
  }

  lemma RunOpen(rest: seq<Token>, out: seq<Token>, stk: seq<Token>)
    ensures Run([LParen] + rest, Shunt(out, stk)) == Run(rest, Shunt(out, stk + [LParen]))
  {
    var ts := [LParen] + rest;
    assert ts[0] == LParen && ts[1..] == rest;
    RunCons(ts, Shunt(out, stk));
  }

  lemma RunOperator(o: Op, rest: seq<Token>, st: Shunt)
    ensures var p := PopHigher(o, st);
      Run([Operator(o)] + rest, st) == Run(rest, Shunt(p.out, p.stack + [Operator(o)]))
  {
    var ts := [Operator(o)] + rest;
    assert ts[0] == Operator(o) && ts[1..] == rest;
    RunCons(ts, st);
  }

  /** The final loop moves the operator on top of the stack to the output. */
  lemma DrainOne(o: Op, out: seq<Token>, stk: seq<Token>)
    ensures Drain(Shunt(out, stk + [Operator(o)])) == Drain(Shunt(out + [Operator(o)], stk))
  {
    assert (stk + [Operator(o)])[..|stk|] == stk;
  }

  /** An operator right after a `(` moves nothing: the `(` stops the inner loop. */
  lemma RunOperatorOnOpen(o: Op, rest: seq<Token>, out: seq<Token>, stk: seq<Token>)
    ensures Run([Operator(o)] + rest, Shunt(out, stk + [LParen]))
         == Run(rest, Shunt(out, stk + [LParen] + [Operator(o)]))
  {
    var ts := [Operator(o)] + rest;
    assert ts[0] == Operator(o) && ts[1..] == rest;
    assert PopHigher(o, Shunt(out, stk + [LParen])) == Shunt(out, stk + [LParen]);
    RunCons(ts, Shunt(out, stk + [LParen]));
  }

  /** A `)` facing `( op` moves the operator and drops the `(`. */
  lemma RunCloseOne(o: Op, rest: seq<Token>, out: seq<Token>, stk: seq<Token>)
    ensures Run([RParen] + rest, Shunt(out, stk + [LParen] + [Operator(o)]))
         == Run(rest, Shunt(out + [Operator(o)], stk))
  {
    var ts := [RParen] + rest;
    assert ts[0] == RParen && ts[1..] == rest;
    var full := stk + [LParen] + [Operator(o)];
    assert full[..|full| - 1] == stk + [LParen];
    assert (stk + [LParen])[..|stk|] == stk;
    assert PopToOpen(Shunt(out, full)) == Success(Shunt(out + [Operator(o)], stk));
    RunCons(ts, Shunt(out, full));
  }

  lemma InfixSplit(o: Op, l: Expr, r: Expr, rest: seq<Token>)
    ensures Infix(Bin(o, l, r)) + rest
         == [LParen] + (Infix(l) + ([Operator(o)] + (Infix(r) + ([RParen] + rest))))
  {
  }

  /** Shunting a fully parenthesised tree appends its postfix form to the
      output and leaves the stack as it found it, whatever lies below. */
  lemma {:induction false} RunInfix(e: Expr, rest: seq<Token>, out: seq<Token>, stk: seq<Token>)
    ensures Run(Infix(e) + rest, Shunt(out, stk)) == Run(rest, Shunt(out + Postfix(e), stk))
    decreases e
  {
    match e
    case Num(text) =>
      RunNumber(text, rest, out, stk);
    case Bin(o, l, r) =>
      var closing := [RParen] + rest;
      var tail := [Operator(o)] + (Infix(r) + closing);
      RunInfix(l, tail, out, stk + [LParen]);
      RunInfix(r, closing, out + Postfix(l), stk + [LParen] + [Operator(o)]);
      RunInfixBin(o, l, r, rest, out, stk);
  }

  /** The turns of a `( l o r )` once both subtrees are known to shunt to
      their postfix forms. */
  lemma RunInfixBin(o: Op, l: Expr, r: Expr, rest: seq<Token>, out: seq<Token>, stk: seq<Token>)
    requires var tail := [Operator(o)] + (Infix(r) + ([RParen] + rest));
      Run(Infix(l) + tail, Shunt(out, stk + [LParen])) == Run(tail, Shunt(out + Postfix(l), stk + [LParen]))
    requires var closing := [RParen] + rest;
      Run(Infix(r) + closing, Shunt(out + Postfix(l), stk + [LParen] + [Operator(o)]))
        == Run(closing, Shunt(out + Postfix(l) + Postfix(r), stk + [LParen] + [Operator(o)]))
    ensures Run(Infix(Bin(o, l, r)) + rest, Shunt(out, stk)) == Run(rest, Shunt(out + Postfix(Bin(o, l, r)), stk))
  {
    var open := stk + [LParen];
    var afterL := out + Postfix(l);
    var afterR := afterL + Postfix(r);
    var closing := [RParen] + rest;
    var tail := [Operator(o)] + (Infix(r) + closing);
    assert Run(Infix(Bin(o, l, r)) + rest, Shunt(out, stk)) == Run(Infix(l) + tail, Shunt(out, open)) by {
      InfixSplit(o, l, r, rest);
      RunOpen(Infix(l) + tail, out, stk);
    }
    assert Run(tail, Shunt(afterL, open)) == Run(Infix(r) + closing, Shunt(afterL, open + [Operator(o)])) by {
      RunOperatorOnOpen(o, Infix(r) + closing, afterL, stk);
    }
    assert Run(closing, Shunt(afterR, open + [Operator(o)])) == Run(rest, Shunt(out + Postfix(Bin(o, l, r)), stk)) by {
      RunCloseOne(o, rest, afterR, stk);
      assert afterR + [Operator(o)] == out + Postfix(Bin(o, l, r));
    }
  }

  /** A fully parenthesised tree is turned into its postfix form. */
  lemma ToRPNInfix(e: Expr)
    ensures ToRPN(Infix(e)) == Success(Postfix(e))
  {
    RunInfix(e, [], [], []);
    assert Infix(e) + [] == Infix(e);
    assert [] + Postfix(e) == Postfix(e);
  }

  /** An operator meeting another on the stack moves it out exactly when
      the other binds more tightly, or as tightly and the incoming one is
      not the right-associative `^`. */
  lemma YieldsByTable(o1: Op, o2: Op)
    ensures Yields(o1, o2) <==>
      Precedence(o1) < Precedence(o2) || (Precedence(o1) == Precedence(o2) && o1 != Pow)
  {
  }

  /** The main loop over `a o1 b o2 c`. */
  lemma RunChain(a: string, o1: Op, b: string, o2: Op, c: string)
    ensures var p := PopHigher(o2, Shunt([Number(a), Number(b)], [Operator(o1)]));
      Run([Number(a), Operator(o1), Number(b), Operator(o2), Number(c)], Shunt([], []))
        == Success(Shunt(p.out + [Number(c)], p.stack + [Operator(o2)]))
  {
    var na, nb, nc, p1, p2 := Number(a), Number(b), Number(c), Operator(o1), Operator(o2);
    var p := PopHigher(o2, Shunt([na, nb], [p1]));
    assert Run([na, p1, nb, p2, nc], Shunt([], [])) == Run([p1, nb, p2, nc], Shunt([na], [])) by {
      assert [na, p1, nb, p2, nc] == [na] + [p1, nb, p2, nc];
      RunNumber(a, [p1, nb, p2, nc], [], []);
      assert [] + [na] == [na];
    }
    assert Run([p1, nb, p2, nc], Shunt([na], [])) == Run([nb, p2, nc], Shunt([na], [p1])) by {
      assert [p1, nb, p2, nc] == [p1] + [nb, p2, nc];
      RunOperator(o1, [nb, p2, nc], Shunt([na], []));
      assert [] + [p1] == [p1];
    }
    assert Run([nb, p2, nc], Shunt([na], [p1])) == Run([p2, nc], Shunt([na, nb], [p1])) by {
      assert [nb, p2, nc] == [nb] + [p2, nc];
      RunNumber(b, [p2, nc], [na], [p1]);
      assert [na] + [nb] == [na, nb];
    }
    assert Run([p2, nc], Shunt([na, nb], [p1])) == Run([nc], Shunt(p.out, p.stack + [p2])) by {
      assert [p2, nc] == [p2] + [nc];
      RunOperator(o2, [nc], Shunt([na, nb], [p1]));
    }
    assert Run([nc], Shunt(p.out, p.stack + [p2])) == Success(Shunt(p.out + [nc], p.stack + [p2])) by {
      assert [nc] == [nc] + [];
      RunNumber(c, [], p.out, p.stack + [p2]);
    }
  }

  /** `a o1 b o2 c` without parentheses: `o1` is applied first exactly when
      the incoming `o2` makes it yield. */
  lemma ToRPNChain(a: string, o1: Op, b: string, o2: Op, c: string)
    ensures ToRPN([Number(a), Operator(o1), Number(b), Operator(o2), Number(c)])
         == Success(if Yields(o2, o1)
                    then [Number(a), Number(b), Operator(o1), Number(c), Operator(o2)]
                    else [Number(a), Number(b), Number(c), Operator(o2), Operator(o1)])
  {
    var na, nb, nc, p1, p2 := Number(a), Number(b), Number(c), Operator(o1), Operator(o2);
    var ts := [na, p1, nb, p2, nc];
    var p := PopHigher(o2, Shunt([na, nb], [p1]));
    var last := Shunt(p.out + [nc], p.stack + [p2]);
    assert ToRPN(ts) == Drain(last) by {
      RunChain(a, o1, b, o2, c);
    }
    if Yields(o2, o1) {
      assert p == Shunt([na, nb, p1], []) by {
        var st := Shunt([na, nb], [p1]);
        assert st.stack[|st.stack| - 1] == p1 && st.stack[..|st.stack| - 1] == [];
        assert st.out + [p1] == [na, nb, p1];
        assert PopHigher(o2, st) == PopHigher(o2, Shunt([na, nb, p1], []));
      }
      assert Drain(last) == Success([na, nb, p1, nc, p2]) by {
        assert last == Shunt([na, nb, p1] + [nc], [] + [p2]);
        DrainOne(o2, [na, nb, p1] + [nc], []);
        assert [na, nb, p1] + [nc] + [p2] == [na, nb, p1, nc, p2];
      }
    } else {
      assert p == Shunt([na, nb], [p1]);
      assert Drain(last) == Success([na, nb, nc, p2, p1]) by {
        assert last == Shunt([na, nb] + [nc], [p1] + [p2]);
        DrainOne(o2, [na, nb] + [nc], [p1]);
        assert [p1] == [] + [p1];
        DrainOne(o1, [na, nb] + [nc] + [p2], []);
        assert [na, nb] + [nc] + [p2] + [p1] == [na, nb, nc, p2, p1];
      }
    }
  }

  /** `2 ^ 3 ^ 2` groups to the right: `2 3 2 ^ ^`. */
  lemma PowerGroupsRight()
    ensures ToRPN([Number("2"), Operator(Pow), Number("3"), Operator(Pow), Number("2")])
         == Success([Number("2"), Number("3"), Number("2"), Operator(Pow), Operator(Pow)])
  {
    ToRPNChain("2", Pow, "3", Pow, "2");
  }

  /** `2 - 3 - 2` groups to the left: `2 3 - 2 -`. */
  lemma MinusGroupsLeft()
    ensures ToRPN([Number("2"), Operator(Sub), Number("3"), Operator(Sub), Number("2")])
         == Success([Number("2"), Number("3"), Operator(Sub), Number("2"), Operator(Sub)])
  {
    ToRPNChain("2", Sub, "3", Sub, "2");
  }

  /** `1 + 2 * 3`: the product is taken first, `1 2 3 * +`. */
  lemma TimesBeforePlus()
    ensures ToRPN([Number("1"), Operator(Add), Number("2"), Operator(Mul), Number("3")])
         == Success([Number("1"), Number("2"), Number("3"), Operator(Mul), Operator(Add)])
  {
    ToRPNChain("1", Add, "2", Mul, "3");
  }

  /** The first four turns of `2 * 3 ^ 2 + 1`: `^` does not move the `*`
      below it. */
  lemma RunPlusPopsTwoHead(rest: seq<Token>)
    ensures Run([Number("2"), Operator(Mul), Number("3"), Operator(Pow)] + rest, Shunt([], []))
         == Run(rest, Shunt([Number("2"), Number("3")], [Operator(Mul), Operator(Pow)]))
  {
    var two, three, mul, pow := Number("2"), Number("3"), Operator(Mul), Operator(Pow);
    assert [two, mul, three, pow] + rest == [two, mul] + ([three, pow] + rest);
    RunTwoTimes([three, pow] + rest);
    RunThreePow(rest);
  }

  lemma RunTwoTimes(rest: seq<Token>)
    ensures Run([Number("2"), Operator(Mul)] + rest, Shunt([], []))
         == Run(rest, Shunt([Number("2")], [Operator(Mul)]))
  {
    var two, mul := Number("2"), Operator(Mul);
    assert Run([two, mul] + rest, Shunt([], [])) == Run([mul] + rest, Shunt([two], [])) by {
      assert [two, mul] + rest == [two] + ([mul] + rest);
      RunNumber("2", [mul] + rest, [], []);
      assert [] + [two] == [two];
    }
    assert Run([mul] + rest, Shunt([two], [])) == Run(rest, Shunt([two], [mul])) by {
      RunOperator(Mul, rest, Shunt([two], []));
      assert [] + [mul] == [mul];
    }
  }

  lemma RunThreePow(rest: seq<Token>)
    ensures Run([Number("3"), Operator(Pow)] + rest, Shunt([Number("2")], [Operator(Mul)]))
         == Run(rest, Shunt([Number("2"), Number("3")], [Operator(Mul), Operator(Pow)]))
  {
    var two, three, mul, pow := Number("2"), Number("3"), Operator(Mul), Operator(Pow);
    assert Run([three, pow] + rest, Shunt([two], [mul])) == Run([pow] + rest, Shunt([two, three], [mul])) by {
      assert [three, pow] + rest == [three] + ([pow] + rest);
      RunNumber("3", [pow] + rest, [two], [mul]);
      assert [two] + [three] == [two, three];
    }
    assert Run([pow] + rest, Shunt([two, three], [mul])) == Run(rest, Shunt([two, three], [mul, pow])) by {
      RunOperator(Pow, rest, Shunt([two, three], [mul]));
      assert PopHigher(Pow, Shunt([two, three], [mul])) == Shunt([two, three], [mul]);
      assert [mul] + [pow] == [mul, pow];
    }
  }

  /** The incoming `+` moves `^` and then `*` to the output. */
  lemma PopHigherPlusTwo()
    ensures PopHigher(Add, Shunt([Number("2"), Number("3"), Number("2")], [Operator(Mul), Operator(Pow)]))
         == Shunt([Number("2"), Number("3"), Number("2"), Operator(Pow), Operator(Mul)], [])
  {
    var two, three, mul, pow := Number("2"), Number("3"), Operator(Mul), Operator(Pow);
    assert PopHigher(Add, Shunt([two, three, two], [mul, pow]))
        == PopHigher(Add, Shunt([two, three, two, pow], [mul])) by {
      var st := Shunt([two, three, two], [mul, pow]);
      assert st.stack[|st.stack| - 1] == pow && st.stack[..|st.stack| - 1] == [mul];
      assert st.out + [pow] == [two, three, two, pow];
    }
    assert PopHigher(Add, Shunt([two, three, two, pow], [mul]))
        == PopHigher(Add, Shunt([two, three, two, pow, mul], [])) by {
      var st := Shunt([two, three, two, pow], [mul]);
      assert st.stack[|st.stack| - 1] == mul && st.stack[..|st.stack| - 1] == [];
      assert st.out + [mul] == [two, three, two, pow, mul];
    }
  }

  /** `2 * 3 ^ 2 + 1`: the incoming `+` moves both `^` and `*` out, giving
      `2 3 2 ^ * 1 +`. */
  lemma PlusPopsTwo()
    ensures ToRPN([Number("2"), Operator(Mul), Number("3"), Operator(Pow), Number("2"), Operator(Add), Number("1")])
         == Success([Number("2"), Number("3"), Number("2"), Operator(Pow), Operator(Mul), Number("1"), Operator(Add)])
  {
    var two, three, one := Number("2"), Number("3"), Number("1");
    var mul, pow, add := Operator(Mul), Operator(Pow), Operator(Add);
    var ts := [two, mul, three, pow, two, add, one];
    var final := Shunt([two, three, two, pow, mul, one], [add]);
    assert Run(ts, Shunt([], [])) == Success(final) by {
      assert ts == [two, mul, three, pow] + [two, add, one];
      RunPlusPopsTwoHead([two, add, one]);
      assert Run([two, add, one], Shunt([two, three], [mul, pow]))
          == Run([add, one], Shunt([two, three, two], [mul, pow])) by {
        RunNumber("2", [add, one], [two, three], [mul, pow]);
        assert [two, three] + [two] == [two, three, two];
      }
      assert Run([add, one], Shunt([two, three, two], [mul, pow]))
          == Run([one], Shunt([two, three, two, pow, mul], [add])) by {
        RunOperator(Add, [one], Shunt([two, three, two], [mul, pow]));
        PopHigherPlusTwo();
        assert [] + [add] == [add];
      }
      assert Run([one], Shunt([two, three, two, pow, mul], [add])) == Success(final) by {
        assert [one] + [] == [one];
        RunNumber("1", [], [two, three, two, pow, mul], [add]);
        assert [two, three, two, pow, mul] + [one] == [two, three, two, pow, mul, one];
      }
    }
    assert Drain(final) == Success([two, three, two, pow, mul, one, add]) by {
      assert [] + [add] == [add];
      DrainOne(Add, [two, three, two, pow, mul, one], []);
      assert [two, three, two, pow, mul, one] + [add] == [two, three, two, pow, mul, one, add];
    }
  }
}
